=== FILE: README.md ===
# rs-image-templating, modelled in Dafny

This project models the core of rs-image-templating, a Rust library that
composes images from layers. Each layer is a rectangle, an image or a line
of text. Each is sampled through a chain of filters and blended onto a
canvas. The model covers two generations of the code.

The current generation:

- `AlphaPixel<T>` with its presets, its colour-type tag and its
  normalisation to `[0, 1]` (module `Pixels`).
- The blending methods Replace, Over and Custom (module `Blending`).
- `Image<T>`, a row-major pixel buffer that is read and updated in place
  (module `Images`, a class).
- `Rect::contains` (module `Rects`).
- The `Filter` trait and `TranslateFilter` (module `Filters`).
- The layer sampling pipeline for rectangle and image layers (module
  `Layers`).
- The glyph layout iterator of text layers (module `Layout`; the iterator is
  a class whose `next` is proved against a step function).
- Glyph collection, raster sizing and `TextLayer` (module `Text`).

The older generation:

- The `ImagePixels` buffer with a `u32` width and a derived height (module
  `PixelBuffers`, a class over an array).
- The in-place flip filter (module `Flips`).
- The image layer that places a buffer at an `i32` position and can centre
  it (module `LegacyImages`).

Machine integers are unbounded in Dafny. The widths and casts of the source
are written out in module `MachineInts`:

- `usize` and `isize` for a 64-bit target, plus `u32` and `i32`;
- `wrapping_add_signed`;
- `as i32`, `as u32` and `as isize`;
- `f32 as isize`, which truncates and saturates;
- `i32` division, which rounds toward zero.

A call that would panic in the source is excluded by a precondition. Examples
are an arithmetic overflow in a debug build, an `unwrap` of `None`, an index
out of bounds, and `unreachable!`. Where the source returns an error value
instead, the model has an `Option` or `Result` error path. The exceptions
are listed under Left out: the text raster, which the model builds at its
corrected size (see Findings), and the `isize` additions and subtractions of
the text layout and of `glyph_positions`, which the model takes without
bounds.

The model follows the code as written, including where it behaves
unexpectedly:

- `Rect::contains` (src/rect.rs:10-12) has inclusive upper bounds, uses
  `width` for the vertical extent, and panics when an addition overflows.
  The model keeps all three. `Layers.ImageLayerRightEdgePanics` shows one
  consequence: the column just right of an image layer is "contained", and
  sampling it unwraps `None`. `Layers.ImageLayerTallRowsRefused` shows the
  other: in an image taller than it is wide, the rows past `width` are not
  contained, so the layer gives no pixel there.
- The doc comment of `Image::row_mut` (src/bitmap/image.rs:165) says it
  returns `None` if `y >= image.get_height()`. The code
  (src/bitmap/image.rs:174-177) checks the end of the range with
  `index_of(0, y + 1)`, so the last row is refused as well.
  `Images.Image.RowMut` states the code's behaviour.
- The text module (src/layers/text/mod.rs:3) uses the `pixels` copy of the
  blending enum, where Over is named `OverOperator` and dispatches to
  `over_operator(pixel2, pixel1)` exactly like the bitmap `Over`
  (src/pixels/blending.rs:5, 14). The model maps it to `Over`.

## Model

| member | source | states |
|---|---|---|
| MachineInts.WrappingAddSigned | src/filters/transform.rs:11 | `usize::wrapping_add_signed`: the result is a `usize`; it is the exact sum when that fits, and it is shifted by 2^64 on underflow or overflow |
| MachineInts.AsI32 | src/layer/images.rs:80-81 | `u32 as i32`: an `i32` that is the input itself up to `i32::MAX` and congruent to it modulo 2^32 |
| MachineInts.AsU32 | src/pixel/base.rs:59 | `usize as u32`: a `u32` no larger than the input, equal to it when it fits, and congruent modulo 2^32 |
| MachineInts.TruncDiv | src/layer/images.rs:69 | `i32` division by a positive divisor rounds toward zero: floor division for a non-negative dividend, and the negated quotient of the negation otherwise |
| MachineInts.AsIsize | src/layers/text/layout.rs:81 | `usize as isize`: an `isize` equal to the input when it fits and congruent modulo 2^64 |
| MachineInts.RealToIsize | src/layers/text/layout.rs:72 | `f32 as isize`: always an `isize`; inside that range it is the floor of a non-negative value and minus the floor of minus a negative one, so it truncates toward zero |
| Pixels.Rgba | src/bitmap/pixel.rs:13-21 | the `rgba!` macro builds the pixel with exactly the four given channels |
| Pixels.White | src/bitmap/pixel.rs:34-36 | opaque white: every channel at the maximum; in range and opaque |
| Pixels.Black | src/bitmap/pixel.rs:38-40 | opaque black: colour channels 0, alpha at the maximum; in range and opaque |
| Pixels.Red | src/bitmap/pixel.rs:42-44 | opaque red: r at the maximum, g and b 0; in range and opaque |
| Pixels.Green | src/bitmap/pixel.rs:46-48 | opaque green: g at the maximum, r and b 0; in range and opaque |
| Pixels.Blue | src/bitmap/pixel.rs:50-52 | opaque blue: b at the maximum, r and g 0; in range and opaque |
| Pixels.Default | src/bitmap/pixel.rs:79-83 | the `Default` impl, transparent black; its properties are stated by DefaultIsTransparentBlack |
| Pixels.PresetProperties | src/bitmap/pixel.rs:33-53 | white, black, red, green and blue are opaque and in range, carry the channel values their names say, and are five distinct pixels |
| Pixels.DefaultIsTransparentBlack | src/bitmap/pixel.rs:79-83 | the default pixel is the one whose four channels are 0; it is in range and is none of the presets |
| Pixels.ColorTypeOf | src/bitmap/pixel.rs:57-67 | Rgba8 exactly for 1-byte channels, Rgba16 exactly for 2-byte, Rgba32F exactly for 4-byte; any other size is `unreachable!`, so it is not accepted |
| Pixels.ColorTypeOfChannels | src/bitmap/pixel.rs:145-148 | `u8` pixels get Rgba8 and `u16` pixels Rgba16, as the test of `color_type` expects |
| Pixels.NormaliseChannel | src/bitmap/pixel.rs:89-92 | a channel within the maximum becomes a float in [0, 1] |
| Pixels.Normalise | src/bitmap/pixel.rs:86-95 | the float conversion maps every channel of an in-range pixel into [0, 1] |
| Pixels.DenormaliseChannel | src/bitmap/blending.rs:37-40 | `T::from_f32(v * max)` for v in [0, 1] yields a channel in range, the largest integer not above `v * max` |
| Pixels.NormaliseExtremes | src/bitmap/pixel.rs:115-122 | white normalises to (1, 1, 1, 1), the default pixel to (0, 0, 0, 0), and black to (0, 0, 0, 1) |
| Pixels.ChannelRoundTrip | src/bitmap/pixel.rs:86-95 | normalising an in-range channel and scaling it back by the same maximum gives the channel back |
| Pixels.NormaliseInjective | src/bitmap/pixel.rs:86-95 | two in-range pixels normalise to the same float pixel if and only if they are equal |
| Blending.Blend | src/bitmap/blending.rs:11-17 | Replace yields the foreground; Over keeps both in-range inputs' result in range |
| Blending.BlendDispatch | src/bitmap/blending.rs:11-17 | `blend(background, foreground)` is the foreground for Replace, `over_operator(foreground, background)` for Over, and `f(background, foreground)` for Custom |
| Blending.OverOperator | src/bitmap/blending.rs:21-41 | the Over result of two in-range pixels is in range |
| Blending.MixBetween | src/bitmap/blending.rs:32-34 | a weighted mean of two channels, with positive total weight, lies between them |
| Blending.WeightsBounded | src/bitmap/blending.rs:25-26 | the combined alpha `f1a + f2a(1 - f1a)` never exceeds 1, scaled to channel units |
| Blending.OverChannelsBetween | src/bitmap/blending.rs:32-39 | when either alpha is non-zero, each colour channel of the result lies between the two inputs' channels |
| Blending.WeightZeroIff | src/bitmap/blending.rs:25-28 | the combined alpha is 0 exactly when both alphas are 0, and is at least one channel unit otherwise |
| Blending.OverAlphaZeroIff | src/bitmap/blending.rs:28-30 | the result's alpha is 0 exactly when both alphas are 0, and then the result is the default pixel |
| Blending.OverAlphaAtLeastInputs | src/bitmap/blending.rs:25-26 | the result's alpha is at least each input's alpha |
| Blending.OverAlphaCommutes | src/bitmap/blending.rs:25-26 | swapping foreground and background leaves the result's alpha unchanged |
| Blending.OverOpaqueForeground | src/bitmap/blending.rs:21-41 | an opaque foreground is returned unchanged, whatever the background |
| Blending.OverTransparentForeground | src/bitmap/blending.rs:21-41 | a fully transparent foreground leaves a visible background unchanged, and gives the default pixel over a transparent one |
| Blending.OverDefaultIdentity | src/bitmap/blending.rs:21-41 | blending a visible pixel Over the default pixel, or the default pixel Over it, gives that pixel back |
| Blending.OverTableRow1 | src/bitmap/blending.rs:52 | unit case 1 of `blend_over_u8` |
| Blending.OverTableRow2 | src/bitmap/blending.rs:53 | unit case 2 of `blend_over_u8` |
| Blending.OverTableRow3 | src/bitmap/blending.rs:54 | unit case 3 of `blend_over_u8` |
| Blending.OverTableRow4 | src/bitmap/blending.rs:55 | unit case 4 of `blend_over_u8` |
| Blending.OverTableRow5 | src/bitmap/blending.rs:56 | unit case 5 of `blend_over_u8` |
| Blending.OverTableRow6 | src/bitmap/blending.rs:57 | unit case 6 of `blend_over_u8` |
| Blending.OverTableRow7 | src/bitmap/blending.rs:58 | unit case 7 of `blend_over_u8`: (0, 50, 100, 25) over opaque white truncates to (230, 234, 239, 255) |
| Blending.OverTableRow8 | src/bitmap/blending.rs:59 | unit case 8 of `blend_over_u8` |
| Blending.OverTableRow9 | src/bitmap/blending.rs:60 | unit case 9 of `blend_over_u8` |
| Blending.OverTableRow10 | src/bitmap/blending.rs:61 | unit case 10 of `blend_over_u8` |
| Blending.OverTableRow11 | src/bitmap/blending.rs:62 | unit case 11 of `blend_over_u8`: two translucent pixels give (72, 53, 194, 122) |
| Blending.OverTableRow12 | src/bitmap/blending.rs:63 | unit case 12 of `blend_over_u8` |
| Blending.OverTableRow13 | src/bitmap/blending.rs:64 | unit case 13 of `blend_over_u8` |
| Blending.OverTableRow14 | src/bitmap/blending.rs:65 | unit case 14 of `blend_over_u8` |
| Blending.ReplaceUnitTable | src/bitmap/blending.rs:76-79 | the four cases of `blend_replace_u8`: Replace returns the foreground |
| Images.OffsetInBounds | src/bitmap/image.rs:123-125 | the index `width * y + x` of a point inside the image lies inside the buffer, and so does the rest of its row |
| Images.OffsetInjective | src/bitmap/image.rs:123-125 | two points with in-range columns share an index exactly when they are the same point |
| Images.OffsetCovers | src/bitmap/image.rs:123-125 | every buffer index is the index of exactly the point (i mod width, i div width) inside the image |
| Images.Cell | src/bitmap/image.rs:188-190 | the pixel at an in-bounds point is the buffer element at its index, and is one of the buffer's pixels |
| Images.CheckDimensions | src/bitmap/image.rs:72-87 | a zero width with a non-empty buffer is ZeroWidth; a width that does not divide the length is IncorrectWidth; otherwise the height satisfies width * height == length, and is 0 for the empty zero-width buffer |
| Images.CheckDimensionsExamples | src/bitmap/image.rs:366-386 | the `from_pixels_fail` and `from_pixels_valid` cases: 10 pixels with width 3 and width 0 fail with the two errors; 0 with 0 and 100 with 10 succeed |
| Images.Extent | src/bitmap/image.rs:228-229 | the part of a subimage that fits is no longer than the subimage, does not reach past the edge, and is cut only at the edge |
| Images.DrawnPixel | src/bitmap/image.rs:231-237 | a drawn pixel is in range, and a cell outside the covered rectangle keeps its background |
| Images.DrawnPixelReplace | src/bitmap/image.rs:231-237 | drawing with Replace puts the subimage's own pixel into every covered cell |
| Images.DrawnPixelTransparentOver | src/bitmap/image.rs:231-237 | drawing a fully transparent subimage with Over leaves every visible or default pixel unchanged |
| Images.DrawStep | src/bitmap/image.rs:235-237 | blending one more source pixel into the next cell keeps the drawing invariant, with one more cell done |
| Images.NextRow | src/bitmap/image.rs:231-232 | a finished row of the drawing is the start of the next one |
| Images.DrawnUpToAll | src/bitmap/image.rs:231-240 | once every row is drawn, each cell holds its drawn pixel |
| Images.Image.Empty | src/bitmap/image.rs:47-49 | `new` makes a valid 0 by 0 image with no pixels |
| Images.Image.WithFill | src/bitmap/image.rs:57-60 | `new_with_fill` makes a valid width by height image whose every pixel is the fill; the `width * height` multiplication must not overflow `usize` |
| Images.Image.FromPixels | src/bitmap/image.rs:72-87 | `from_pixels` fails exactly when CheckDimensions does, with the same error; on success the image is valid and keeps the buffer and the width, and its height is the one CheckDimensions gives; the buffer, a `Vec`, has at most `usize::MAX` pixels |
| Images.Image.FromFunction | src/bitmap/image.rs:99-107 | `from_function` makes a width by height image whose pixel at (c, r) is `f(c, r)` (the `pixel_at` test at 353-363); the `width * height` multiplication must not overflow `usize` |
| Images.Image.Contains | src/bitmap/image.rs:218-220 | a contained point's row-major index and the rest of its row lie inside the buffer; IndexOf finds an index exactly at contained points |
| Images.Image.IndexOfUnchecked | src/bitmap/image.rs:123-125 | the row-major index `width * y + x`, which must not overflow `usize` |
| Images.Image.IndexOf | src/bitmap/image.rs:138-144 | on a valid image, an index exactly when the point is inside (exactly when Contains holds), and then the row-major index, which is below width * height |
| Images.Image.PixelAt | src/bitmap/image.rs:188-190 | a pixel exactly when the point is inside, and then the pixel at its index, in range |
| Images.Image.Row | src/bitmap/image.rs:157-161 | a row exactly when the width is non-zero and the row index is below the height; it is `width` long and holds that row's pixels in order |
| Images.Image.RowMut | src/bitmap/image.rs:174-177 | a write through `row_mut` succeeds exactly when the width is non-zero and `y + 1 < height`, so the last row is refused; on success exactly row `y` changes, otherwise nothing does |
| Images.Image.PixelAtMut | src/bitmap/image.rs:202-205 | a write through `pixel_at_mut` succeeds exactly when the point is inside; then exactly that pixel changes, otherwise nothing does |
| Images.Image.DrawSubimage | src/bitmap/image.rs:227-241 | fails exactly when `x` equals the width and some row is to be drawn; otherwise every cell becomes its DrawnPixel, so covered cells are blended and the rest are unchanged; on failure nothing changes |
| Rects.Rect.ContainsDefined | src/rect.rs:10-12 | `contains` evaluates without a `usize` overflow: `x + width` is needed once `px >= x`, and `y + width` once the first three tests pass, as `&&` short-circuits |
| Rects.Rect.Contains | src/rect.rs:10-12 | `x <= px <= x + width` and `y <= py <= y + width`; its consequences are stated by the Rects lemmas that follow |
| Rects.ContainsCorners | src/rect.rs:10-12 | the top-left corner and the corner (x + width, y + width) are both contained; a zero-width rectangle contains only its top-left corner, whatever its height |
| Rects.ContainsExcludesPastEdge | src/rect.rs:10-12 | the column and the row one past `width` are not contained |
| Rects.ContainsIgnoresHeight | src/rect.rs:10-12 | rows below `y + width` are refused even inside a taller rectangle's height |
| Rects.ContainsHeightIndependent | src/rect.rs:10-12 | changing only the height changes neither when `contains` is defined nor what it answers |
| Filters.DefaultTranslate | src/filters/transform.rs:3-7 | `TranslateFilter::default()` is a translation by (0, 0) that fits `isize` |
| Filters.FilterPixel | src/filters/mod.rs:6-8 | a filter that does not override `filter_pixel` returns the pixel unchanged |
| Filters.FilterTransform | src/filters/mod.rs:10-12 | the default `filter_transform` is the identity; a translation subtracts its offset from each coordinate with `usize` wrap-around |
| Filters.DefaultTranslateIsIdentity | src/filters/transform.rs:3-12 | the default translation changes neither coordinates nor pixels |
| Filters.TranslateInverse | src/filters/transform.rs:10-12 | translating by (dx, dy) and then by (-dx, -dy) gives every coordinate back, wrap-around included |
| Filters.TranslateCompose | src/filters/transform.rs:10-12 | translating by (a, b) and then by (c, d) is translating by (a + c, b + d) |
| Layers.PixelAll | src/layers/mod.rs:25-27 | every filter's `filter_pixel`, the first filter first; stated by PixelAllAppend, PixelAllNoRecolor and FilterColour |
| Layers.TransformAll | src/layers/mod.rs:18-22 | the coordinate after the whole chain of transforms is again a pair of `usize` |
| Layers.Layer.GetRect | src/layers/image.rs:18-20 | a rectangle layer's rectangle is its own; an image layer's is at its position with its image's width and height |
| Layers.Layer.UnfilteredPixelAtUnchecked | src/layers/image.rs:26-28 | an image layer reads its image at the offset from its position; a rectangle layer gives its fill (src/layers/shapes.rs:25-27) |
| Layers.Layer.UnfilteredPixelAt | src/layers/mod.rs:34-40 | a pixel exactly when the layer's rectangle contains the point, and then the unchecked pixel |
| Layers.Layer.FilteredPixel | src/layers/mod.rs:17-29 | the value of `filtered_pixel_at`: the unfiltered sample at TransformAll's coordinate, recoloured by PixelAll; FilteredPixelAt is proved to return it |
| Layers.Layer.FilteredPixelAt | src/layers/mod.rs:17-29 | the loop over the filters returns exactly the chain's transforms, then the unfiltered pixel, then the chain's pixel functions |
| Layers.TransformCoordinate | src/layers/mod.rs:18-22 | the loop over the filters computes the chain's composed transform |
| Layers.FilterColour | src/layers/mod.rs:25-27 | the loop over the filters computes the chain's composed pixel function |
| Layers.NewRectangleLayer | src/layers/shapes.rs:11-13 | `RectangleLayer::new` has no filters and the given fill and rectangle |
| Layers.NewImageLayer | src/layers/image.rs:12-14 | `ImageLayer::new` has no filters and the given image and position |
| Layers.TransformAllAppend | src/layers/mod.rs:20-22 | transforming through `a + b` is transforming through `a` and then through `b` |
| Layers.PixelAllAppend | src/layers/mod.rs:25-27 | filtering a pixel through `a + b` is filtering through `a` and then through `b` |
| Layers.PixelAllNoRecolor | src/layers/mod.rs:25-27 | a chain with no recolouring filter leaves the pixel unchanged |
| Layers.TransformAllNoTranslate | src/layers/mod.rs:20-22 | a chain with no translation leaves the coordinate unchanged |
| Layers.InsertFilter | src/filters/mod.rs:5-13 | inserting any filter that does not translate, anywhere in a chain, leaves the transformed coordinate unchanged; inserting a filter that overrides neither method also leaves the filtered pixel unchanged |
| Layers.EmptyChainUnfiltered | src/layers/mod.rs:17-29 | with no filters, the filtered pixel is the unfiltered one |
| Layers.RectangleSample | src/layers/shapes.rs:16-27 | a new rectangle layer gives its fill exactly at the points its rectangle contains |
| Layers.ImageLayerRightEdgePanics | src/layers/image.rs:26-28 | the column just right of an image layer is contained by its rectangle, yet the image has no pixel there, so `unwrap` panics |
| Layers.ImageLayerSample | src/layers/image.rs:26-28 | at a point of the image whose row offset is at most its width (`Rect::contains` measures rows by width), the sampled pixel is the image's pixel at the offset from the layer's position |
| Layers.ImageLayerTallRowsRefused | src/layers/image.rs:26-28 | in an image taller than it is wide, a point whose row offset lies past the width is not contained, so the layer gives None although the image has a pixel there |
| Layers.TranslateTestCorner | src/filters/transform.rs:29-32 | a translation by (10, -5) of the test rectangle maps (16, 8) to (6, 13), which samples red |
| Layers.TranslateTestWrapped | src/filters/transform.rs:34 | (3, 9) wraps around to (2^64 - 7, 14), which the rectangle does not contain |
| Layers.TranslateTestInside | src/filters/transform.rs:35 | (13, 4) maps to (3, 9), which samples red |
| Layout.DefaultLayout | src/layers/text/layout.rs:32-41 | the default layout is left to right with kerning, and both spacings are a scale of 1 |
| Layout.Start | src/layers/text/layout.rs:53-55 | a new iterator is at the start of the text, on row 0, with no previous glyph |
| Layout.CalculateKernedOrigin | src/layers/text/layout.rs:58-66 | with no kerning value for the pair, the origin is unchanged |
| Layout.CalculateBaseline | src/layers/text/layout.rs:69-84 | fails exactly when writing left to right with a scaled line spacing and a font without horizontal line metrics; top to bottom after a glyph it is the remembered next origin |
| Layout.CalculateOriginX | src/layers/text/layout.rs:86-103 | fails exactly when writing top to bottom with a scaled line spacing and a font without vertical line metrics; left to right with no previous glyph it is 0 |
| Layout.NextOrigin | src/layers/text/layout.rs:130-139 | the origin after a glyph, along the writing direction: its advance (or the glyph's height plus the default spacing), scaled, or a constant spacing, cast to `isize`; stated by StepRemembers and LaterGlyphOfLine |
| Layout.ReadNext | src/layers/text/layout.rs:110-116 | `next()?` and the newline loop: a character read is never a newline and consumes text; nothing read means the text is used up |
| Layout.SkipNewlines | src/layers/text/layout.rs:110-116 | the skipped prefix consists of newlines only, and there is one more row for each; the text left is empty or starts with another character; the previous glyph is forgotten once a newline is read |
| Layout.Step | src/layers/text/layout.rs:109-144 | a call of `next` that yields an item consumes at least one character |
| Layout.LayoutIter.constructor | src/layers/text/layout.rs:53-55 | `LayoutIter::new` keeps the settings and starts in the state Start gives |
| Layout.LayoutIter.ReadGlyph | src/layers/text/layout.rs:110-116 | the `next()?` calls and the newline loop leave the iterator in the state ReadNext gives, and return its character |
| Layout.LayoutIter.Next | src/layers/text/layout.rs:109-144 | the item and the new state are those of Step |
| Layout.StepConsumes | src/layers/text/layout.rs:109-116 | a call that yields reads some newlines and then exactly the glyph it lays out; one that yields nothing has read only newlines to the end |
| Layout.NewlineNeverYielded | src/layers/text/layout.rs:112-116 | no item the iterator yields is a newline |
| Layout.ItemCount | tests/text/glyph_layout.rs:47-57 | the iterator yields one item for each character that is not a newline |
| Layout.FirstGlyphOfLine | src/layers/text/layout.rs:88-93 | left to right, the first glyph of a line starts at x = 0 |
| Layout.LaterGlyphOfLine | src/layers/text/layout.rs:88-92 | left to right, a later glyph starts at the previous glyph's next origin, kerned only when kerning is on |
| Layout.TopToBottomColumn | src/layers/text/layout.rs:95-101 | top to bottom, a glyph's x origin depends on its row alone |
| Layout.ErrorIffMissingLineMetrics | src/layers/text/layout.rs:73-75 | `next` yields an error exactly when a character other than a newline is left, the line spacing is a scale of the font's line size, and the font has no line metrics for the direction (also 96-98) |
| Layout.ConstantSpacingNeverFails | src/layers/text/layout.rs:72 | with constant line spacing, every item yielded is a glyph |
| Layout.StepRemembers | src/layers/text/layout.rs:118-143 | a yielded glyph has the computed origin and baseline, and the iterator remembers it with its next origin; an error leaves the previous glyph untouched |
| Text.Add | src/layers/text/mod.rs:35-46 | one iteration for a placed glyph: its character gains an entry, the minimum covers the glyph's origin and never grows, and the maximum never shrinks; CollectBounds states what the bounds cover |
| Text.Collect | src/layers/text/mod.rs:32-49 | the loop over the yielded items from empty lists at (0, 0), stopped by the first error; stated by CollectFirstError, CollectBounds and CollectGroups |
| Text.GlyphPositionsOf | src/layers/text/mod.rs:27-50 | what `glyph_positions` returns: Collect over every item the iterator yields; GlyphPositions is proved equal to it |
| Text.GlyphPositions | src/layers/text/mod.rs:27-50 | the loop over the iterator returns exactly the collection of all yielded items |
| Text.CollectStep | src/layers/text/mod.rs:32-46 | one iteration of the loop: stop with the result, fail with the item's error, or add the glyph and go on |
| Text.CollectMore | src/layers/text/mod.rs:32-46 | after one more item, an error item makes the whole loop fail with that error, and a glyph extends the collection by one Add |
| Text.CollectErrSticky | src/layers/text/mod.rs:33 | once the `?` has failed, later items change nothing |
| Text.CollectFirstError | src/layers/text/mod.rs:33 | collection fails exactly when some item is an error, and then with the first such error |
| Text.CollectBounds | src/layers/text/mod.rs:41-46 | on success the minimum is at most (0, 0) and at most every origin; the maximum is at least (0, 0) and at least every glyph's far corner; each minimum is 0 or some glyph's coordinate |
| Text.CollectGroups | src/layers/text/mod.rs:35-37 | on success each glyph's list holds exactly its coordinates, in layout order, and only glyphs that were placed have a list |
| Text.RasterSize | src/layers/text/mod.rs:55 | the raster spans exactly from the minimum to the maximum coordinate in each axis |
| Text.RasterOffset | src/layers/text/mod.rs:70-71 | a glyph is drawn at a non-negative offset that, added to the minimum, gives back its coordinate; PlacementsFitRaster puts it inside the raster |
| Text.PlacementsFitRaster | src/layers/text/mod.rs:55-71 | each placed glyph's offset into a raster of the intended size is non-negative, and its far corner is inside |
| Text.FromPixelsDims | src/layers/text/mod.rs:57 | `from_pixels` on `w * h` default pixels gives a w by h image when w > 0, and a 0 by 0 image when w == 0 |
| Text.SpaceItems | src/layers/text/layout.rs:109-143 | the iterator over " ", with an empty glyph and line size 30, yields exactly one glyph, at (0, 30) |
| Text.SpacePlacement | src/layers/text/layout.rs:109-143 | the text " " with an empty glyph and line size 30 places that glyph at (0, 30) and collects to the box (0, 0) to (0, 30) |
| Text.SpaceRasterTooShort | src/layers/text/mod.rs:55-57 | for that text the intended raster is 0 by 30 with the glyph at (0, 30), while `from_pixels` makes 0 by 0 |
| Text.RasterFromSettings | src/layers/text/mod.rs:53-57 | fails exactly when the layout fails, with its error; otherwise a fresh valid raster whose size is the glyphs' bounding box; its pixel count `w * h` must fit `usize` (RasterFits) |
| Text.TextLayer.constructor | src/layers/text/mod.rs:82-88 | given a valid raster of the layer's channel, the layer is valid and holds the given settings, raster and position, with no filters |
| Text.TextLayer.TryNew | src/layers/text/mod.rs:91-94 | fails exactly when rasterising fails; otherwise a layer with those settings, position, no filters, and a raster of the bounding box's size; requires RasterFits |
| Text.TextLayer.SetSettings | src/layers/text/mod.rs:100-104 | the settings are always replaced; the raster is replaced on success and kept on failure; the position and filters do not change; requires RasterFits |
| Text.TextLayer.GetRect | src/layers/text/mod.rs:108-110 | the layer's rectangle is at its position, with the raster's width and height |
| Text.TextLayer.AsLayer | src/layers/text/mod.rs:107-118 | sampling a text layer is sampling an image layer over its raster, with the same filters and position |
| Text.TextLayerRect | src/layers/text/mod.rs:108-110 | the image-layer view has the text layer's rectangle |
| PixelBuffers.IndexInBounds | src/pixel/base.rs:44-49 | for a point within width and height, `x + y * width` is below `len as u32`, so it is inside the vector and does not overflow `u32` |
| PixelBuffers.ImagePixels.FromPixelRows | src/pixel/base.rs:9-15 | the width is the first row's length cast to `u32`, and the vector is the rows concatenated |
| PixelBuffers.ImagePixels.FromPixels | src/pixel/base.rs:17-19 | stores the width and the vector as given |
| PixelBuffers.ImagePixels.AsRaw | src/pixel/base.rs:21-23 | returns the vector unchanged |
| PixelBuffers.ImagePixels.Width | src/pixel/base.rs:62-64 | the width, a `u32` |
| PixelBuffers.ImagePixels.Height | src/pixel/base.rs:58-60 | a `u32` whose rows fit the vector; for a vector of at most 2^32 - 1 pixels, one more row would not fit |
| PixelBuffers.ImagePixels.GetPixelAt | src/pixel/base.rs:44-49 | a pixel exactly when x < width and y < height, and then the vector's element at `x + y * width`, always inside the vector |
| PixelBuffers.ImagePixels.SetPixelAt | src/pixel/base.rs:51-56 | a write succeeds exactly when `get_pixel_at` would find the pixel; then exactly that element changes and reads back, otherwise nothing changes |
| PixelBuffers.ImagePixels.AsPixelRows | src/pixel/base.rs:25-34 | the rows are the vector's `width`-long chunks, in order |
| PixelBuffers.FlattenChunks | src/pixel/base.rs:25-34 | laying the chunks end to end gives back the vector |
| PixelBuffers.ChunksShape | src/pixel/base.rs:27 | every chunk is non-empty and at most `width` long, and all but the last are exactly `width` long |
| PixelBuffers.RowsRoundTrip | src/pixel/base.rs:9-34 | rows of one common non-zero length survive being flattened and chunked again |
| PixelBuffers.RowsThroughBuffer | src/pixel/base.rs:9-34 | `from_pixel_rows` followed by `as_pixel_rows` gives back rows of one common `u32` width |
| Flips.ParseDirection | src/filters/flip.rs:12-17 | no argument means both; "vertical", "horizontal" and "both" select their flips; any other string is refused (the panic at 53) |
| Flips.Reverse | src/filters/flip.rs:47 | reversal keeps the length |
| Flips.ReverseRows | src/filters/flip.rs:44 | reversing each `width`-long chunk keeps the length |
| Flips.SwapRows | src/filters/flip.rs:22-39 | swapping row pairs from the outside in keeps the length |
| Flips.RowPairsFit | src/filters/flip.rs:22-25 | the split point `(height / 2) * width`, taken twice, fits inside the vector, so both halves have `height / 2` whole rows |
| Flips.Flipped | src/filters/flip.rs:17-54 | every flip keeps the length |
| Flips.ReverseIndex | src/filters/flip.rs:47 | element i of the reversal is element `len - 1 - i` of the input |
| Flips.ReverseTwice | src/filters/flip.rs:47 | reversing twice gives the input back |
| Flips.ReverseMultiset | src/filters/flip.rs:47 | reversal is a permutation |
| Flips.ReverseRowsTwice | src/filters/flip.rs:44 | the horizontal flip applied twice gives the input back |
| Flips.ReverseRowsMultiset | src/filters/flip.rs:44 | the horizontal flip is a permutation |
| Flips.ReverseRowsChunks | src/filters/flip.rs:44 | the horizontal flip reverses each chunk of the vector and keeps the chunks in place |
| Flips.SwapRowsTwice | src/filters/flip.rs:37-39 | swapping the same row pairs twice gives the input back |
| Flips.SwapRowsMultiset | src/filters/flip.rs:37-39 | swapping row pairs is a permutation |
| Flips.SwapRowsReversesRows | src/filters/flip.rs:22-39 | on whole rows of equal length, swapping half the rows from each end reverses the order of the rows |
| Flips.FlipTwice | src/filters/flip.rs:17-54 | every flip is its own inverse |
| Flips.VerticalTwice | src/filters/flip.rs:18-40 | the vertical flip is its own inverse |
| Flips.FlipPermutes | src/filters/flip.rs:17-54 | every flip is a permutation of the pixels |
| Flips.VerticalFlipRows | src/filters/flip.rs:18-40 | on whole rows, the vertical flip reverses the order of the rows and keeps each row intact, for an odd height as well |
| Flips.HorizontalFlipRows | src/filters/flip.rs:41-45 | on whole rows, the horizontal flip reverses every row and keeps the rows in order |
| Flips.ReverseRange | src/filters/flip.rs:44 | reverses the elements of one range of the array in place and leaves the rest alone |
| Flips.SwapSlices | src/filters/flip.rs:38 | `swap_with_slice`: exchanges two equal-length, disjoint ranges in place and leaves the rest alone |
| Flips.FlipBoth | src/filters/flip.rs:46-52 | the buffer's vector becomes its reversal |
| Flips.FlipHorizontal | src/filters/flip.rs:41-45 | the vector becomes the horizontal flip of its old contents |
| Flips.FlipVertical | src/filters/flip.rs:18-40 | the vector becomes the vertical flip of its old contents |
| Flips.SwapRowPairs | src/filters/flip.rs:34-39 | the zip of the top chunks with the bottom reversed chunks swaps the given number of row pairs in place |
| Flips.SwapRowPair | src/filters/flip.rs:37-39 | one swap of the zip moves the next pair of rows and keeps the loop's relation to the specification |
| Flips.Process | src/filters/flip.rs:11-55 | the vector becomes the flip that the direction argument selects |
| LegacyImages.CentredOffset | src/layer/images.rs:69 | `position - (size as i32) / 2`, halved toward zero; stated by CentredMiddle |
| LegacyImages.CentredMiddle | src/layer/images.rs:68-70 | for a size that fits `i32`, centring moves the position back by half the size, rounding down, so the middle pixel lands on the position; a size above `i32::MAX` wraps negative and moves the image forward |
| LegacyImages.Image.constructor | src/layer/images.rs:68-72 | the decoded buffer of `width * height` pixels is stored with its width, and, when the width is non-zero and the buffer fits `u32`, its height reads back as `height`; with `center` the position is moved by the centring offset in each direction, otherwise it is kept |
| LegacyImages.Image.GetImage | src/layer/images.rs:75-77 | `get_image` gives the layer's own buffer |
| LegacyImages.Image.PixelAt | src/layer/images.rs:79-97 | a pixel exactly when the `i32` point is at or after the position and before the position plus the size; None before the position; a found pixel is the buffer's pixel at the offset from the position, always inside the buffer |
| LegacyImages.Image.PlacedPixel | src/layer/images.rs:92-96 | for a width and height up to `i32::MAX`, every pixel of the buffer whose placed point has non-negative canvas coordinates is returned at the position plus its column and row |
| LegacyImages.Image.WrappedColumnRefused | src/layer/images.rs:80-85 | a column of 2^31 or more wraps to a negative `i32` and is refused when the position is not negative |
| LegacyImages.Image.CentredOnPlacement | src/layer/images.rs:68-97 | after centring, the point the layer was placed at shows the image's middle pixel |

## Left out

- Text.RasterFromSettings, Text.TextLayer.TryNew, Text.TextLayer.SetSettings: use the corrected w-by-h raster of the Findings row. As written, a zero-width bounding box gives a 0 by 0 raster, and drawing a glyph below its top edge panics (src/layers/text/mod.rs:57, 68-73); Text.SpaceRasterTooShort states that behaviour.
- Images.Image.FromFunction: `f` is a pure function of the coordinate. The source's `FnMut` is called once per cell in row-major order; that order, and any state `f` keeps between calls, is only in the method's loop, not in its contract.
- Over's `f32` arithmetic: the model computes it in exact rationals and then truncates. Rounding differences of `f32` are not modelled. The fourteen unit cases of the source hold in this model.
- The byte views (`AsRef<[u8]>`), `save`, `load_from_memory`, `load_from_file` and the `image`-crate conversions of `Image<T>`: I/O and a foreign crate.
- The font engine: metrics, kerning and line metrics are parameters of the settings. Their `f32` values are taken exactly.
- The glyph blit loop of `raster_from_settings` (src/layers/text/mod.rs:59-75): it calls the font's rasteriser. Text.RasterFromSettings states the raster's size, not its pixels. Text.PlacementsFitRaster states that every glyph fits a raster of the intended size.
- Layout.Step, Text.Add, Text.RasterSize: the `isize` arithmetic of the layout (origin plus kerning, baseline minus `ymin`, next origin), the far corner `glyph_x + width as isize` of `glyph_positions` (src/layers/text/mod.rs:41) and the extent `maximum - minimum` (src/layers/text/mod.rs:55) are taken without overflow; a debug build panics where they leave the `isize` range. The `f32 as isize` conversions saturate as in the source.
- Layout.CalculateBaseline, Layout.CalculateOriginX, Layout.NextOrigin, Layout.CalculateKernedOrigin: the `f32` products of the layout (src/layers/text/layout.rs:72, 74, 97-99, 133-138) are computed in exact reals and then truncated. The `f32` rounding of each product, and of `row as f32` for rows of 2^24 or more, is not modelled, so a product that rounds up to an integer in `f32` (0.7 times 10) can truncate one lower in the model.
- Filters.FilterPixel: the recolouring filter stands only for the pixel function of the brightness filter (src/filters/brightness.rs:7-19), as a given function; its `f32` arithmetic is not modelled. The rotation filter (src/filters/rotation.rs:7-25), a sine and cosine remap of coordinates, and the channel filter (src/filters/channel_filter.rs:11-21) belong to the older `LayerFilter` interface over `ImagePixels` and are not part of this model; no matrix-transform filter exists beyond a documentation link.
- The parser, `main`, the canvas and the older text and shape layers: configuration plumbing and context outside this model.
- Text.TextLayer.AsLayer: a text layer is sampled through an image-layer view of its raster, not as a separate case of the layer sum. `get_filters` is the `filters` field.
- Flips.Process: a direction argument that is not a string panics with `expect`; the model receives the argument already read as an optional string.
- Flips.SwapRows: the function answers the input unchanged when fewer than two rows are left. The flip never reaches that case, because RowPairsFit bounds the number of pairs.
- PixelBuffers.ImagePixels: `RGBAColor` (four `f64`s) is an abstract type parameter.
- LegacyImages.Image.PixelAt: the `i32` additions `position + size as i32` must not overflow (the precondition EdgesFit). A debug build panics there and a release build wraps; neither is modelled. The source's decoding, resizing and float conversion of the file (`new_layer`, lines 12-67) is not part of this model; the constructor receives the decoded size and pixels.
- Layout.LayoutIter: the iterator holds a copy of the settings, not a borrow.

## Findings

| source | as written | input that shows it | evidently intended | confidence | as-written member | corrected member |
|---|---|---|---|---|---|---|
| src/layers/text/mod.rs:55-73 | the raster is built with `Image::from_pixels(vec![default; w * h], w)`, which gives a 0 by 0 image whenever `w` is 0, even when `h` is not; every glyph is then drawn at its offset into that image | the text " " whose glyph is empty, with line size 30: the glyph is placed at (0, 30), the bounding box is 0 by 30, the raster is 0 by 0, and `draw_subimage` at y = 30 computes `min(30 + 0, 0) - 30`, which underflows (src/bitmap/image.rs:229) | a raster of the bounding box's size, w by h, so that every glyph fits | medium, not executed | Text.SpaceRasterTooShort | Text.RasterFromSettings |

=== FILE: blending.dfy ===
/**
 * Blending strategies (src/bitmap/blending.rs): Replace, Porter-Duff Over,
 * and a caller-supplied function.
 *
 * The source computes Over on channels normalised to [0, 1] in `f32`:
 * with foreground alpha `f1a`, background alpha `f2a` and channel maximum
 * `M`,
 *
 *   second = f2a * (1 - f1a),  alpha = f1a + second,
 *   colour = (c1 * f1a + c2 * second) / alpha,
 *
 * each scaled back by `M` and truncated. Multiplying numerator and
 * denominator through by `M * M * M` turns the exact value of every channel
 * into a quotient of natural numbers with the weights
 *
 *   w1 = a1 * M,  w2 = a2 * (M - a1),  d = w1 + w2,
 *
 * so that `colour = (c1 * w1 + c2 * w2) / d`, `alpha = d / M`, and the
 * `alpha == 0` test becomes `d == 0`. The model computes that quotient.
 */
module Blending {
  import opened MachineInts
  import opened Pixels

  datatype BlendingMethod =
    | Replace
    | Over
    | Custom(f: (AlphaPixel, AlphaPixel) -> AlphaPixel)

  /** `BlendingMethod::blend(pixel1, pixel2)`: `background` is `pixel1`,
      `foreground` is `pixel2`. */
  function Blend(m: BlendingMethod, ch: Channel, background: AlphaPixel, foreground: AlphaPixel): (p: AlphaPixel)
    requires m.Over? ==> InRange(ch, background) && InRange(ch, foreground)
    ensures m.Replace? ==> p == foreground
    ensures m.Over? ==> InRange(ch, p)
  {
    match m
    case Replace => foreground
    case Over => OverOperator(ch, foreground, background)
    case Custom(f) => f(background, foreground)
  }

  /** Weight of the foreground: its alpha, scaled by `M`. */
  function FrontWeight(ch: Channel, a1: nat): nat {
    a1 * ch.Max()
  }

  /** Weight of the background: its alpha times what the foreground lets through. */
  function BackWeight(ch: Channel, a1: nat, a2: nat): nat
    requires a1 <= ch.Max()
  {
    a2 * (ch.Max() - a1)
  }

  /** One colour channel: the weighted mean of `c1` and `c2`, truncated. */
  function Mix(c1: nat, c2: nat, w1: nat, w2: nat): nat
    requires w1 + w2 > 0
  {
    (c1 * w1 + c2 * w2) / (w1 + w2)
  }

  /** The weighted mean lies between the two channels it mixes. */
  lemma MixBetween(c1: nat, c2: nat, w1: nat, w2: nat)
    requires w1 + w2 > 0
    ensures c1 <= c2 ==> c1 <= Mix(c1, c2, w1, w2) <= c2
    ensures c2 <= c1 ==> c2 <= Mix(c1, c2, w1, w2) <= c1
  {
    if c1 <= c2 {
      MixOrdered(c1, c2, w1, w2);
    }
    if c2 <= c1 {
      assert c1 * w1 + c2 * w2 == c2 * w2 + c1 * w1;
      MixOrdered(c2, c1, w2, w1);
    }
  }

  /** The mean of `lo` and `hi` lies between them. */
  lemma MixOrdered(lo: nat, hi: nat, w1: nat, w2: nat)
    requires lo <= hi && w1 + w2 > 0
    ensures lo <= Mix(lo, hi, w1, w2) <= hi
  {
    MulLe(lo, hi, w1);
    MulLe(lo, hi, w2);
    assert lo * (w1 + w2) == lo * w1 + lo * w2;
    assert hi * (w1 + w2) == hi * w1 + hi * w2;
    DivBetween(lo * w1 + hi * w2, w1 + w2, lo, hi);
  }

  /** `over_operator(pixel1, pixel2)` with `pixel1` the foreground. */
  function OverOperator(ch: Channel, pixel1: AlphaPixel, pixel2: AlphaPixel): (p: AlphaPixel)
    requires InRange(ch, pixel1) && InRange(ch, pixel2)
    ensures InRange(ch, p)
  {
    var w1 := FrontWeight(ch, pixel1.a);
    var w2 := BackWeight(ch, pixel1.a, pixel2.a);
    if w1 + w2 == 0 then
      Default()
    else
      WeightsBounded(ch, pixel1.a, pixel2.a);
      MixBetween(pixel1.r, pixel2.r, w1, w2);
      MixBetween(pixel1.g, pixel2.g, w1, w2);
      MixBetween(pixel1.b, pixel2.b, w1, w2);
      AlphaPixel(Mix(pixel1.r, pixel2.r, w1, w2),
                 Mix(pixel1.g, pixel2.g, w1, w2),
                 Mix(pixel1.b, pixel2.b, w1, w2),
                 (w1 + w2) / ch.Max())
  }

  /** A numerator between `lo * d` and `hi * d` has its quotient by `d` between `lo` and `hi`. */
  lemma DivBetween(x: nat, d: nat, lo: nat, hi: nat)
    requires d > 0
    requires lo * d <= x <= hi * d
    ensures lo <= x / d <= hi
  {
    var q := x / d;
    assert x == q * d + x % d;
    if q < lo {
      MulLe(q + 1, lo, d);
      assert false;
    }
    if q > hi {
      assert false;
    }
  }

  /** The combined weight never exceeds `M * M`, so the alpha fits the channel. */
  lemma {:induction false} WeightsBounded(ch: Channel, a1: nat, a2: nat)
    requires a1 <= ch.Max() && a2 <= ch.Max()
    ensures FrontWeight(ch, a1) + BackWeight(ch, a1, a2) <= ch.Max() * ch.Max()
    ensures (FrontWeight(ch, a1) + BackWeight(ch, a1, a2)) / ch.Max() <= ch.Max()
  {
    var m := ch.Max();
    MulLe(a2, m, m - a1);
    assert a1 * m + (m - a1) * m == m * m;
    DivBetween(FrontWeight(ch, a1) + BackWeight(ch, a1, a2), m, 0, m);
  }

  /** The three strategies dispatch as the source does: Replace keeps the
      foreground, Over swaps the arguments into `over_operator`, Custom calls
      the function with the background first. */
  lemma BlendDispatch(ch: Channel, background: AlphaPixel, foreground: AlphaPixel, f: (AlphaPixel, AlphaPixel) -> AlphaPixel)
    requires InRange(ch, background) && InRange(ch, foreground)
    ensures Blend(Replace, ch, background, foreground) == foreground
    ensures Blend(Over, ch, background, foreground) == OverOperator(ch, foreground, background)
    ensures Blend(Custom(f), ch, background, foreground) == f(background, foreground)
  {
  }

  /** Each colour channel of the result lies between the two input channels. */
  lemma OverChannelsBetween(ch: Channel, fg: AlphaPixel, bg: AlphaPixel)
    requires InRange(ch, fg) && InRange(ch, bg)
    requires fg.a > 0 || bg.a > 0
    ensures var p := OverOperator(ch, fg, bg);
      (fg.r <= p.r <= bg.r || bg.r <= p.r <= fg.r) &&
      (fg.g <= p.g <= bg.g || bg.g <= p.g <= fg.g) &&
      (fg.b <= p.b <= bg.b || bg.b <= p.b <= fg.b)
  {
    WeightZeroIff(ch, fg.a, bg.a);
    var w1 := FrontWeight(ch, fg.a);
    var w2 := BackWeight(ch, fg.a, bg.a);
    MixBetween(fg.r, bg.r, w1, w2);
    MixBetween(fg.g, bg.g, w1, w2);
    MixBetween(fg.b, bg.b, w1, w2);
  }

  /** The combined weight is zero exactly when both alphas are, and otherwise
      at least `M`. */
  lemma {:induction false} WeightZeroIff(ch: Channel, a1: nat, a2: nat)
    requires a1 <= ch.Max() && a2 <= ch.Max()
    ensures FrontWeight(ch, a1) + BackWeight(ch, a1, a2) == 0 <==> a1 == 0 && a2 == 0
    ensures a1 > 0 || a2 > 0 ==> FrontWeight(ch, a1) + BackWeight(ch, a1, a2) >= ch.Max()
  {
    var m := ch.Max();
    if a1 > 0 {
      MulLe(1, a1, m);
    } else if a2 > 0 {
      MulLe(1, a2, m);
    }
  }

  /** The result is fully transparent exactly when both inputs are. */
  lemma {:induction false} OverAlphaZeroIff(ch: Channel, fg: AlphaPixel, bg: AlphaPixel)
    requires InRange(ch, fg) && InRange(ch, bg)
    ensures OverOperator(ch, fg, bg).a == 0 <==> fg.a == 0 && bg.a == 0
    ensures fg.a == 0 && bg.a == 0 ==> OverOperator(ch, fg, bg) == Default()
  {
    WeightZeroIff(ch, fg.a, bg.a);
    var d := FrontWeight(ch, fg.a) + BackWeight(ch, fg.a, bg.a);
    if d > 0 {
      DivBetween(d, ch.Max(), 1, d);
    }
  }

  /** Over never leaves a pixel more transparent than either input. */
  lemma {:induction false} OverAlphaAtLeastInputs(ch: Channel, fg: AlphaPixel, bg: AlphaPixel)
    requires InRange(ch, fg) && InRange(ch, bg)
    ensures OverOperator(ch, fg, bg).a >= fg.a
    ensures OverOperator(ch, fg, bg).a >= bg.a
  {
    var m := ch.Max();
    var d := FrontWeight(ch, fg.a) + BackWeight(ch, fg.a, bg.a);
    WeightsBounded(ch, fg.a, bg.a);
    assert d == fg.a * m + bg.a * m - bg.a * fg.a;
    MulLe(bg.a, m, fg.a);
    if d > 0 {
      DivBetween(d, m, fg.a, m);
      DivBetween(d, m, bg.a, m);
    }
  }

  /** The result alpha does not depend on which pixel is in front:
      `a1 * M + a2 * (M - a1) == a2 * M + a1 * (M - a2)`. */
  lemma {:induction false} OverAlphaCommutes(ch: Channel, p: AlphaPixel, q: AlphaPixel)
    requires InRange(ch, p) && InRange(ch, q)
    ensures OverOperator(ch, p, q).a == OverOperator(ch, q, p).a
  {
    var m := ch.Max();
    assert FrontWeight(ch, p.a) + BackWeight(ch, p.a, q.a) == p.a * m + q.a * m - q.a * p.a;
    assert FrontWeight(ch, q.a) + BackWeight(ch, q.a, p.a) == q.a * m + p.a * m - p.a * q.a;
  }

  /** A fully opaque foreground hides the background entirely. */
  lemma {:induction false} OverOpaqueForeground(ch: Channel, fg: AlphaPixel, bg: AlphaPixel)
    requires InRange(ch, fg) && InRange(ch, bg)
    requires fg.a == ch.Max()
    ensures OverOperator(ch, fg, bg) == fg
  {
    var m := ch.Max();
    var w := m * m;
    assert FrontWeight(ch, fg.a) == w && BackWeight(ch, fg.a, bg.a) == 0;
    assert w > 0 by { MulLe(1, m, m); }
    MulDivCancel(fg.r, w);
    MulDivCancel(fg.g, w);
    MulDivCancel(fg.b, w);
    MulDivCancel(m, m);
  }

  /** A fully transparent foreground leaves the background as it is (or the
      default pixel, when the background is fully transparent too). */
  lemma {:induction false} OverTransparentForeground(ch: Channel, fg: AlphaPixel, bg: AlphaPixel)
    requires InRange(ch, fg) && InRange(ch, bg)
    requires fg.a == 0
    ensures bg.a > 0 ==> OverOperator(ch, fg, bg) == bg
    ensures bg.a == 0 ==> OverOperator(ch, fg, bg) == Default()
  {
    var m := ch.Max();
    var w := bg.a * m;
    assert FrontWeight(ch, fg.a) == 0 && BackWeight(ch, fg.a, bg.a) == w;
    if bg.a > 0 {
      assert w > 0 by { MulLe(1, bg.a, m); }
      MulDivCancel(bg.r, w);
      MulDivCancel(bg.g, w);
      MulDivCancel(bg.b, w);
      MulDivCancel(bg.a, m);
    }
  }

  lemma MulDivCancel(c: nat, w: nat)
    requires w > 0
    ensures (c * w) / w == c
  {
    DivBetween(c * w, w, c, c);
  }

  /** A pixel blended over the default pixel, or the default pixel blended
      over it, is unchanged when it is visible. */
  lemma OverDefaultIdentity(ch: Channel, p: AlphaPixel)
    requires InRange(ch, p) && p.a > 0
    ensures Blend(Over, ch, p, Default()) == p
    ensures Blend(Over, ch, Default(), p) == p
  {
    OverTransparentForeground(ch, Default(), p);
    var m := ch.Max();
    var w := p.a * m;
    assert FrontWeight(ch, p.a) == w && BackWeight(ch, p.a, 0) == 0;
    assert w > 0 by { MulLe(1, p.a, m); }
    MulDivCancel(p.r, w);
    MulDivCancel(p.g, w);
    MulDivCancel(p.b, w);
    MulDivCancel(p.a, m);
  }

  // The rows of the `blend_over_u8` table, one lemma each: blending the
  // foreground (second) over the background (first) gives the expected pixel.

  lemma OverTableRow1()
    ensures Blend(Over, U8, Rgba(0, 0, 0, 0), Rgba(0, 0, 0, 0)) == Rgba(0, 0, 0, 0)
  {
  }

  lemma OverTableRow2()
    ensures Blend(Over, U8, Rgba(255, 255, 255, 255), Rgba(0, 0, 0, 0)) == Rgba(255, 255, 255, 255)
  {
  }

  lemma OverTableRow3()
    ensures Blend(Over, U8, Rgba(255, 255, 255, 255), Rgba(100, 100, 100, 0)) == Rgba(255, 255, 255, 255)
  {
  }

  lemma OverTableRow4()
    ensures Blend(Over, U8, Rgba(255, 255, 255, 0), Rgba(100, 100, 100, 255)) == Rgba(100, 100, 100, 255)
  {
  }

  lemma OverTableRow5()
    ensures Blend(Over, U8, Rgba(255, 255, 255, 0), Rgba(0, 0, 0, 255)) == Rgba(0, 0, 0, 255)
  {
  }

  lemma OverTableRow6()
    ensures Blend(Over, U8, Rgba(100, 0, 0, 255), Rgba(0, 50, 100, 255)) == Rgba(0, 50, 100, 255)
  {
    OverOpaqueForeground(U8, Rgba(0, 50, 100, 255), Rgba(100, 0, 0, 255));
  }

  lemma OverTableRow7()
    ensures Blend(Over, U8, Rgba(255, 255, 255, 255), Rgba(0, 50, 100, 25)) == Rgba(230, 234, 239, 255)
  {
  }

  lemma OverTableRow8()
    ensures Blend(Over, U8, Rgba(0, 0, 0, 255), Rgba(0, 50, 100, 204)) == Rgba(0, 40, 80, 255)
  {
  }

  lemma OverTableRow9()
    ensures Blend(Over, U8, Rgba(100, 0, 0, 255), Rgba(0, 50, 100, 102)) == Rgba(60, 20, 40, 255)
  {
  }

  lemma OverTableRow10()
    ensures Blend(Over, U8, Rgba(100, 55, 231, 102), Rgba(0, 50, 100, 255)) == Rgba(0, 50, 100, 255)
  {
  }

  lemma OverTableRow11()
    ensures Blend(Over, U8, Rgba(100, 55, 231, 102), Rgba(0, 50, 100, 34)) == Rgba(72, 53, 194, 122)
  {
  }

  lemma OverTableRow12()
    ensures Blend(Over, U8, Rgba(255, 55, 2, 102), Rgba(0, 50, 200, 254)) == Rgba(0, 50, 199, 254)
  {
  }

  lemma OverTableRow13()
    ensures Blend(Over, U8, Rgba(0, 0, 0, 53), Rgba(0, 0, 0, 212)) == Rgba(0, 0, 0, 220)
  {
  }

  lemma OverTableRow14()
    ensures Blend(Over, U8, Rgba(255, 255, 255, 200), Rgba(255, 255, 255, 145)) == Rgba(255, 255, 255, 231)
  {
  }

  /** The `blend_replace_u8` table. */
  lemma ReplaceUnitTable()
    ensures Blend(Replace, U8, Rgba(0, 0, 0, 0), Rgba(0, 0, 0, 0)) == Rgba(0, 0, 0, 0)
    ensures Blend(Replace, U8, Rgba(255, 255, 255, 255), Rgba(255, 255, 255, 255)) == Rgba(255, 255, 255, 255)
    ensures Blend(Replace, U8, Rgba(255, 255, 255, 255), Rgba(100, 0, 0, 0)) == Rgba(100, 0, 0, 0)
    ensures Blend(Replace, U8, Rgba(124, 43, 87, 0), Rgba(0, 0, 0, 0)) == Rgba(0, 0, 0, 0)
  {
  }
}

=== FILE: filters.dfy ===
/**
 * Layer filters (src/filters/mod.rs, src/filters/transform.rs).
 *
 * The `Filter<T>` trait has two methods, both defaulting to the identity:
 * `filter_pixel` recolours a sampled pixel and `filter_transform` maps a
 * canvas coordinate to the coordinate the layer is sampled at. The trait
 * object is modelled by a closed sum over the kinds of filter the library
 * defines: one overriding neither method, `TranslateFilter` (overriding only
 * `filter_transform`), and a filter overriding only `filter_pixel` (the
 * shape of `BrightnessFilter`, whose float arithmetic is not modelled and is
 * given here as a function).
 */
module Filters {
  import opened MachineInts
  import opened Pixels

  datatype Filter =
    | Identity
    | Translate(dx: int, dy: int)
    | Recolor(f: AlphaPixel -> AlphaPixel)

  /** The filter can run without panicking: `TranslateFilter` negates its
      `isize` offsets, which overflows for `isize::MIN`. */
  predicate WellFormed(flt: Filter) {
    flt.Translate? ==>
      IsIsize(flt.dx) && flt.dx != ISIZE_MIN && IsIsize(flt.dy) && flt.dy != ISIZE_MIN
  }

  /** `#[derive(Default)]` on `TranslateFilter`. */
  function DefaultTranslate(): (flt: Filter)
    ensures flt.Translate? && WellFormed(flt)
  {
    Translate(0, 0)
  }

  /** `filter_pixel`: the trait default returns the pixel; only a recolouring
      filter overrides it. */
  function FilterPixel(flt: Filter, p: AlphaPixel): (q: AlphaPixel)
    ensures !flt.Recolor? ==> q == p
  {
    match flt
    case Recolor(f) => f(p)
    case _ => p
  }

  /** `filter_transform`: the trait default returns the coordinate;
      `TranslateFilter` moves it by `(-dx, -dy)` with `usize` wrap-around. */
  function FilterTransform(flt: Filter, x: nat, y: nat): (r: (nat, nat))
    requires WellFormed(flt) && IsUsize(x) && IsUsize(y)
    ensures IsUsize(r.0) && IsUsize(r.1)
    ensures !flt.Translate? ==> r == (x, y)
    ensures flt.Translate? ==>
              (r.0 + flt.dx - x) % (USIZE_MAX + 1) == 0 && (r.1 + flt.dy - y) % (USIZE_MAX + 1) == 0
  {
    match flt
    case Translate(dx, dy) => (WrappingAddSigned(x, -dx), WrappingAddSigned(y, -dy))
    case _ => (x, y)
  }

  /** The default translation moves nothing. */
  lemma DefaultTranslateIsIdentity(x: nat, y: nat, p: AlphaPixel)
    requires IsUsize(x) && IsUsize(y)
    ensures FilterTransform(DefaultTranslate(), x, y) == (x, y)
    ensures FilterPixel(DefaultTranslate(), p) == p
  {
  }

  /** Translating by `(dx, dy)` and then by `(-dx, -dy)` returns every
      coordinate to where it was, wrap-around included. */
  lemma {:induction false} TranslateInverse(dx: int, dy: int, x: nat, y: nat)
    requires WellFormed(Translate(dx, dy)) && IsUsize(x) && IsUsize(y)
    ensures WellFormed(Translate(-dx, -dy))
    ensures var (x1, y1) := FilterTransform(Translate(dx, dy), x, y);
            FilterTransform(Translate(-dx, -dy), x1, y1) == (x, y)
  {
    WrapAddInverse(x, -dx);
    WrapAddInverse(y, -dy);
  }

  /** Adding `d` and then `-d` modulo 2^64 is the identity on `usize`. */
  lemma {:induction false} WrapAddInverse(x: nat, d: int)
    requires IsUsize(x) && IsIsize(d) && IsIsize(-d)
    ensures WrappingAddSigned(WrappingAddSigned(x, d), -d) == x
  {
    var m := USIZE_MAX + 1;
    var x1 := WrappingAddSigned(x, d);
    if x + d < 0 {
      assert x1 == x + d + m;
      assert x1 - d == x + m;
    } else if x + d > USIZE_MAX {
      assert x1 == x + d - m;
      assert x1 - d == x - m;
    }
  }

  /** Two translations in a row are one translation by the summed offsets,
      when that sum is itself a valid offset. */
  lemma {:induction false} TranslateCompose(a: int, b: int, c: int, d: int, x: nat, y: nat)
    requires WellFormed(Translate(a, b)) && WellFormed(Translate(c, d))
    requires WellFormed(Translate(a + c, b + d))
    requires IsUsize(x) && IsUsize(y)
    ensures var (x1, y1) := FilterTransform(Translate(a, b), x, y);
            FilterTransform(Translate(c, d), x1, y1) == FilterTransform(Translate(a + c, b + d), x, y)
  {
    WrapAddCompose(x, -a, -c);
    WrapAddCompose(y, -b, -d);
  }

  /** Wrapping addition is associative in its offsets. */
  lemma {:induction false} WrapAddCompose(x: nat, d: int, e: int)
    requires IsUsize(x) && IsIsize(d) && IsIsize(e) && IsIsize(d + e)
    ensures WrappingAddSigned(WrappingAddSigned(x, d), e) == WrappingAddSigned(x, d + e)
  {
    var m := USIZE_MAX + 1;
    var x1 := WrappingAddSigned(x, d);
    var k := if x + d < 0 then 1 else if x + d > USIZE_MAX then -1 else 0;
    assert x1 == x + d + k * m;
    ModShift(x + d + e, k);
  }

  /** Adding a multiple of 2^64 does not change a residue modulo 2^64. */
  lemma {:induction false} ModShift(n: int, k: int)
    requires -1 <= k <= 1
    ensures (n + k * (USIZE_MAX + 1)) % (USIZE_MAX + 1) == n % (USIZE_MAX + 1)
  {
    var m := USIZE_MAX + 1;
    var q, r := n / m, n % m;
    assert n == q * m + r;
    assert n + k * m == (q + k) * m + r;
  }
}

=== FILE: flip.dfy ===
/**
 * The flip filter of the older generation (src/filters/flip.rs). It works in
 * place on the vector of an `ImagePixels` buffer: a vertical flip swaps
 * pixel rows from the top and the bottom toward the centre, a horizontal
 * flip reverses every `width`-long chunk, and "both" reverses the whole
 * vector. Each in-place method is proved to leave the buffer equal to a
 * sequence function of its old contents; the properties of the flips are
 * proved about those functions.
 */
module Flips {
  import opened MachineInts
  import opened Images
  import opened PixelBuffers

  datatype FlipDirection = Vertical | Horizontal | Both

  /** The `direction` argument of the filter: absent means "both"; any other
      string than the three names panics, which is `None` here. */
  function ParseDirection(arg: Option<string>): (d: Option<FlipDirection>)
    ensures arg.None? ==> d == Some(Both)
    ensures d.None? <==> arg.Some? && arg.value != "vertical" && arg.value != "horizontal" && arg.value != "both"
    ensures arg.Some? && arg.value == "vertical" ==> d == Some(Vertical)
    ensures arg.Some? && arg.value == "horizontal" ==> d == Some(Horizontal)
    ensures arg.Some? && arg.value == "both" ==> d == Some(Both)
  {
    match arg
    case None => Some(Both)
    case Some(name) =>
      if name == "vertical" then Some(Vertical)
      else if name == "horizontal" then Some(Horizontal)
      else if name == "both" then Some(Both)
      else None
  }

  /** `<[T]>::reverse`. */
  function Reverse<T>(s: seq<T>): (r: seq<T>)
    ensures |r| == |s|
  {
    if s == [] then [] else Reverse(s[1..]) + [s[0]]
  }

  /** A horizontal flip: each `w`-long chunk reversed in place, the last,
      shorter chunk included. */
  function ReverseRows<T>(s: seq<T>, w: nat): (r: seq<T>)
    requires w > 0
    ensures |r| == |s|
    decreases |s|
  {
    if s == [] then [] else
      var k := Min(w, |s|);
      Reverse(s[..k]) + ReverseRows(s[k..], w)
  }

  /** A vertical flip of `k` row pairs: the first `w` elements trade places
      with the last `w`, and the flip goes on inside. It stops early when
      fewer than `2 * w` elements remain, which the `height() / 2` pairs of
      a flip never reach (`RowPairsFit`). */
  function SwapRows<T>(s: seq<T>, w: nat, k: nat): (r: seq<T>)
    ensures |r| == |s|
    decreases k
  {
    if k == 0 || |s| < 2 * w then s
    else
      var n := |s|;
      s[n - w..] + SwapRows(s[w..n - w], w, k - 1) + s[..w]
  }

  /** The `height() / 2` row pairs of a vertical flip all fit in the buffer. */
  lemma {:induction false} RowPairsFit(n: nat, w: nat)
    requires w > 0
    ensures 2 * ((AsU32(n) / w) / 2) * w <= n
  {
    var h := AsU32(n) / w;
    assert AsU32(n) == h * w + AsU32(n) % w;
    assert 2 * (h / 2) <= h;
    MulLe(2 * (h / 2), h, w);
  }

  /** What `process` leaves in the vector, for each direction. The vertical
      flip reads `height()` and the horizontal one cuts `chunks_mut(width)`,
      so both panic on a zero width. */
  function Flipped<T>(s: seq<T>, w: nat, dir: FlipDirection): (r: seq<T>)
    requires dir != Both ==> w > 0
    ensures |r| == |s|
  {
    match dir
    case Vertical => SwapRows(s, w, (AsU32(|s|) / w) / 2)
    case Horizontal => ReverseRows(s, w)
    case Both => Reverse(s)
  }

  // ---------------------------------------------------------------------
  // Properties of the flips
  // ---------------------------------------------------------------------

  /** Element `i` of the reversal is element `|s| - 1 - i` of the input. */
  lemma {:induction false} ReverseIndex<T>(s: seq<T>)
    ensures forall i :: 0 <= i < |s| ==> Reverse(s)[i] == s[|s| - 1 - i]
  {
    if s != [] {
      ReverseIndex(s[1..]);
    }
  }

  /** A sequence is the reversal of another exactly when it mirrors it. */
  lemma ReverseByIndex<T>(s: seq<T>, r: seq<T>)
    requires |r| == |s|
    requires forall i :: 0 <= i < |s| ==> r[i] == s[|s| - 1 - i]
    ensures r == Reverse(s)
  {
    ReverseIndex(s);
  }

  lemma {:induction false} ReverseTwice<T>(s: seq<T>)
    ensures Reverse(Reverse(s)) == s
  {
    ReverseIndex(s);
    ReverseIndex(Reverse(s));
  }

  lemma {:induction false} ReverseMultiset<T>(s: seq<T>)
    ensures multiset(Reverse(s)) == multiset(s)
  {
    if s != [] {
      ReverseMultiset(s[1..]);
      assert s == [s[0]] + s[1..];
    }
  }

  /** `s` cut at `k`, as two pieces. */
  lemma SplitAt<T>(s: seq<T>, k: nat) returns (x: seq<T>, y: seq<T>)
    requires k <= |s|
    ensures s == x + y && |x| == k
  {
    x, y := s[..k], s[k..];
    assert s == x + y;
  }

  /** The first chunk of a horizontal flip is reversed on its own. */
  lemma ReverseRowsCons<T>(x: seq<T>, y: seq<T>, w: nat)
    requires w > 0 && 0 < |x| == Min(w, |x| + |y|)
    ensures ReverseRows(x + y, w) == Reverse(x) + ReverseRows(y, w)
  {
    var s := x + y;
    assert s[..|x|] == x && s[|x|..] == y;
  }

  lemma {:induction false} ReverseRowsTwice<T>(s: seq<T>, w: nat)
    requires w > 0
    ensures ReverseRows(ReverseRows(s, w), w) == s
    decreases |s|
  {
    if s != [] {
      var x, y := SplitAt(s, Min(w, |s|));
      ReverseRowsCons(x, y, w);
      ReverseRowsCons(Reverse(x), ReverseRows(y, w), w);
      ReverseTwice(x);
      ReverseRowsTwice(y, w);
    }
  }

  /** The horizontal flip permutes the buffer (stated about a named result
      `r`, as `SwapRowsMultiset` is). */
  lemma {:induction false} ReverseRowsMultiset<T>(s: seq<T>, w: nat, r: seq<T>)
    requires w > 0 && r == ReverseRows(s, w)
    ensures multiset(r) == multiset(s)
    decreases |s|
  {
    if s != [] {
      var x, y := SplitAt(s, Min(w, |s|));
      var rest := ReverseRows(y, w);
      ReverseRowsCons(x, y, w);
      ReverseMultiset(x);
      ReverseRowsMultiset(y, w, rest);
      assert multiset(r) == multiset(Reverse(x)) + multiset(rest);
    }
  }

  /** The horizontal flip cuts the buffer into the same chunks as
      `as_pixel_rows` and reverses each of them. */
  lemma {:induction false} ReverseRowsChunks<T>(s: seq<T>, w: nat)
    requires w > 0
    ensures |Chunks(ReverseRows(s, w), w)| == |Chunks(s, w)|
    ensures forall i :: 0 <= i < |Chunks(s, w)| ==> Chunks(ReverseRows(s, w), w)[i] == Reverse(Chunks(s, w)[i])
    decreases |s|
  {
    if s != [] {
      var k := Min(w, |s|);
      var r := ReverseRows(s, w);
      ReverseRowsChunks(s[k..], w);
      assert r[..k] == Reverse(s[..k]) && r[k..] == ReverseRows(s[k..], w);
      assert Min(w, |r|) == k;
    }
  }

  /** `s` cut into its first `w` elements, its inside and its last `w`. */
  lemma SplitEnds<T>(s: seq<T>, w: nat) returns (upper: seq<T>, inner: seq<T>, lower: seq<T>)
    requires 2 * w <= |s|
    ensures s == upper + inner + lower && |upper| == w && |lower| == w
  {
    upper, inner, lower := s[..w], s[w..|s| - w], s[|s| - w..];
    assert s == upper + inner + lower;
  }

  /** Flipping `r`, the vertical flip of `s`, again gives back `s`. */
  lemma {:induction false} SwapRowsTwice<T>(s: seq<T>, w: nat, k: nat, r: seq<T>)
    requires r == SwapRows(s, w, k)
    ensures SwapRows(r, w, k) == s
    decreases k
  {
    if k > 0 && |s| >= 2 * w {
      var upper, inner, lower := SplitEnds(s, w);
      var flipped := SwapRows(inner, w, k - 1);
      SwapRowsTwice(inner, w, k - 1, flipped);
      SwapRowsUnfold(s, upper, inner, lower, w, k);
      SwapRowsUnfold(r, lower, flipped, upper, w, k);
    }
  }

  /** The vertical flip permutes the buffer (stated about a named result
      `r`, which keeps the recursive step's fact in the same term). */
  lemma {:induction false} SwapRowsMultiset<T>(s: seq<T>, w: nat, k: nat, r: seq<T>)
    requires r == SwapRows(s, w, k)
    ensures multiset(r) == multiset(s)
    decreases k
  {
    if k > 0 && |s| >= 2 * w {
      var upper, inner, lower := SplitEnds(s, w);
      var flipped := SwapRows(inner, w, k - 1);
      SwapRowsMultiset(inner, w, k - 1, flipped);
      SwapRowsUnfold(s, upper, inner, lower, w, k);
      MultisetRotate(s, upper, inner, lower, flipped);
    }
  }

  /** Trading the outer pieces of a sequence, and permuting its middle,
      permutes the whole. */
  lemma MultisetRotate<T>(s: seq<T>, a: seq<T>, b: seq<T>, c: seq<T>, b2: seq<T>)
    requires s == a + b + c && multiset(b2) == multiset(b)
    ensures multiset(c + b2 + a) == multiset(s)
  {
    assert multiset(c + b2 + a) == multiset(c) + multiset(b2) + multiset(a);
    assert multiset(a + b + c) == multiset(a) + multiset(b) + multiset(c);
  }

  /** Concatenation commutes with laying rows end to end. */
  lemma {:induction false} FlattenAppend<T>(a: seq<seq<T>>, b: seq<seq<T>>)
    ensures Flatten(a + b) == Flatten(a) + Flatten(b)
    decreases |a|
  {
    if a == [] {
      assert a + b == b;
    } else {
      FlattenAppend(a[1..], b);
      assert (a + b)[1..] == a[1..] + b;
    }
  }

  /** Rows of one common length `w` lay out to `|rows| * w` elements. */
  lemma {:induction false} FlattenLength<T>(rows: seq<seq<T>>, w: nat)
    requires forall i :: 0 <= i < |rows| ==> |rows[i]| == w
    ensures |Flatten(rows)| == |rows| * w
    decreases |rows|
  {
    if rows != [] {
      FlattenLength(rows[1..], w);
      assert |rows| * w == (|rows| - 1) * w + w;
    }
  }

  /** On a buffer made of whole rows, the vertical flip reverses the order
      of the rows and keeps each row as it is; for an odd number of rows the
      middle row stays in place. */
  lemma {:induction false} SwapRowsReversesRows<T>(rows: seq<seq<T>>, w: nat)
    requires forall i :: 0 <= i < |rows| ==> |rows[i]| == w
    ensures SwapRows(Flatten(rows), w, |rows| / 2) == Flatten(Reverse(rows))
    decreases |rows|
  {
    var h := |rows|;
    if h < 2 {
      ReverseIndex(rows);
      assert Reverse(rows) == rows;
    } else {
      var first, mid, last := SplitRows(rows);
      FlattenEnds(first, mid, last);
      SwapRowsReversesRows(mid, w);
      assert h / 2 - 1 == |mid| / 2;
      SwapRowsUnfold(Flatten(rows), first, Flatten(mid), last, w, h / 2);
      ReverseEnds(first, mid, last);
      FlattenEnds(last, Reverse(mid), first);
    }
  }

  /** The first row, the middle rows and the last row. */
  lemma SplitRows<T>(rows: seq<seq<T>>) returns (first: seq<T>, mid: seq<seq<T>>, last: seq<T>)
    requires |rows| >= 2
    ensures rows == [first] + mid + [last] && |mid| == |rows| - 2
    ensures first == rows[0] && last == rows[|rows| - 1]
    ensures forall i :: 0 <= i < |mid| ==> mid[i] == rows[i + 1]
  {
    first, mid, last := rows[0], rows[1..|rows| - 1], rows[|rows| - 1];
    assert rows == [first] + mid + [last];
  }

  lemma FlattenEnds<T>(first: seq<T>, mid: seq<seq<T>>, last: seq<T>)
    ensures Flatten([first] + mid + [last]) == first + Flatten(mid) + last
  {
    FlattenAppend([first] + mid, [last]);
    FlattenAppend([first], mid);
    assert Flatten([first]) == first && Flatten([last]) == last;
  }

  lemma ReverseEnds<T>(first: T, mid: seq<T>, last: T)
    ensures Reverse([first] + mid + [last]) == [last] + Reverse(mid) + [first]
  {
    var rows := [first] + mid + [last];
    ReverseIndex(rows);
    ReverseIndex(mid);
    ReverseByIndex(rows, [last] + Reverse(mid) + [first]);
  }

  /** `(a * w) / w == a`. */
  lemma {:induction false} MulDiv(a: nat, w: nat)
    requires w > 0
    ensures (a * w) / w == a
  {
    var q := (a * w) / w;
    assert a * w == q * w + (a * w) % w;
    if q < a {
      MulStrict(q, a, w);
      assert false;
    } else if q > a {
      MulStrict(a, q, w);
      assert false;
    }
  }

  lemma {:induction false} MulStrict(a: nat, b: nat, w: nat)
    requires a < b
    ensures a * w + w <= b * w
  {
    MulLe(a + 1, b, w);
    assert (a + 1) * w == a * w + w;
  }

  /** Applying the same flip twice restores the buffer. */
  lemma FlipTwice<T>(s: seq<T>, w: nat, dir: FlipDirection)
    requires dir != Both ==> w > 0
    ensures Flipped(Flipped(s, w, dir), w, dir) == s
  {
    match dir
    case Vertical => VerticalTwice(s, w);
    case Horizontal => ReverseRowsTwice(s, w);
    case Both => ReverseTwice(s);
  }

  lemma VerticalTwice<T>(s: seq<T>, w: nat)
    requires w > 0
    ensures Flipped(Flipped(s, w, Vertical), w, Vertical) == s
  {
    var k := (AsU32(|s|) / w) / 2;
    var r := SwapRows(s, w, k);
    assert AsU32(|r|) / w / 2 == k;
    SwapRowsTwice(s, w, k, r);
  }

  /** Every flip is a permutation of the buffer. */
  lemma FlipPermutes<T>(s: seq<T>, w: nat, dir: FlipDirection)
    requires dir != Both ==> w > 0
    ensures multiset(Flipped(s, w, dir)) == multiset(s)
  {
    match dir
    case Vertical => SwapRowsMultiset(s, w, (AsU32(|s|) / w) / 2, Flipped(s, w, dir));
    case Horizontal => ReverseRowsMultiset(s, w, Flipped(s, w, dir));
    case Both => ReverseMultiset(s);
  }

  /** The vertical flip of a buffer of whole `w`-long rows (fewer than
      2^32 pixels) is the buffer of the same rows in reverse order. */
  lemma VerticalFlipRows<T>(rows: seq<seq<T>>, w: nat)
    requires w > 0 && forall i :: 0 <= i < |rows| ==> |rows[i]| == w
    requires |Flatten(rows)| <= U32_MAX
    ensures Flipped(Flatten(rows), w, Vertical) == Flatten(Reverse(rows))
  {
    FlattenLength(rows, w);
    MulDiv(|rows|, w);
    SwapRowsReversesRows(rows, w);
  }

  /** The horizontal flip of a buffer of whole rows reverses each row. */
  lemma HorizontalFlipRows<T>(rows: seq<seq<T>>, w: nat)
    requires w > 0 && forall i :: 0 <= i < |rows| ==> |rows[i]| == w
    ensures Flipped(Flatten(rows), w, Horizontal) == Flatten(seq(|rows|, i requires 0 <= i < |rows| => Reverse(rows[i])))
    decreases |rows|
  {
    var rev := seq(|rows|, i requires 0 <= i < |rows| => Reverse(rows[i]));
    if rows != [] {
      var tail := Flatten(rows[1..]);
      HorizontalFlipRows(rows[1..], w);
      assert Flatten(rows) == rows[0] + tail;
      assert (rows[0] + tail)[..w] == rows[0] && (rows[0] + tail)[w..] == tail;
      assert rev[1..] == seq(|rows| - 1, i requires 0 <= i < |rows| - 1 => Reverse(rows[1..][i]));
    }
  }

  // ---------------------------------------------------------------------
  // The in-place flips
  // ---------------------------------------------------------------------

  /** `a[lo..hi].reverse()`: the piece `m` of the buffer, between `p` and
      `q`, is reversed. */
  method ReverseRange<T>(a: array<T>, lo: nat, hi: nat, ghost p: seq<T>, ghost m: seq<T>, ghost q: seq<T>)
    requires a[..] == p + m + q && |p| == lo && |m| == hi - lo
    modifies a
    ensures a[..] == p + Reverse(m) + q
  {
    ghost var s := a[..];
    var i, j := lo, hi;
    while i + 1 < j
      invariant lo <= i <= j <= hi && i - lo == hi - j
      invariant forall k :: lo <= k < i ==> a[k] == s[lo + hi - 1 - k]
      invariant forall k :: j <= k < hi ==> a[k] == s[lo + hi - 1 - k]
      invariant forall k :: 0 <= k < a.Length && !(lo <= k < i) && !(j <= k < hi) ==> a[k] == s[k]
      decreases j - i
    {
      a[i], a[j - 1] := a[j - 1], a[i];
      i, j := i + 1, j - 1;
    }
    MirroredRange(s, a[..], lo, hi, p, m, q);
  }

  /** A sequence that mirrors `s == p + m + q` on the range of `m` and
      agrees with it elsewhere is `p + Reverse(m) + q`. */
  lemma MirroredRange<T>(s: seq<T>, t: seq<T>, lo: nat, hi: nat, p: seq<T>, m: seq<T>, q: seq<T>)
    requires s == p + m + q && |p| == lo && |m| == hi - lo && |t| == |s|
    requires forall k :: lo <= k < hi ==> t[k] == s[lo + hi - 1 - k]
    requires forall k :: 0 <= k < |t| && !(lo <= k < hi) ==> t[k] == s[k]
    ensures t == p + Reverse(m) + q
  {
    ReverseIndex(m);
    var r := p + Reverse(m) + q;
    forall k | 0 <= k < |t|
      ensures t[k] == r[k]
    {
      if k < lo {
        assert r[k] == p[k] == s[k];
      } else if k < hi {
        assert r[k] == Reverse(m)[k - lo] == m[hi - 1 - k] == s[lo + hi - 1 - k];
      } else {
        assert r[k] == q[k - hi] == s[k];
      }
    }
    assert t == r;
  }

  /** `top.swap_with_slice(bottom)`: the `w`-long rows `x`, at `i`, and `y`,
      at `j`, trade places; everything else stays. */
  method SwapSlices<T>(a: array<T>, i: nat, j: nat, w: nat,
                       ghost p: seq<T>, ghost x: seq<T>, ghost m: seq<T>, ghost y: seq<T>, ghost q: seq<T>)
    requires a[..] == p + x + m + y + q
    requires |p| == i && |x| == w && |y| == w && j == i + w + |m|
    modifies a
    ensures a[..] == p + y + m + x + q
  {
    ghost var s := a[..];
    var t := 0;
    while t < w
      invariant t <= w
      invariant forall k :: i <= k < i + t ==> a[k] == s[k - i + j]
      invariant forall k :: j <= k < j + t ==> a[k] == s[k - j + i]
      invariant forall k :: 0 <= k < a.Length && !(i <= k < i + t) && !(j <= k < j + t) ==> a[k] == s[k]
    {
      a[i + t], a[j + t] := a[j + t], a[i + t];
      t := t + 1;
    }
    SwappedRows(s, a[..], i, j, w, p, x, m, y, q);
  }

  /** A sequence that holds `s == p + x + m + y + q` with `x` (at `i`) and
      `y` (at `j`) exchanged is `p + y + m + x + q`. */
  lemma SwappedRows<T>(s: seq<T>, t: seq<T>, i: nat, j: nat, w: nat,
                       p: seq<T>, x: seq<T>, m: seq<T>, y: seq<T>, q: seq<T>)
    requires s == p + x + m + y + q && |t| == |s|
    requires |p| == i && |x| == w && |y| == w && j == i + w + |m|
    requires forall k :: i <= k < i + w ==> t[k] == s[k - i + j]
    requires forall k :: j <= k < j + w ==> t[k] == s[k - j + i]
    requires forall k :: 0 <= k < |t| && !(i <= k < i + w) && !(j <= k < j + w) ==> t[k] == s[k]
    ensures t == p + y + m + x + q
  {
    var r := p + y + m + x + q;
    forall k | 0 <= k < |t|
      ensures t[k] == r[k]
    {
      if k < i {
        assert r[k] == p[k] == s[k];
      } else if k < i + w {
        assert r[k] == y[k - i] == s[k - i + j];
      } else if k < j {
        assert r[k] == m[k - i - w] == s[k];
      } else if k < j + w {
        assert r[k] == x[k - j] == s[k - j + i];
      } else {
        assert r[k] == q[k - j - w] == s[k];
      }
    }
    assert t == r;
  }

  /** The "both" direction (and the default): reverse the whole vector. */
  method FlipBoth<T>(img: ImagePixels<T>)
    modifies img.pixels
    ensures img.pixels[..] == Flipped(old(img.pixels[..]), img.width, Both)
  {
    ghost var s := img.pixels[..];
    assert s == [] + s + [];
    ReverseRange(img.pixels, 0, img.pixels.Length, [], s, []);
    assert [] + Reverse(s) + [] == Reverse(s);
  }

  /** The horizontal direction: reverse every `width`-long chunk in turn.
      The buffer is tracked as `done + rest`: `done` is final, and the
      horizontal flip of `rest` finishes the job. */
  method FlipHorizontal<T>(img: ImagePixels<T>)
    requires img.width > 0
    modifies img.pixels
    ensures img.pixels[..] == Flipped(old(img.pixels[..]), img.width, Horizontal)
  {
    var a, w := img.pixels, img.width;
    ghost var s := a[..];
    ghost var done: seq<T>, rest := [], s;
    assert done + rest == s;
    var b := 0;
    while b < a.Length
      invariant |done| == b && a[..] == done + rest
      invariant ReverseRows(s, w) == done + ReverseRows(rest, w)
      decreases a.Length - b
    {
      var k := Min(w, a.Length - b);
      ghost var chunk, tail := ChunkStep(done, rest, w, s);
      ReverseRange(a, b, b + k, done, chunk, tail);
      done, rest := done + Reverse(chunk), tail;
      b := b + k;
    }
    assert rest == [];
    assert done + rest == done;
  }

  /** The next chunk of the horizontal flip, and the regrouping that moves
      its reversal from the pending part to the finished one. */
  lemma ChunkStep<T>(done: seq<T>, rest: seq<T>, w: nat, s: seq<T>) returns (chunk: seq<T>, tail: seq<T>)
    requires w > 0 && rest != []
    requires ReverseRows(s, w) == done + ReverseRows(rest, w)
    ensures rest == chunk + tail && |chunk| == Min(w, |rest|)
    ensures done + rest == done + chunk + tail
    ensures ReverseRows(s, w) == (done + Reverse(chunk)) + ReverseRows(tail, w)
    ensures done + Reverse(chunk) + tail == (done + Reverse(chunk)) + tail
  {
    var k := Min(w, |rest|);
    chunk, tail := rest[..k], rest[k..];
    assert rest == chunk + tail;
    Concat3(done, chunk, tail);
    Concat3(done, Reverse(chunk), ReverseRows(tail, w));
  }

  /** `x + y + z` cut back into its pieces. */
  lemma Concat3<T>(x: seq<T>, y: seq<T>, z: seq<T>)
    ensures (x + y + z)[..|x| + |y|] == x + y
    ensures (x + y + z)[|x|..|x| + |y|] == y
    ensures (x + y + z)[|x| + |y|..] == z
    ensures x + (y + z) == x + y + z
  {
  }

  /** The vertical direction: swap the top row pairs from the outside in. */
  method FlipVertical<T>(img: ImagePixels<T>)
    requires img.width > 0
    modifies img.pixels
    ensures img.pixels[..] == Flipped(old(img.pixels[..]), img.width, Vertical)
  {
    var pairs := img.Height() / 2;
    RowPairsFit(img.pixels.Length, img.width);
    PairsFitBound(pairs, img.width, img.pixels.Length);
    SwapRowPairs(img.pixels, img.width, pairs);
  }

  /** The zipped loop over the top rows and the bottom rows, taken from the
      end, of a vertical flip. The buffer is tracked as `front + mid + back`:
      the `top` elements at each end hold their final values, and flipping
      `mid` `left` more times finishes the job. */
  method SwapRowPairs<T>(a: array<T>, w: nat, pairs: nat)
    requires w > 0 && PairsFit(pairs, w, a.Length)
    modifies a
    ensures a[..] == SwapRows(old(a[..]), w, pairs)
  {
    ghost var s := a[..];
    ghost var front: seq<T>, mid, back := [], s, [];
    PadEmpty(s);
    PadEmpty(SwapRows(s, w, pairs));
    var top, r := 0, 0;
    while r < pairs
      invariant r <= pairs
      invariant |front| == top && |back| == top && a[..] == front + mid + back
      invariant PairsFit(pairs - r, w, |mid|)
      invariant SwapRows(s, w, pairs) == front + SwapRows(mid, w, pairs - r) + back
      decreases pairs - r
    {
      front, mid, back := SwapRowPair(a, w, top, s, pairs, pairs - r, front, mid, back);
      top, r := top + w, r + 1;
    }
    assert SwapRows(mid, w, 0) == mid;
  }

  lemma PadEmpty<T>(x: seq<T>)
    ensures [] + x + [] == x
  {
  }

  /** One iteration of the vertical flip: the first and the last row of
      the middle trade places, and each moves to its finished end. */
  method SwapRowPair<T>(a: array<T>, w: nat, top: nat, ghost s: seq<T>, ghost pairs: nat, ghost left: nat,
                        ghost front: seq<T>, ghost mid: seq<T>, ghost back: seq<T>)
    returns (ghost front': seq<T>, ghost mid': seq<T>, ghost back': seq<T>)
    requires 0 < left && PairsFit(left, w, |mid|)
    requires |front| == top && |back| == top && a[..] == front + mid + back
    requires SwapRows(s, w, pairs) == front + SwapRows(mid, w, left) + back
    modifies a
    ensures |front'| == top + w && |back'| == top + w && a[..] == front' + mid' + back'
    ensures PairsFit(left - 1, w, |mid'|)
    ensures SwapRows(s, w, pairs) == front' + SwapRows(mid', w, left - 1) + back'
  {
    ghost var upper, inner, lower := RowsOfMiddle(mid, w, left);
    RowPairStep(s, w, pairs, left, front, upper, inner, lower, back);
    Regroup5(front, upper, inner, lower, back);
    SwapSlices(a, top, a.Length - top - w, w, front, upper, inner, lower, back);
    front', mid', back' := front + lower, inner, upper + back;
  }

  /** `left` pairs of `w`-long rows fit in `room` elements. */
  predicate PairsFit(left: nat, w: nat, room: int) {
    left == 0 || (2 * w <= room && PairsFit(left - 1, w, room - 2 * w))
  }

  lemma {:induction false} PairsFitBound(left: nat, w: nat, room: int)
    requires 2 * left * w <= room
    ensures PairsFit(left, w, room)
  {
    if left > 0 {
      assert 2 * left * w == 2 * (left - 1) * w + 2 * w;
      PairsFitBound(left - 1, w, room - 2 * w);
    }
  }

  /** The first row, the inside and the last row of a middle that still
      holds `left` row pairs. */
  lemma RowsOfMiddle<T>(mid: seq<T>, w: nat, left: nat) returns (upper: seq<T>, inner: seq<T>, lower: seq<T>)
    requires 0 < left && PairsFit(left, w, |mid|)
    ensures |upper| == w && |lower| == w && mid == upper + inner + lower
    ensures PairsFit(left - 1, w, |inner|)
  {
    upper, inner, lower := mid[..w], mid[w..|mid| - w], mid[|mid| - w..];
    assert mid == upper + inner + lower;
  }

  /** One row pair of the vertical flip: after the first and the last row
      of the middle trade places, the flip of the whole splits around the
      flip of the inside. */
  lemma RowPairStep<T>(s: seq<T>, w: nat, pairs: nat, left: nat,
                       front: seq<T>, upper: seq<T>, inner: seq<T>, lower: seq<T>, back: seq<T>)
    requires 0 < left && |upper| == w && |lower| == w
    requires SwapRows(s, w, pairs) == front + SwapRows(upper + inner + lower, w, left) + back
    ensures SwapRows(s, w, pairs) == (front + lower) + SwapRows(inner, w, left - 1) + (upper + back)
  {
    SwapRowsUnfold(upper + inner + lower, upper, inner, lower, w, left);
    Regroup(front, lower, SwapRows(inner, w, left - 1), upper, back);
  }

  /** One unfolding of `SwapRows` on a middle cut into its rows. */
  lemma SwapRowsUnfold<T>(m: seq<T>, upper: seq<T>, inner: seq<T>, lower: seq<T>, w: nat, left: nat)
    requires 0 < left && |upper| == w && |lower| == w && m == upper + inner + lower
    ensures SwapRows(m, w, left) == lower + SwapRows(inner, w, left - 1) + upper
  {
    Concat3(upper, inner, lower);
  }

  /** The regroupings around one row swap. */
  lemma Regroup5<T>(front: seq<T>, upper: seq<T>, inner: seq<T>, lower: seq<T>, back: seq<T>)
    ensures front + (upper + inner + lower) + back == front + upper + inner + lower + back
    ensures front + lower + inner + upper + back == (front + lower) + inner + (upper + back)
  {
  }

  lemma Regroup<T>(p: seq<T>, a: seq<T>, b: seq<T>, c: seq<T>, q: seq<T>)
    ensures p + (a + b + c) + q == (p + a) + b + (c + q)
  {
  }

  /** `FlipFilter::process`: parse the direction and flip in place. */
  method Process<T>(img: ImagePixels<T>, arg: Option<string>)
    requires ParseDirection(arg).Some?
    requires ParseDirection(arg).value != Both ==> img.width > 0
    modifies img.pixels
    ensures img.pixels[..] == Flipped(old(img.pixels[..]), img.width, ParseDirection(arg).value)
  {
    var dir := ParseDirection(arg).value;
    match dir
    case Vertical => FlipVertical(img);
    case Horizontal => FlipHorizontal(img);
    case Both => FlipBoth(img);
  }
}

=== FILE: image.dfy ===
/**
 * `Image<T>` (src/bitmap/image.rs): a row-major buffer of pixels with a
 * width and a height, and the operations that read and update it in place.
 *
 * The channel type `T` is the image's `ch`; every stored pixel is in that
 * type's range, which the source's type system guarantees and `Valid`
 * states.
 */
module Images {
  import opened Pixels
  import opened Blending
  import opened MachineInts

  /** `NewImageError`: the two ways `from_pixels` can reject a buffer. */
  datatype NewImageError = IncorrectWidth | ZeroWidth

  datatype Option<T> = None | Some(value: T)

  datatype Result<T, E> = Ok(value: T) | Err(error: E)

  /** Position of column `x`, row `y` in a row-major buffer `width` wide. */
  function Offset(width: nat, x: nat, y: nat): nat {
    width * y + x
  }

  lemma {:induction false} OffsetInBounds(width: nat, height: nat, x: nat, y: nat)
    requires x < width && y < height
    ensures Offset(width, x, y) < width * height
    ensures Offset(width, x, y) + (width - x) <= width * height
    ensures Offset(width, 0, y + 1) == Offset(width, x, y) + (width - x)
  {
    assert width * y + width == width * (y + 1);
    assert width * (y + 1) <= width * height by {
      MulLe(y + 1, height, width);
    }
  }

  /** Distinct cells of a buffer have distinct positions. */
  lemma {:induction false} OffsetInjective(width: nat, x1: nat, y1: nat, x2: nat, y2: nat)
    requires x1 < width && x2 < width
    ensures Offset(width, x1, y1) == Offset(width, x2, y2) <==> x1 == x2 && y1 == y2
  {
    if y1 < y2 {
      MulLe(y1 + 1, y2, width);
      assert width * y1 + width == width * (y1 + 1);
    } else if y2 < y1 {
      MulLe(y2 + 1, y1, width);
      assert width * y2 + width == width * (y2 + 1);
    }
  }

  /** Every position of a buffer is the position of one cell. */
  lemma {:induction false} OffsetCovers(width: nat, height: nat, i: nat)
    requires i < width * height
    ensures width > 0 && i % width < width && i / width < height
    ensures Offset(width, i % width, i / width) == i
  {
    assert width > 0;
    if i / width >= height {
      MulLe(height, i / width, width);
      assert false;
    }
  }

  /** The pixel of a `width` by `height` row-major buffer at column `c`, row `r`. */
  function Cell(s: seq<AlphaPixel>, width: nat, height: nat, c: nat, r: nat): (p: AlphaPixel)
    requires |s| == width * height && c < width && r < height
    ensures Offset(width, c, r) < |s| && p == s[Offset(width, c, r)]
    ensures p in s
  {
    OffsetInBounds(width, height, c, r);
    s[Offset(width, c, r)]
  }

  /** `from_pixels`' check on the buffer length: the height the buffer gives
      for a width, or why there is none. */
  function CheckDimensions(len: nat, width: nat): (r: Result<nat, NewImageError>)
    ensures r == Err(ZeroWidth) <==> width == 0 && len > 0
    ensures r == Err(IncorrectWidth) <==> width > 0 && len % width != 0
    ensures r.Ok? <==> (width == 0 && len == 0) || (width > 0 && len % width == 0)
    ensures r.Ok? ==> width * r.value == len
  {
    if width == 0 then
      if len == 0 then Ok(0) else Err(ZeroWidth)
    else if len % width != 0 then
      Err(IncorrectWidth)
    else
      Ok(len / width)
  }

  /** The `from_pixels_fail` and `from_pixels_valid` cases. */
  lemma CheckDimensionsExamples()
    ensures CheckDimensions(10, 3) == Err(IncorrectWidth)
    ensures CheckDimensions(10, 0) == Err(ZeroWidth)
    ensures CheckDimensions(0, 0) == Ok(0)
    ensures CheckDimensions(100, 10) == Ok(10)
  {
  }

  /** What `blend` can produce from two pixels of type `T` is again of type
      `T`: automatic for Replace and Over, and the type of a Custom
      function's result in the source. */
  ghost predicate KeepsRange(blend: BlendingMethod, ch: Channel) {
    blend.Custom? ==>
      forall p: AlphaPixel, q: AlphaPixel :: InRange(ch, p) && InRange(ch, q) ==> InRange(ch, blend.f(p, q))
  }

  /** How far a subimage placed at `pos` reaches into an axis of length
      `len`: `(pos + src).min(len) - pos`. */
  function Extent(pos: nat, src: nat, len: nat): (e: nat)
    requires pos <= len
    ensures e <= src && pos + e <= len
    ensures e == src || pos + e == len
  {
    Min(pos + src, len) - pos
  }

  /** The cells `draw_subimage` writes: those inside both images. */
  predicate Covered(x: nat, y: nat, subW: nat, subH: nat, c: nat, r: nat) {
    x <= c < x + subW && y <= r < y + subH
  }

  /** The cells a row-by-row, column-by-column drawing has written after
      `rows` whole rows and `cols` cells of the next. */
  predicate DoneSoFar(x: nat, y: nat, subW: nat, rows: nat, cols: nat, c: nat, r: nat) {
    (x <= c < x + subW && y <= r < y + rows) || (r == y + rows && x <= c < x + cols)
  }

  /** All pixels of a buffer are in range of the channel type. */
  predicate AllInRange(ch: Channel, s: seq<AlphaPixel>) {
    forall p :: p in s ==> InRange(ch, p)
  }

  /** The pixel at (c, r) after drawing `src` (`srcW` wide, `srcH` high) at
      (x, y) on a `width` by `height` image whose pixel there was `back`. */
  function DrawnPixel(blend: BlendingMethod, ch: Channel, back: AlphaPixel,
                      src: seq<AlphaPixel>, srcW: nat, srcH: nat,
                      x: nat, y: nat, width: nat, height: nat, c: nat, r: nat): (p: AlphaPixel)
    requires |src| == srcW * srcH && AllInRange(ch, src) && InRange(ch, back)
    requires x <= width && y <= height
    requires KeepsRange(blend, ch)
    ensures InRange(ch, p)
    ensures !Covered(x, y, Extent(x, srcW, width), Extent(y, srcH, height), c, r) ==> p == back
  {
    if Covered(x, y, Extent(x, srcW, width), Extent(y, srcH, height), c, r) then
      Blend(blend, ch, back, Cell(src, srcW, srcH, c - x, r - y))
    else
      back
  }

  /** Drawing with Replace copies the subimage's pixel into every covered cell. */
  lemma DrawnPixelReplace(ch: Channel, back: AlphaPixel, src: seq<AlphaPixel>, srcW: nat, srcH: nat,
                          x: nat, y: nat, width: nat, height: nat, c: nat, r: nat)
    requires |src| == srcW * srcH && AllInRange(ch, src) && InRange(ch, back)
    requires x <= width && y <= height
    requires Covered(x, y, Extent(x, srcW, width), Extent(y, srcH, height), c, r)
    ensures c - x < srcW && r - y < srcH
    ensures DrawnPixel(Replace, ch, back, src, srcW, srcH, x, y, width, height, c, r)
              == Cell(src, srcW, srcH, c - x, r - y)
  {
  }

  /** Drawing a fully transparent subimage with Over leaves every visible
      pixel, and every default pixel, as it was. */
  lemma DrawnPixelTransparentOver(ch: Channel, back: AlphaPixel, src: seq<AlphaPixel>, srcW: nat, srcH: nat,
                                  x: nat, y: nat, width: nat, height: nat, c: nat, r: nat)
    requires |src| == srcW * srcH && AllInRange(ch, src) && InRange(ch, back)
    requires x <= width && y <= height
    requires forall i :: 0 <= i < |src| ==> src[i].a == 0
    requires back.a > 0 || back == Default()
    ensures DrawnPixel(Over, ch, back, src, srcW, srcH, x, y, width, height, c, r) == back
  {
    if Covered(x, y, Extent(x, srcW, width), Extent(y, srcH, height), c, r) {
      OffsetInBounds(srcW, srcH, c - x, r - y);
      OverTransparentForeground(ch, Cell(src, srcW, srcH, c - x, r - y), back);
    }
  }

  /** After drawing `rows` whole rows and `cols` cells of the next, every
      written cell holds its drawn pixel and every other cell its original. */
  ghost predicate DrawnUpTo(cur: seq<AlphaPixel>, orig: seq<AlphaPixel>, blend: BlendingMethod, ch: Channel,
                            src: seq<AlphaPixel>, srcW: nat, srcH: nat,
                            x: nat, y: nat, width: nat, height: nat, rows: nat, cols: nat)
    requires |cur| == width * height && |orig| == width * height && AllInRange(ch, orig)
    requires |src| == srcW * srcH && AllInRange(ch, src)
    requires x <= width && y <= height && KeepsRange(blend, ch)
  {
    forall c, r :: 0 <= c < width && 0 <= r < height ==>
      Cell(cur, width, height, c, r) ==
        if DoneSoFar(x, y, Extent(x, srcW, width), rows, cols, c, r)
        then DrawnPixel(blend, ch, Cell(orig, width, height, c, r), src, srcW, srcH, x, y, width, height, c, r)
        else Cell(orig, width, height, c, r)
  }

  /** Blending the next source pixel into the next cell extends the drawn
      region by that one cell and keeps every pixel in range. */
  lemma DrawStep(cur: seq<AlphaPixel>, orig: seq<AlphaPixel>, blend: BlendingMethod, ch: Channel,
                 src: seq<AlphaPixel>, srcW: nat, srcH: nat,
                 x: nat, y: nat, width: nat, height: nat, rows: nat, cols: nat)
    requires |cur| == width * height && |orig| == width * height && AllInRange(ch, orig) && AllInRange(ch, cur)
    requires |src| == srcW * srcH && AllInRange(ch, src)
    requires x <= width && y <= height && KeepsRange(blend, ch)
    requires rows < Extent(y, srcH, height) && cols < Extent(x, srcW, width)
    requires DrawnUpTo(cur, orig, blend, ch, src, srcW, srcH, x, y, width, height, rows, cols)
    ensures Offset(width, x + cols, y + rows) < |cur|
    ensures var idx := Offset(width, x + cols, y + rows);
            var next := cur[idx := Blend(blend, ch, cur[idx], Cell(src, srcW, srcH, cols, rows))];
            AllInRange(ch, next) &&
            DrawnUpTo(next, orig, blend, ch, src, srcW, srcH, x, y, width, height, rows, cols + 1)
  {
    var subW := Extent(x, srcW, width);
    var idx := Offset(width, x + cols, y + rows);
    OffsetInBounds(width, height, x + cols, y + rows);
    assert !DoneSoFar(x, y, subW, rows, cols, x + cols, y + rows);
    assert cur[idx] == orig[idx] by {
      assert Cell(cur, width, height, x + cols, y + rows) == Cell(orig, width, height, x + cols, y + rows);
    }
    var next := cur[idx := Blend(blend, ch, cur[idx], Cell(src, srcW, srcH, cols, rows))];
    assert InRange(ch, next[idx]) by {
      assert next[idx] == DrawnPixel(blend, ch, orig[idx], src, srcW, srcH, x, y, width, height, x + cols, y + rows);
    }
    forall c, r | 0 <= c < width && 0 <= r < height
      ensures Cell(next, width, height, c, r) ==
                if DoneSoFar(x, y, subW, rows, cols + 1, c, r)
                then DrawnPixel(blend, ch, Cell(orig, width, height, c, r), src, srcW, srcH, x, y, width, height, c, r)
                else Cell(orig, width, height, c, r)
    {
      OffsetInjective(width, c, r, x + cols, y + rows);
    }
  }

  /** A whole row drawn is the start of the next one. */
  lemma NextRow(cur: seq<AlphaPixel>, orig: seq<AlphaPixel>, blend: BlendingMethod, ch: Channel,
                src: seq<AlphaPixel>, srcW: nat, srcH: nat,
                x: nat, y: nat, width: nat, height: nat, rows: nat)
    requires |cur| == width * height && |orig| == width * height && AllInRange(ch, orig)
    requires |src| == srcW * srcH && AllInRange(ch, src)
    requires x <= width && y <= height && KeepsRange(blend, ch)
    requires DrawnUpTo(cur, orig, blend, ch, src, srcW, srcH, x, y, width, height, rows, Extent(x, srcW, width))
    ensures DrawnUpTo(cur, orig, blend, ch, src, srcW, srcH, x, y, width, height, rows + 1, 0)
  {
    var subW := Extent(x, srcW, width);
    forall c, r | 0 <= c < width && 0 <= r < height
      ensures DoneSoFar(x, y, subW, rows, subW, c, r) == DoneSoFar(x, y, subW, rows + 1, 0, c, r)
    {
    }
  }

  /** Once every row of the clipped subimage is drawn, every cell holds its
      drawn pixel (uncovered cells keep the original). */
  lemma DrawnUpToAll(cur: seq<AlphaPixel>, orig: seq<AlphaPixel>, blend: BlendingMethod, ch: Channel,
                     src: seq<AlphaPixel>, srcW: nat, srcH: nat,
                     x: nat, y: nat, width: nat, height: nat)
    requires |cur| == width * height && |orig| == width * height && AllInRange(ch, orig)
    requires |src| == srcW * srcH && AllInRange(ch, src)
    requires x <= width && y <= height && KeepsRange(blend, ch)
    requires DrawnUpTo(cur, orig, blend, ch, src, srcW, srcH, x, y, width, height, Extent(y, srcH, height), 0)
    ensures forall c, r :: 0 <= c < width && 0 <= r < height ==>
              Cell(cur, width, height, c, r) ==
                DrawnPixel(blend, ch, Cell(orig, width, height, c, r), src, srcW, srcH, x, y, width, height, c, r)
  {
  }

  class Image {
    /** The channel type `T` of `Image<T>`. */
    const ch: Channel
    var pixels: seq<AlphaPixel>
    var width: nat
    var height: nat

    /** The buffer holds `width * height` pixels, a count that fits `usize`
        as the length of every `Vec` does, each in the channel's range. */
    ghost predicate Valid()
      reads this
    {
      |pixels| == width * height && IsUsize(|pixels|) && AllInRange(ch, pixels)
    }

    /** `Image::new()` (and `Default`): no pixels, zero width and height. */
    constructor Empty(ch: Channel)
      ensures Valid() && this.ch == ch
      ensures pixels == [] && width == 0 && height == 0
    {
      this.ch := ch;
      pixels := [];
      width := 0;
      height := 0;
    }

    /** `Image::new_with_fill`: `width * height` copies of `fill`. The
        product panics when it overflows `usize`. */
    constructor WithFill(ch: Channel, fill: AlphaPixel, width: nat, height: nat)
      requires InRange(ch, fill) && IsUsize(width * height)
      ensures Valid() && this.ch == ch
      ensures this.width == width && this.height == height
      ensures forall i :: 0 <= i < |pixels| ==> pixels[i] == fill
    {
      this.ch := ch;
      pixels := seq(width * height, _ => fill);
      this.width := width;
      this.height := height;
    }

    /** `Image::from_pixels`: adopts the buffer when its length is a multiple
        of a non-zero width, or is empty with a zero width. */
    static method FromPixels(ch: Channel, pixels: seq<AlphaPixel>, width: nat) returns (r: Result<Image, NewImageError>)
      requires AllInRange(ch, pixels) && IsUsize(|pixels|)
      ensures r.Err? <==> CheckDimensions(|pixels|, width).Err?
      ensures r.Err? ==> r.error == CheckDimensions(|pixels|, width).error
      ensures r.Ok? ==> fresh(r.value) && r.value.Valid() && r.value.ch == ch
      ensures r.Ok? ==> r.value.pixels == pixels && r.value.height == CheckDimensions(|pixels|, width).value
      ensures r.Ok? ==> r.value.width == (if pixels == [] && width == 0 then 0 else width)
    {
      if width == 0 {
        if |pixels| == 0 {
          var im := new Image.Empty(ch);
          return Ok(im);
        } else {
          return Err(ZeroWidth);
        }
      }
      var height, rem := |pixels| / width, |pixels| % width;
      if rem != 0 {
        return Err(IncorrectWidth);
      }
      var im := new Image.Empty(ch);
      im.pixels := pixels;
      im.width := width;
      im.height := height;
      return Ok(im);
    }

    /** `Image::from_function`: row by row, column by column, the pixel the
        function gives for (column, row). The capacity `width * height`
        panics when it overflows `usize`. */
    constructor FromFunction(ch: Channel, width: nat, height: nat, f: (nat, nat) -> AlphaPixel)
      requires forall c: nat, r: nat :: InRange(ch, f(c, r))
      requires IsUsize(width * height)
      ensures Valid() && this.ch == ch
      ensures this.width == width && this.height == height
      ensures forall c, r :: 0 <= c < width && 0 <= r < height ==> Cell(pixels, width, height, c, r) == f(c, r)
    {
      var buf: seq<AlphaPixel> := [];
      var row := 0;
      while row < height
        invariant row <= height
        invariant |buf| == width * row
        invariant AllInRange(ch, buf)
        invariant forall c, r :: 0 <= c < width && 0 <= r < row ==>
                    Offset(width, c, r) < |buf| && buf[Offset(width, c, r)] == f(c, r)
      {
        var col := 0;
        ghost var before := buf;
        while col < width
          invariant col <= width
          invariant |buf| == width * row + col
          invariant buf[..width * row] == before
          invariant AllInRange(ch, buf)
          invariant forall c :: 0 <= c < col ==> buf[Offset(width, c, row)] == f(c, row)
        {
          buf := buf + [f(col, row)];
          col := col + 1;
        }
        assert width * (row + 1) == width * row + width;
        forall c, r | 0 <= c < width && 0 <= r < row + 1
          ensures Offset(width, c, r) < |buf| && buf[Offset(width, c, r)] == f(c, r)
        {
          if r < row {
            OffsetInBounds(width, row, c, r);
            assert buf[Offset(width, c, r)] == before[Offset(width, c, r)];
          }
        }
        row := row + 1;
      }
      this.ch := ch;
      pixels := buf;
      this.width := width;
      this.height := height;
    }

    /** `index_of_unchecked`: the position of (x, y), in bounds or not; the
        `usize` arithmetic panics when it overflows. */
    function IndexOfUnchecked(x: nat, y: nat): (i: nat)
      requires IsUsize(width * y + x)
      reads this
      ensures i == Offset(width, x, y)
    {
      width * y + x
    }

    /** `contains`: the coordinate is inside the image, so its row-major
        index and the rest of its row lie inside the buffer. */
    predicate Contains(x: nat, y: nat): (r: bool)
      reads this
      ensures r ==> Offset(width, x, y) + (width - x) <= width * height
    {
      if x < width && y < height then
        OffsetInBounds(width, height, x, y);
        true
      else false
    }

    /** `index_of`: the position of (x, y) when it is inside the image. */
    function IndexOf(x: nat, y: nat): (r: Option<nat>)
      requires Valid()
      reads this
      ensures r.Some? <==> Contains(x, y)
      ensures r.Some? <==> x < width && y < height
      ensures r.Some? ==> r.value == Offset(width, x, y) < width * height
    {
      if Contains(x, y) then
        OffsetInBounds(width, height, x, y);
        Some(IndexOfUnchecked(x, y))
      else None
    }

    /** `pixel_at`: the pixel at (x, y), or nothing outside the image. */
    function PixelAt(x: nat, y: nat): (r: Option<AlphaPixel>)
      requires Valid()
      reads this
      ensures r.Some? <==> x < width && y < height
      ensures r.Some? ==> r.value == Cell(pixels, width, height, x, y) && InRange(ch, r.value)
    {
      match IndexOf(x, y)
      case None => None
      case Some(i) => Some(pixels[i])
    }

    /** `row`: the pixels of row `y`, or nothing when `y` is past the last row
        or the image has no columns (the slice starts at `index_of(0, y)`). */
    function Row(y: nat): (r: Option<seq<AlphaPixel>>)
      requires Valid()
      reads this
      ensures r.Some? <==> 0 < width && y < height
      ensures r.Some? ==> |r.value| == width
      ensures r.Some? ==> forall c :: 0 <= c < width ==> r.value[c] == Cell(pixels, width, height, c, y)
    {
      match IndexOf(0, y)
      case None => None
      case Some(start) =>
        OffsetInBounds(width, height, 0, y);
        assert Offset(width, 0, y + 1) <= width * height;
        Some(pixels[start .. IndexOfUnchecked(0, y + 1)])
    }

    /** `row_mut` followed by a write of `values` through the slice it returns.
        The slice ends at `index_of(0, y + 1)`, which is checked, so the last
        row of the image is never returned. */
    method RowMut(y: nat, values: seq<AlphaPixel>) returns (ok: bool)
      requires Valid() && |values| == width && AllInRange(ch, values)
      modifies this
      ensures Valid() && width == old(width) && height == old(height)
      ensures ok <==> 0 < width && y + 1 < height
      ensures !ok ==> pixels == old(pixels)
      ensures ok ==> forall c, r :: 0 <= c < width && 0 <= r < height ==>
                Cell(pixels, width, height, c, r) == if r == y then values[c] else Cell(old(pixels), width, height, c, r)
    {
      var start := IndexOf(0, y);
      if start.None? {
        return false;
      }
      var end := IndexOf(0, y + 1);
      if end.None? {
        return false;
      }
      OffsetInBounds(width, height, 0, y);
      assert end.value == start.value + width;
      pixels := pixels[..start.value] + values + pixels[end.value..];
      forall c, r | 0 <= c < width && 0 <= r < height
        ensures Cell(pixels, width, height, c, r) == if r == y then values[c] else Cell(old(pixels), width, height, c, r)
      {
        OffsetInBounds(width, height, c, r);
        if r < y {
          OffsetInBounds(width, y, c, r);
        } else if r > y {
          assert Offset(width, c, r) >= Offset(width, 0, y + 1) by {
            MulLe(y + 1, r, width);
            assert width * (y + 1) <= width * r;
          }
        }
      }
      return true;
    }

    /** `pixel_at_mut` followed by a write of `p` through the reference. */
    method PixelAtMut(x: nat, y: nat, p: AlphaPixel) returns (ok: bool)
      requires Valid() && InRange(ch, p)
      modifies this
      ensures Valid() && width == old(width) && height == old(height)
      ensures ok <==> x < width && y < height
      ensures !ok ==> pixels == old(pixels)
      ensures ok ==> forall c, r :: 0 <= c < width && 0 <= r < height ==>
                Cell(pixels, width, height, c, r) == if c == x && r == y then p else Cell(old(pixels), width, height, c, r)
    {
      var idx := IndexOf(x, y);
      if idx.None? {
        return false;
      }
      pixels := pixels[idx.value := p];
      forall c, r | 0 <= c < width && 0 <= r < height
        ensures Cell(pixels, width, height, c, r) == if c == x && r == y then p else Cell(old(pixels), width, height, c, r)
      {
        OffsetInjective(width, c, r, x, y);
      }
      return true;
    }

    /** `draw_subimage`: blends `src` over this image with its top left corner
        at (x, y), clipped to this image. Returns false (the source's `None`)
        when `x` is this image's width and at least one row would be drawn.

        The source panics, rather than returning, when `x + src.width` or
        `y + src.height` overflows, when `x` or `y` is past this image's
        width or height (the subtraction underflows), and when `src` has no
        columns but rows are to be drawn (`row(...)` is `None` and is
        unwrapped); the preconditions exclude those inputs. */
    method DrawSubimage(src: Image, x: nat, y: nat, blend: BlendingMethod) returns (ok: bool)
      requires Valid() && src.Valid() && src != this && src.ch == ch
      requires KeepsRange(blend, ch)
      requires IsUsize(x + src.width) && IsUsize(y + src.height)
      requires x <= width && y <= height
      requires x < width && Extent(y, src.height, height) > 0 ==> src.width > 0
      modifies this
      ensures Valid() && width == old(width) && height == old(height)
      ensures ok <==> !(x == width && Extent(y, src.height, height) > 0)
      ensures !ok ==> pixels == old(pixels)
      ensures ok ==> forall c, r :: 0 <= c < width && 0 <= r < height ==>
                Cell(pixels, width, height, c, r) ==
                  DrawnPixel(blend, ch, Cell(old(pixels), width, height, c, r), src.pixels, src.width, src.height,
                             x, y, width, height, c, r)
    {
      var subW := Extent(x, src.width, width);
      var subH := Extent(y, src.height, height);
      var row := 0;
      while row < subH
        invariant row <= subH
        invariant Valid() && width == old(width) && height == old(height)
        invariant row > 0 ==> x < width
        invariant row == 0 ==> pixels == old(pixels)
        invariant DrawnUpTo(pixels, old(pixels), blend, ch, src.pixels, src.width, src.height,
                            x, y, width, height, row, 0)
      {
        var start := IndexOf(x, y + row);
        if start.None? {
          return false;
        }
        var srcRow := src.Row(row);
        assert srcRow.Some?;
        var col := 0;
        while col < subW
          invariant col <= subW
          invariant Valid() && width == old(width) && height == old(height)
          invariant DrawnUpTo(pixels, old(pixels), blend, ch, src.pixels, src.width, src.height,
                              x, y, width, height, row, col)
        {
          DrawStep(pixels, old(pixels), blend, ch, src.pixels, src.width, src.height,
                   x, y, width, height, row, col);
          var idx := IndexOfUnchecked(x + col, y + row);
          pixels := pixels[idx := Blend(blend, ch, pixels[idx], srcRow.value[col])];
          col := col + 1;
        }
        NextRow(pixels, old(pixels), blend, ch, src.pixels, src.width, src.height,
                x, y, width, height, row);
        row := row + 1;
      }
      DrawnUpToAll(pixels, old(pixels), blend, ch, src.pixels, src.width, src.height,
                   x, y, width, height);
      return true;
    }
  }
}

=== FILE: layers.dfy ===
/**
 * Layers and their sampling pipeline (src/layers/mod.rs,
 * src/layers/shapes.rs, src/layers/image.rs).
 *
 * A layer is sampled at a canvas coordinate by running every filter's
 * coordinate transform over the coordinate in chain order, reading the
 * layer's own pixel there when its bounding rectangle contains it, and then
 * running every filter's pixel function over that pixel in the same order.
 *
 * The `Layer<T>` trait is modelled by a closed sum of its implementations.
 * `TextLayer` samples exactly as an image layer over its rasterised image,
 * and is seen by the pipeline through that view (module Text).
 */
module Layers {
  import opened MachineInts
  import opened Pixels
  import opened Images
  import opened Rects
  import opened Filters

  predicate AllWellFormed(filters: seq<Filter>) {
    forall i :: 0 <= i < |filters| ==> WellFormed(filters[i])
  }

  /** The coordinate after every filter's `filter_transform`, the first
      filter of the chain applied first. */
  function TransformAll(filters: seq<Filter>, x: nat, y: nat): (r: (nat, nat))
    requires AllWellFormed(filters) && IsUsize(x) && IsUsize(y)
    ensures IsUsize(r.0) && IsUsize(r.1)
  {
    if filters == [] then (x, y)
    else
      var (x1, y1) := TransformAll(filters[..|filters| - 1], x, y);
      FilterTransform(filters[|filters| - 1], x1, y1)
  }

  /** The pixel after every filter's `filter_pixel`, the first filter of the
      chain applied first. */
  function PixelAll(filters: seq<Filter>, p: AlphaPixel): AlphaPixel {
    if filters == [] then p
    else FilterPixel(filters[|filters| - 1], PixelAll(filters[..|filters| - 1], p))
  }

  datatype Layer =
    | RectangleLayer(filters: seq<Filter>, fill: AlphaPixel, rect: Rect)
    | ImageLayer(filters: seq<Filter>, im: Image, x: nat, y: nat)
  {
    /** The objects whose fields a layer's answers depend on. */
    function Objects(): (o: set<object>)
      ensures ImageLayer? ==> im in o
    {
      if ImageLayer? then {im} else {}
    }

    /** `get_rect`: a rectangle layer's own rectangle, or the image's extent
        placed at the layer's position. */
    function GetRect(): (r: Rect)
      reads Objects()
      ensures RectangleLayer? ==> r == rect
      ensures ImageLayer? ==> r.x == x && r.y == y && r.width == im.width && r.height == im.height
    {
      match this
      case RectangleLayer(_, _, rect) => rect
      case ImageLayer(_, im, x, y) => Rect(x, y, im.width, im.height)
    }

    /** Sampling at (px, py) does not panic: the coordinates are `usize`, the
        containment test does not overflow, and an image layer's unchecked
        sample, reached whenever the rectangle contains the point, lies
        inside the image (`pixel_at(..).unwrap()`). */
    ghost predicate SampleDefined(px: nat, py: nat)
      reads Objects()
    {
      IsUsize(px) && IsUsize(py) && GetRect().ContainsDefined(px, py) &&
      (ImageLayer? ==>
        im.Valid() && (GetRect().Contains(px, py) ==> px - x < im.width && py - y < im.height))
    }

    /** The unchecked sample at (px, py) exists: always for a rectangle, and
        for an image layer when the offset from the layer's position lies
        inside the image. */
    ghost predicate InsideImage(px: nat, py: nat)
      reads Objects()
    {
      ImageLayer? ==> im.Valid() && x <= px && y <= py && px - x < im.width && py - y < im.height
    }

    /** `unfiltered_pixel_at_unchecked`: a rectangle's fill everywhere, or the
        image pixel at the coordinate relative to the layer's position. */
    function UnfilteredPixelAtUnchecked(px: nat, py: nat): (p: AlphaPixel)
      requires InsideImage(px, py)
      reads Objects()
      ensures RectangleLayer? ==> p == fill
      ensures ImageLayer? ==> p == Cell(im.pixels, im.width, im.height, px - x, py - y)
    {
      match this
      case RectangleLayer(_, fill, _) => fill
      case ImageLayer(_, im, x, y) => im.PixelAt(px - x, py - y).value
    }

    /** `unfiltered_pixel_at`: the unchecked sample inside the bounding
        rectangle, nothing outside it. */
    function UnfilteredPixelAt(px: nat, py: nat): (r: Option<AlphaPixel>)
      requires SampleDefined(px, py)
      reads Objects()
      ensures r.Some? <==> GetRect().Contains(px, py)
      ensures r.Some? ==> r.value == UnfilteredPixelAtUnchecked(px, py)
    {
      if GetRect().Contains(px, py) then Some(UnfilteredPixelAtUnchecked(px, py)) else None
    }

    /** What `filtered_pixel_at` computes: sample at the transformed
        coordinate and, when there is a pixel, filter its colour. */
    ghost function FilteredPixel(px: nat, py: nat): Option<AlphaPixel>
      requires AllWellFormed(filters) && IsUsize(px) && IsUsize(py)
      requires SampleDefined(TransformAll(filters, px, py).0, TransformAll(filters, px, py).1)
      reads Objects()
    {
      var (sx, sy) := TransformAll(filters, px, py);
      match UnfilteredPixelAt(sx, sy)
      case None => None
      case Some(p) => Some(PixelAll(filters, p))
    }

    /** `filtered_pixel_at`: transform the coordinate through the chain,
        sample there, and filter the colour of what was sampled. */
    method FilteredPixelAt(px: nat, py: nat) returns (r: Option<AlphaPixel>)
      requires AllWellFormed(filters) && IsUsize(px) && IsUsize(py)
      requires SampleDefined(TransformAll(filters, px, py).0, TransformAll(filters, px, py).1)
      ensures r == FilteredPixel(px, py)
    {
      var coord := TransformCoordinate(filters, px, py);
      var sample := UnfilteredPixelAt(coord.0, coord.1);
      if sample.None? {
        return None;
      }
      var pixel := FilterColour(filters, sample.value);
      return Some(pixel);
    }
  }

  /** The first loop of `filtered_pixel_at`: each filter's transform in turn. */
  method TransformCoordinate(filters: seq<Filter>, x: nat, y: nat) returns (coord: (nat, nat))
    requires AllWellFormed(filters) && IsUsize(x) && IsUsize(y)
    ensures coord == TransformAll(filters, x, y)
  {
    coord := (x, y);
    var i := 0;
    while i < |filters|
      invariant i <= |filters|
      invariant coord == TransformAll(filters[..i], x, y)
    {
      ghost var prefix := filters[..i + 1];
      assert prefix[..i] == filters[..i] && prefix[i] == filters[i];
      coord := FilterTransform(filters[i], coord.0, coord.1);
      i := i + 1;
    }
    assert filters[..|filters|] == filters;
  }

  /** The second loop of `filtered_pixel_at`: each filter's pixel function in turn. */
  method FilterColour(filters: seq<Filter>, p: AlphaPixel) returns (pixel: AlphaPixel)
    ensures pixel == PixelAll(filters, p)
  {
    pixel := p;
    var i := 0;
    while i < |filters|
      invariant i <= |filters|
      invariant pixel == PixelAll(filters[..i], p)
    {
      ghost var prefix := filters[..i + 1];
      assert prefix[..i] == filters[..i] && prefix[i] == filters[i];
      pixel := FilterPixel(filters[i], pixel);
      i := i + 1;
    }
    assert filters[..|filters|] == filters;
  }

  /** `RectangleLayer::new`: no filters. */
  function NewRectangleLayer(fill: AlphaPixel, rect: Rect): (l: Layer)
    ensures l.RectangleLayer? && l.filters == [] && l.fill == fill && l.rect == rect
  {
    RectangleLayer([], fill, rect)
  }

  /** `ImageLayer::new`: no filters. */
  function NewImageLayer(im: Image, x: nat, y: nat): (l: Layer)
    ensures l.ImageLayer? && l.filters == [] && l.im == im && l.x == x && l.y == y
  {
    ImageLayer([], im, x, y)
  }

  /** Running a chain in two parts is running it whole. */
  lemma {:induction false} TransformAllAppend(a: seq<Filter>, b: seq<Filter>, x: nat, y: nat)
    requires AllWellFormed(a) && AllWellFormed(b) && IsUsize(x) && IsUsize(y)
    ensures AllWellFormed(a + b)
    ensures TransformAll(a + b, x, y) == TransformAll(b, TransformAll(a, x, y).0, TransformAll(a, x, y).1)
    decreases |b|
  {
    if b != [] {
      var b' := b[..|b| - 1];
      assert (a + b)[..|a + b| - 1] == a + b';
      TransformAllAppend(a, b', x, y);
    } else {
      assert a + b == a;
    }
  }

  lemma {:induction false} PixelAllAppend(a: seq<Filter>, b: seq<Filter>, p: AlphaPixel)
    ensures PixelAll(a + b, p) == PixelAll(b, PixelAll(a, p))
    decreases |b|
  {
    if b != [] {
      var b' := b[..|b| - 1];
      assert (a + b)[..|a + b| - 1] == a + b';
      PixelAllAppend(a, b', p);
    } else {
      assert a + b == a;
    }
  }

  /** A chain with no recolouring filter leaves the sampled colour alone. */
  lemma {:induction false} PixelAllNoRecolor(filters: seq<Filter>, p: AlphaPixel)
    requires forall i :: 0 <= i < |filters| ==> !filters[i].Recolor?
    ensures PixelAll(filters, p) == p
  {
    if filters != [] {
      PixelAllNoRecolor(filters[..|filters| - 1], p);
    }
  }

  /** A chain with no translation samples where it is asked. */
  lemma {:induction false} TransformAllNoTranslate(filters: seq<Filter>, x: nat, y: nat)
    requires AllWellFormed(filters) && IsUsize(x) && IsUsize(y)
    requires forall i :: 0 <= i < |filters| ==> !filters[i].Translate?
    ensures TransformAll(filters, x, y) == (x, y)
  {
    if filters != [] {
      TransformAllNoTranslate(filters[..|filters| - 1], x, y);
    }
  }

  /** Inserting a filter that overrides only `filter_pixel` anywhere in a
      chain does not move where the layer is sampled; inserting one that
      overrides neither method changes neither the coordinate nor the
      colour. */
  lemma {:induction false} InsertFilter(filters: seq<Filter>, k: nat, flt: Filter, x: nat, y: nat, p: AlphaPixel)
    requires AllWellFormed(filters) && k <= |filters| && !flt.Translate? && IsUsize(x) && IsUsize(y)
    ensures AllWellFormed(filters[..k] + [flt] + filters[k..])
    ensures TransformAll(filters[..k] + [flt] + filters[k..], x, y) == TransformAll(filters, x, y)
    ensures flt.Identity? ==> PixelAll(filters[..k] + [flt] + filters[k..], p) == PixelAll(filters, p)
  {
    var pre, post := filters[..k], filters[k..];
    assert filters == pre + post;
    assert AllWellFormed(pre) && AllWellFormed(post);
    TransformAllAppend(pre, [flt], x, y);
    TransformAllNoTranslate([flt], TransformAll(pre, x, y).0, TransformAll(pre, x, y).1);
    TransformAllAppend(pre + [flt], post, x, y);
    TransformAllAppend(pre, post, x, y);
    if flt.Identity? {
      PixelAllAppend(pre, [flt], p);
      PixelAllAppend(pre + [flt], post, p);
      PixelAllAppend(pre, post, p);
    }
  }

  /** With no filters a layer is sampled unfiltered. */
  lemma EmptyChainUnfiltered(l: Layer, x: nat, y: nat)
    requires l.filters == [] && l.SampleDefined(x, y)
    ensures l.FilteredPixel(x, y) == l.UnfilteredPixelAt(x, y)
  {
  }

  /** A rectangle layer shows its fill at exactly the points its rectangle
      contains, and nothing elsewhere. */
  lemma RectangleSample(fill: AlphaPixel, rect: Rect, x: nat, y: nat)
    requires IsUsize(x) && IsUsize(y) && rect.ContainsDefined(x, y)
    ensures NewRectangleLayer(fill, rect).SampleDefined(x, y)
    ensures NewRectangleLayer(fill, rect).UnfilteredPixelAt(x, y) == if rect.Contains(x, y) then Some(fill) else None
  {
  }

  /** An image layer's rectangle contains the column just right of the image
      (`Rect::contains` is inclusive), where the unchecked sample falls
      outside the image, so sampling there panics. */
  lemma ImageLayerRightEdgePanics(im: Image, x: nat, y: nat)
    requires im.Valid()
    requires IsUsize(x + im.width) && IsUsize(y + im.width)
    ensures NewImageLayer(im, x, y).GetRect().Contains(x + im.width, y)
    ensures !NewImageLayer(im, x, y).SampleDefined(x + im.width, y)
  {
  }

  /** Inside the image an image layer shows the image's own pixels. */
  lemma ImageLayerSample(im: Image, x: nat, y: nat, c: nat, r: nat)
    requires im.Valid() && c < im.width && r < im.height && r <= im.width
    requires IsUsize(x + im.width) && IsUsize(y + im.width)
    ensures NewImageLayer(im, x, y).SampleDefined(x + c, y + r)
    ensures NewImageLayer(im, x, y).UnfilteredPixelAt(x + c, y + r) == im.PixelAt(c, r)
  {
  }

  /** The other side of the vertical extent measured by `width`: in an
      image taller than it is wide, the rows past `width` are not contained,
      so the layer gives no pixel there although the image has one. */
  lemma ImageLayerTallRowsRefused(im: Image, x: nat, y: nat, c: nat, r: nat)
    requires im.Valid() && c < im.width < r < im.height
    requires IsUsize(x + im.width) && IsUsize(y + r)
    ensures NewImageLayer(im, x, y).SampleDefined(x + c, y + r)
    ensures im.PixelAt(c, r).Some?
    ensures NewImageLayer(im, x, y).UnfilteredPixelAt(x + c, y + r).None?
  {
  }

  /** The translated rectangle of the `translate_test` unit test: a red
      5-wide rectangle at (2, 8) translated by (10, -5). */
  function TranslateTestLayer(): Layer {
    RectangleLayer([Translate(10, -5)], Red(U8), Rect(2, 8, 5, 6))
  }

  /** (16, 8) is sampled at (6, 13), the bottom right corner, which is red. */
  lemma TranslateTestCorner()
    ensures TransformAll(TranslateTestLayer().filters, 16, 8) == (6, 13)
    ensures TranslateTestLayer().SampleDefined(6, 13)
    ensures TranslateTestLayer().FilteredPixel(16, 8) == Some(Red(U8))
  {
  }

  /** (3, 9) is sampled at a column that wrapped around to 2^64 - 7: nothing. */
  lemma TranslateTestWrapped()
    ensures TransformAll(TranslateTestLayer().filters, 3, 9) == (USIZE_MAX - 6, 14)
    ensures TranslateTestLayer().SampleDefined(USIZE_MAX - 6, 14)
    ensures TranslateTestLayer().FilteredPixel(3, 9) == None
  {
  }

  /** (13, 4) is sampled at (3, 9), inside the rectangle. */
  lemma TranslateTestInside()
    ensures TransformAll(TranslateTestLayer().filters, 13, 4) == (3, 9)
    ensures TranslateTestLayer().SampleDefined(3, 9)
    ensures TranslateTestLayer().FilteredPixel(13, 4) == Some(Red(U8))
  {
  }
}

=== FILE: layout.dfy ===
/**
 * Glyph layout of a text layer (src/layers/text/layout.rs).
 *
 * `LayoutIter` walks the characters of the text and yields, for each
 * character other than a newline, the glyph and the origin it is drawn at.
 * A newline starts a new row (a new line left to right, a new column top to
 * bottom) and forgets the previous glyph.
 *
 * The font is foreign code: its queries are given as functions, and the
 * float values they return are taken exactly. Every `f32 as isize`
 * conversion truncates toward zero and saturates, as Rust's does.
 */
module Layout {
  import opened MachineInts
  import opened Pixels
  import opened Images

  /** `DEFAULT_VERTICAL_SPACING` */
  const DEFAULT_VERTICAL_SPACING: real := 10.0

  datatype LayoutError = MissingLineSpacing

  datatype LayoutDirection = LeftToRight | TopToBottom

  datatype SpacingMode = Scale(factor: real) | Constant(spacing: real)

  datatype TextLayout = TextLayout(direction: LayoutDirection, lineSpacing: SpacingMode,
                                   glyphSpacing: SpacingMode, useKern: bool)

  /** `TextLayout::default()` */
  function DefaultLayout(): (l: TextLayout)
    ensures l.direction == LeftToRight && l.useKern
    ensures l.lineSpacing == Scale(1.0) && l.glyphSpacing == Scale(1.0)
  {
    TextLayout(LeftToRight, Scale(1.0), Scale(1.0), true)
  }

  /** The fields of a glyph's `fontdue::Metrics` the layout reads. */
  datatype Metrics = Metrics(ymin: int, width: nat, height: nat, advanceWidth: real, boundsHeight: real)

  /** The font's answers: glyph metrics, the kerning of a pair, and the
      `new_line_size` of the horizontal and vertical line metrics, each at a
      given font size and each possibly missing. */
  datatype Font = Font(metrics: (char, real) -> Metrics,
                       horizontalKern: (char, char, real) -> Option<real>,
                       horizontalLineSize: real -> Option<real>,
                       verticalLineSize: real -> Option<real>)

  /** `TextSettings<T>` (declared in src/layers/text/mod.rs). */
  datatype TextSettings = TextSettings(size: real, fill: AlphaPixel, layout: TextLayout, text: string, font: Font)

  /** A laid-out glyph: the character and its origin. */
  datatype Placement = Placement(glyph: char, x: int, y: int)

  type Item = Result<Placement, LayoutError>

  /** The fields of `LayoutIter` that change: the characters not yet read,
      the previous glyph with the coordinate of the next origin, and the row. */
  datatype IterState = IterState(text: seq<char>, prevData: Option<(char, int)>, row: nat)

  /** `LayoutIter::new`: at the start of the text, row 0, no previous glyph. */
  function Start(settings: TextSettings): (st: IterState)
    ensures st.text == settings.text && st.prevData == None && st.row == 0
  {
    IterState(settings.text, None, 0)
  }

  function Newlines(k: nat): seq<char> {
    seq(k, _ => '\n')
  }

  /** `calculate_kerned_origin`: the origin moved by the pair's kerning,
      scaled by the glyph spacing when that is a scale; a missing kerning
      counts as zero. */
  function CalculateKernedOrigin(settings: TextSettings, origin: int, prev: char, next: char): (r: int)
    ensures settings.font.horizontalKern(prev, next, settings.size).None? ==> r == origin
  {
    var kern := match settings.font.horizontalKern(prev, next, settings.size)
                case Some(k) => k
                case None => 0.0;
    match settings.layout.glyphSpacing
    case Scale(scale) => origin + RealToIsize(kern * scale)
    case Constant(_) => origin + RealToIsize(kern)
  }

  /** `calculate_baseline` */
  function CalculateBaseline(settings: TextSettings, prevData: Option<(char, int)>, row: nat, m: Metrics): (r: Result<int, LayoutError>)
    ensures r.Err? <==> settings.layout.direction == LeftToRight && settings.layout.lineSpacing.Scale? &&
                        settings.font.horizontalLineSize(settings.size).None?
    ensures settings.layout.direction == TopToBottom && prevData.Some? ==> r == Ok(prevData.value.1)
  {
    match settings.layout.direction
    case LeftToRight =>
      (match settings.layout.lineSpacing
       case Constant(spacing) => Ok(RealToIsize(spacing * (row + 1) as real))
       case Scale(scale) =>
         match settings.font.horizontalLineSize(settings.size)
         case Some(lineSize) => Ok(RealToIsize(lineSize * (row + 1) as real * scale))
         case None => Err(MissingLineSpacing))
    case TopToBottom =>
      match prevData
      case Some((_, nextOriginY)) => Ok(nextOriginY)
      case None => Ok(AsIsize(m.height) - m.ymin)
  }

  /** `calculate_origin_x` */
  function CalculateOriginX(settings: TextSettings, prevData: Option<(char, int)>, row: nat, next: char): (r: Result<int, LayoutError>)
    ensures r.Err? <==> settings.layout.direction == TopToBottom && settings.layout.lineSpacing.Scale? &&
                        settings.font.verticalLineSize(settings.size).None?
    ensures settings.layout.direction == LeftToRight && prevData.None? ==> r == Ok(0)
  {
    match settings.layout.direction
    case LeftToRight =>
      (match prevData
       case Some((prev, nextOriginX)) =>
         if settings.layout.useKern then Ok(CalculateKernedOrigin(settings, nextOriginX, prev, next))
         else Ok(nextOriginX)
       case None => Ok(0))
    case TopToBottom =>
      match settings.layout.lineSpacing
      case Scale(scale) =>
        (match settings.font.verticalLineSize(settings.size)
         case Some(lineSize) => Ok(RealToIsize(lineSize * row as real * scale))
         case None => Err(MissingLineSpacing))
      case Constant(spacing) => Ok(RealToIsize(row as real * spacing))
  }

  /** The coordinate, along the direction of writing, of the origin of the
      glyph after one at (originX, originY). */
  function NextOrigin(settings: TextSettings, originX: int, originY: int, m: Metrics): int {
    match settings.layout.direction
    case LeftToRight =>
      (match settings.layout.glyphSpacing
       case Scale(scale) => originX + RealToIsize(scale * m.advanceWidth)
       case Constant(spacing) => originX + RealToIsize(spacing))
    case TopToBottom =>
      match settings.layout.glyphSpacing
      case Scale(scale) => originY + RealToIsize(scale * (m.boundsHeight + DEFAULT_VERTICAL_SPACING))
      case Constant(spacing) => originY + RealToIsize(spacing)
  }

  /** The leading newlines of the text read: one row further for each, and
      the previous glyph forgotten once any was read. */
  function SkipNewlines(st: IterState): (r: IterState)
    ensures r.row >= st.row
    ensures st.text == Newlines(r.row - st.row) + r.text
    ensures r.text == [] || r.text[0] != '\n'
    ensures r.prevData == if r.row == st.row then st.prevData else None
    decreases |st.text|
  {
    if st.text != [] && st.text[0] == '\n' then
      var r := SkipNewlines(IterState(st.text[1..], None, st.row + 1));
      assert st.text == Newlines(1) + Newlines(r.row - st.row - 1) + r.text;
      assert Newlines(1) + Newlines(r.row - st.row - 1) == Newlines(r.row - st.row);
      r
    else
      assert Newlines(0) == [];
      st
  }

  /** One call of `next`: the item it yields (nothing at the end of the
      text) and the state it leaves. */
  function Step(settings: TextSettings, st: IterState): (r: (Option<Item>, IterState))
    ensures r.0.Some? ==> |r.1.text| < |st.text|
  {
    var s1 := SkipNewlines(st);
    if s1.text == [] then (None, s1)
    else
      var c := s1.text[0];
      var s2 := s1.(text := s1.text[1..]);
      var m := settings.font.metrics(c, settings.size);
      match CalculateOriginX(settings, s1.prevData, s1.row, c)
      case Err(e) => (Some(Err(e)), s2)
      case Ok(originX) =>
        match CalculateBaseline(settings, s1.prevData, s1.row, m)
        case Err(e) => (Some(Err(e)), s2)
        case Ok(baseline) =>
          var originY := baseline - m.ymin - AsIsize(m.height);
          (Some(Ok(Placement(c, originX, originY))),
           s2.(prevData := Some((c, NextOrigin(settings, originX, originY, m)))))
  }

  /** Everything the iterator yields from a state on. */
  function Items(settings: TextSettings, st: IterState): seq<Item>
    decreases |st.text|
  {
    var (item, next) := Step(settings, st);
    if item.None? then [] else [item.value] + Items(settings, next)
  }

  /** One more item read off the front. */
  lemma ItemsUnfold(settings: TextSettings, st: IterState)
    ensures var (item, next) := Step(settings, st);
            Items(settings, st) == if item.None? then [] else [item.value] + Items(settings, next)
  {
  }

  /** The number of characters of `s` other than a newline. */
  function CountGlyphs(s: seq<char>): nat {
    if s == [] then 0 else (if s[0] == '\n' then 0 else 1) + CountGlyphs(s[1..])
  }

  /** Skipping a leading newline moves one row down and forgets the
      previous glyph. */
  lemma SkipNewline(c: char, t: seq<char>, p: Option<(char, int)>, row: nat)
    requires c == '\n'
    ensures SkipNewlines(IterState([c] + t, p, row)) == SkipNewlines(IterState(t, None, row + 1))
  {
    assert ([c] + t)[1..] == t;
  }

  /** Skipping stops at the first character that is not a newline. */
  lemma SkipStops(c: char, t: seq<char>, p: Option<(char, int)>, row: nat)
    requires c != '\n'
    ensures SkipNewlines(IterState([c] + t, p, row)) == IterState([c] + t, p, row)
  {
  }

  /** The first half of a step: the next character that is not a newline,
      if any, and the state after reading it. */
  function ReadNext(st: IterState): (r: (Option<char>, IterState))
    ensures r.0.Some? ==> r.0.value != '\n' && |r.1.text| < |st.text|
    ensures r.0.None? ==> r.1.text == []
  {
    var s1 := SkipNewlines(st);
    if s1.text == [] then (None, s1) else (Some(s1.text[0]), s1.(text := s1.text[1..]))
  }

  /** Nothing but newlines was left. */
  lemma ReadAtEnd(st: IterState, p: Option<(char, int)>, row: nat)
    requires SkipNewlines(st) == SkipNewlines(IterState([], p, row))
    ensures ReadNext(st) == (None, IterState([], p, row))
  {
  }

  /** The character `c` ends the leading newlines. */
  lemma ReadGlyphAt(st: IterState, c: char, t: seq<char>, p: Option<(char, int)>, row: nat)
    requires c != '\n' && SkipNewlines(st) == SkipNewlines(IterState([c] + t, p, row))
    ensures ReadNext(st) == (Some(c), IterState(t, p, row))
  {
    SkipStops(c, t, p, row);
    assert ([c] + t)[1..] == t;
  }

  lemma ReadAhead(t: seq<char>)
    requires t != []
    ensures [t[0]] + t[1..] == t
  {
  }

  /** `LayoutIter`: a cursor over the text of its settings. */
  class LayoutIter {
    const settings: TextSettings
    var text: seq<char>
    var prevData: Option<(char, int)>
    var row: nat

    function State(): IterState
      reads this
    {
      IterState(text, prevData, row)
    }

    /** `LayoutIter::new` */
    constructor (settings: TextSettings)
      ensures this.settings == settings && State() == Start(settings)
    {
      this.settings := settings;
      text := settings.text;
      prevData := None;
      row := 0;
    }

    /** The first half of `next`: the next character that is not a newline,
        each newline on the way starting a new row. */
    method ReadGlyph() returns (c: Option<char>)
      modifies this
      ensures (c, State()) == ReadNext(old(State()))
    {
      ghost var st := State();
      if text == [] {
        ReadAtEnd(st, prevData, row);
        return None;
      }
      var t, p, rw := text, prevData, row;
      var next := t[0];
      ReadAhead(t);
      t := t[1..];
      while next == '\n'
        invariant SkipNewlines(st) == SkipNewlines(IterState([next] + t, p, rw))
        decreases |t|
      {
        SkipNewline(next, t, p, rw);
        rw, p := rw + 1, None;
        if t == [] {
          ReadAtEnd(st, p, rw);
          text, prevData, row := t, p, rw;
          return None;
        }
        next := t[0];
        ReadAhead(t);
        t := t[1..];
      }
      ReadGlyphAt(st, next, t, p, rw);
      text, prevData, row := t, p, rw;
      return Some(next);
    }

    /** `next`: skips newlines, then lays out one character. */
    method Next() returns (item: Option<Item>)
      modifies this
      ensures (item, State()) == Step(settings, old(State()))
    {
      var next := ReadGlyph();
      if next.None? {
        return None;
      }
      var c := next.value;
      var m := settings.font.metrics(c, settings.size);
      var originX := CalculateOriginX(settings, prevData, row, c);
      if originX.Err? {
        return Some(Err(originX.error));
      }
      var baseline := CalculateBaseline(settings, prevData, row, m);
      if baseline.Err? {
        return Some(Err(baseline.error));
      }
      var originY := baseline.value - m.ymin - AsIsize(m.height);
      prevData := Some((c, NextOrigin(settings, originX.value, originY, m)));
      return Some(Ok(Placement(c, originX.value, originY)));
    }
  }

  /** A call of `next` that yields reads the leading newlines and then one
      other character, the one it lays out; one that yields nothing has read
      only newlines, to the end of the text. */
  lemma StepConsumes(settings: TextSettings, st: IterState)
    ensures var (item, next) := Step(settings, st);
            var k := next.row - st.row;
            next.row >= st.row &&
            (item.None? ==> next.text == [] && st.text == Newlines(k)) &&
            (item.Some? ==> exists c :: c != '\n' && st.text == Newlines(k) + [c] + next.text &&
                                        (item.value.Ok? ==> item.value.value.glyph == c))
  {
    var s1 := SkipNewlines(st);
    if s1.text != [] {
      assert s1.text == [s1.text[0]] + s1.text[1..];
      assert st.text == Newlines(s1.row - st.row) + [s1.text[0]] + s1.text[1..];
    }
  }

  /** A newline is never laid out. */
  lemma NewlineNeverYielded(settings: TextSettings, st: IterState)
    ensures forall i :: 0 <= i < |Items(settings, st)| && Items(settings, st)[i].Ok? ==>
              Items(settings, st)[i].value.glyph != '\n'
    decreases |st.text|
  {
    var (item, next) := Step(settings, st);
    if item.Some? {
      StepConsumes(settings, st);
      NewlineNeverYielded(settings, next);
    }
  }

  lemma {:induction false} CountGlyphsAppend(a: seq<char>, b: seq<char>)
    ensures CountGlyphs(a + b) == CountGlyphs(a) + CountGlyphs(b)
  {
    if a == [] {
      assert a + b == b;
    } else {
      assert (a + b)[1..] == a[1..] + b;
      CountGlyphsAppend(a[1..], b);
    }
  }

  lemma {:induction false} CountGlyphsNewlines(k: nat)
    ensures CountGlyphs(Newlines(k)) == 0
  {
    if k > 0 {
      assert Newlines(k)[1..] == Newlines(k - 1);
      CountGlyphsNewlines(k - 1);
    }
  }

  /** The iterator yields one item per character other than a newline, the
      count the `layout_basic` test checks. */
  lemma {:induction false} ItemCount(settings: TextSettings, st: IterState)
    ensures |Items(settings, st)| == CountGlyphs(st.text)
    decreases |st.text|
  {
    var (item, next) := Step(settings, st);
    StepConsumes(settings, st);
    var k := next.row - st.row;
    CountGlyphsNewlines(k);
    if item.None? {
      assert st.text == Newlines(k) + [];
      CountGlyphsAppend(Newlines(k), []);
    } else {
      var c :| c != '\n' && st.text == Newlines(k) + [c] + next.text;
      CountGlyphsAppend(Newlines(k) + [c], next.text);
      CountGlyphsAppend(Newlines(k), [c]);
      ItemCount(settings, next);
    }
  }

  /** Left to right, the first glyph of a line (no previous glyph, or a
      newline just read) starts at x = 0. */
  lemma FirstGlyphOfLine(settings: TextSettings, st: IterState)
    requires settings.layout.direction == LeftToRight
    requires st.prevData == None || (st.text != [] && st.text[0] == '\n')
    ensures var item := Step(settings, st).0;
            item.Some? && item.value.Ok? ==> item.value.value.x == 0
  {
  }

  /** Left to right, a later glyph starts at the previous glyph's next
      origin, moved by the pair's kerning only when kerning is on. */
  lemma LaterGlyphOfLine(settings: TextSettings, st: IterState, prev: char, nextOrigin: int)
    requires settings.layout.direction == LeftToRight
    requires st.prevData == Some((prev, nextOrigin)) && st.text != [] && st.text[0] != '\n'
    ensures var item := Step(settings, st).0;
            item.Some? && item.value.Ok? ==>
              item.value.value.x == if settings.layout.useKern
                                    then CalculateKernedOrigin(settings, nextOrigin, prev, st.text[0])
                                    else nextOrigin
  {
    assert SkipNewlines(st) == st;
    var c := st.text[0];
    assert CalculateOriginX(settings, st.prevData, st.row, c)
        == Ok(if settings.layout.useKern then CalculateKernedOrigin(settings, nextOrigin, prev, c) else nextOrigin);
  }

  /** Top to bottom, the x origin of a glyph depends on its row alone. */
  lemma TopToBottomColumn(settings: TextSettings, p1: Option<(char, int)>, p2: Option<(char, int)>,
                          row: nat, c1: char, c2: char)
    requires settings.layout.direction == TopToBottom
    ensures CalculateOriginX(settings, p1, row, c1) == CalculateOriginX(settings, p2, row, c2)
  {
  }

  /** `next` yields an error exactly when there is a character to lay out,
      the line spacing is a scale, and the font lacks the line metrics of
      the direction of writing. */
  lemma ErrorIffMissingLineMetrics(settings: TextSettings, st: IterState)
    ensures var item := Step(settings, st).0;
            item.Some? && item.value.Err? <==>
              SkipNewlines(st).text != [] && settings.layout.lineSpacing.Scale? &&
              (if settings.layout.direction == LeftToRight
               then settings.font.horizontalLineSize(settings.size).None?
               else settings.font.verticalLineSize(settings.size).None?)
  {
  }

  /** A constant line spacing never fails, so every item yielded is a glyph. */
  lemma {:induction false} ConstantSpacingNeverFails(settings: TextSettings, st: IterState)
    requires settings.layout.lineSpacing.Constant?
    ensures forall i :: 0 <= i < |Items(settings, st)| ==> Items(settings, st)[i].Ok?
    decreases |st.text|
  {
    var (item, next) := Step(settings, st);
    ItemsUnfold(settings, st);
    if item.Some? {
      ErrorIffMissingLineMetrics(settings, st);
      ConstantSpacingNeverFails(settings, next);
      var all, rest := Items(settings, st), Items(settings, next);
      forall i | 0 <= i < |all|
        ensures all[i].Ok?
      {
        if i > 0 {
          assert all[i] == rest[i - 1];
        }
      }
    }
  }

  /** A glyph laid out at (x, y) sits with its bottom edge `ymin` below the
      baseline, and is remembered with the next origin; an error leaves the
      previous glyph as the newlines left it. */
  lemma StepRemembers(settings: TextSettings, st: IterState)
    ensures var (item, next) := Step(settings, st);
            var s1 := SkipNewlines(st);
            item.Some? ==>
              next.row == s1.row &&
              match item.value
              case Err(_) => next.prevData == s1.prevData
              case Ok(p) =>
                var m := settings.font.metrics(p.glyph, settings.size);
                var baseline := CalculateBaseline(settings, s1.prevData, s1.row, m);
                baseline.Ok? && p.y == baseline.value - m.ymin - AsIsize(m.height) &&
                CalculateOriginX(settings, s1.prevData, s1.row, p.glyph) == Ok(p.x) &&
                next.prevData == Some((p.glyph, NextOrigin(settings, p.x, p.y, m)))
  {
  }
}

=== FILE: legacy_image.dfy ===
/**
 * The older image layer (src/layer/images.rs): an `ImagePixels` buffer
 * placed on the canvas at an `i32` position, optionally centred on it.
 * Decoding and resizing the file are left out; the constructor receives
 * the decoded width, height and pixels.
 */
module LegacyImages {
  import opened MachineInts
  import opened Images
  import opened PixelBuffers

  /** `position - (size as i32) / 2`: the size is read as an `i32` (a size
      above `i32::MAX` wraps negative) and halved rounding toward zero. */
  function CentredOffset(position: int, size: nat): (r: int)
    requires IsU32(size)
  {
    position - TruncDiv(AsI32(size), 2)
  }

  /** For a size that fits `i32`, the offset lies `size / 2` before the
      position, so the middle pixel of the image (the left one of the two
      middles when the size is even) lands on the position. A size that
      wraps negative moves the image forward instead. */
  lemma {:induction false} CentredMiddle(position: int, size: nat)
    requires IsU32(size)
    ensures size <= I32_MAX ==> CentredOffset(position, size) <= position
    ensures size <= I32_MAX ==>
      var half := position - CentredOffset(position, size);
      2 * half <= size < 2 * half + 2
    ensures size > I32_MAX ==> CentredOffset(position, size) == position + (0x1_0000_0000 - size) / 2
  {
    AsI32OfU32(size);
  }

  class Image<T> {
    var pixels: ImagePixels<T>
    var position: (int, int)

    /** The width fits its `u32` and the position its two `i32`s. */
    ghost predicate Valid()
      reads this, pixels
    {
      pixels.Valid() && IsI32(position.0) && IsI32(position.1)
    }

    /** The far edges `position + size as i32` that `pixel_at` computes fit
        `i32`, so the additions do not overflow. The height is read only
        when the column test passes, which a zero width never lets happen. */
    ghost predicate EdgesFit()
      reads this, pixels
    {
      IsI32(position.0 + AsI32(pixels.width)) &&
      (pixels.width > 0 ==> IsI32(position.1 + AsI32(pixels.Height())))
    }

    /** The end of `new_layer`: the decoded image of `width` by `height`
        pixels is stored with `from_pixels`, and with `center` the position
        is moved back by half the size in each direction. */
    constructor (width: nat, height: nat, buffer: seq<T>, at: (int, int), center: bool)
      requires IsU32(width) && IsU32(height) && |buffer| == width * height
      requires IsI32(at.0) && IsI32(at.1)
      requires center ==> IsI32(CentredOffset(at.0, width)) && IsI32(CentredOffset(at.1, height))
      ensures Valid()
      ensures pixels.width == width && pixels.pixels[..] == buffer
      ensures 0 < width && |buffer| <= U32_MAX ==> pixels.Height() == height
      ensures center ==> position == (CentredOffset(at.0, width), CentredOffset(at.1, height))
      ensures !center ==> position == at
      ensures fresh(pixels) && fresh(pixels.pixels)
    {
      var p := at;
      if center {
        p := (CentredOffset(at.0, width), CentredOffset(at.1, height));
      }
      var stored := new ImagePixels.FromPixels(width, buffer);
      if 0 < width && |buffer| <= U32_MAX {
        HeightOfExact(stored.Height(), width, height);
      }
      pixels := stored;
      position := p;
    }

    /** `get_image`: the layer's own buffer. */
    function GetImage(): (b: ImagePixels<T>)
      reads this
      ensures b == pixels
    {
      pixels
    }

    /** Whether the canvas point with `i32` coordinates `(xi, yi)` falls on
        the placed image: at or after the position and before the position
        plus the size, each size read as an `i32`. */
    ghost predicate Covers(xi: int, yi: int)
      reads this, pixels
    {
      position.0 <= xi < position.0 + AsI32(pixels.width) &&
      pixels.width > 0 &&
      position.1 <= yi < position.1 + AsI32(pixels.Height())
    }

    /** `pixel_at(x, y)`: both coordinates are cast to `i32`; a point before
        the position or at or past its far edge gives `None`; otherwise the
        pixel at the offset from the position, which the buffer always has. */
    function PixelAt(x: nat, y: nat): (r: Option<T>)
      requires IsU32(x) && IsU32(y)
      requires Valid() && EdgesFit()
      reads this, pixels, pixels.pixels
      ensures r.Some? <==> Covers(AsI32(x), AsI32(y))
      ensures AsI32(x) < position.0 || AsI32(y) < position.1 ==> r == None
      ensures r.Some? ==>
        var rx, ry := AsI32(x) - position.0, AsI32(y) - position.1;
        0 <= rx < pixels.width && 0 <= ry < pixels.Height() && r.value == pixels.At(rx, ry)
    {
      var xi, yi := AsI32(x), AsI32(y);
      if xi < position.0 || yi < position.1 then None
      else if xi >= position.0 + AsI32(pixels.width) || yi >= position.1 + AsI32(pixels.Height()) then None
      else
        var rx, ry := xi - position.0, yi - position.1;
        AsI32OfU32(pixels.width);
        AsI32OfU32(pixels.Height());
        pixels.GetPixelAt(rx, ry)
    }

    /** Every pixel of the buffer shows through at its own place: the pixel
        in column `i` and row `j` is what `pixel_at` returns at the position
        plus `(i, j)`, for a width that fits `i32` and a point on the canvas
        quadrant `pixel_at` can be asked about. */
    lemma {:induction false} PlacedPixel(i: nat, j: nat)
      requires Valid() && EdgesFit()
      requires i < pixels.width <= I32_MAX && j < pixels.Height() <= I32_MAX
      requires 0 <= position.0 + i && 0 <= position.1 + j
      ensures IsU32(position.0 + i) && IsU32(position.1 + j)
      ensures PixelAt(position.0 + i, position.1 + j) == Some(pixels.At(i, j))
    {
      var x, y := position.0 + i, position.1 + j;
      AsI32OfU32(pixels.width);
      AsI32OfU32(pixels.Height());
      AsI32OfU32(x);
      AsI32OfU32(y);
    }

    /** A column of `2^31` or more wraps to a negative `i32`, so it is
        refused by the first test whenever the position is not negative. */
    lemma {:induction false} WrappedColumnRefused(x: nat, y: nat)
      requires Valid() && EdgesFit()
      requires IsU32(x) && IsU32(y)
      requires x > I32_MAX && position.0 >= 0
      ensures PixelAt(x, y) == None
    {
      AsI32OfU32(x);
    }

    /** With `center`, the point the layer was placed at shows the middle
        pixel of the image (the left and upper one of two middles). */
    lemma {:induction false} CentredOnPlacement(at: (int, int))
      requires Valid() && EdgesFit()
      requires 0 < pixels.width <= I32_MAX && 0 < pixels.Height() <= I32_MAX
      requires 0 <= at.0 <= I32_MAX && 0 <= at.1 <= I32_MAX
      requires position == (CentredOffset(at.0, pixels.width), CentredOffset(at.1, pixels.Height()))
      ensures PixelAt(at.0, at.1) == Some(pixels.At(pixels.width / 2, pixels.Height() / 2))
    {
      var w, h := pixels.width, pixels.Height();
      AsI32OfU32(w);
      AsI32OfU32(h);
      assert position.0 + w / 2 == at.0 && position.1 + h / 2 == at.1;
      PlacedPixel(w / 2, h / 2);
    }
  }

  /** A quotient bracketed by `h * w` is `h`. */
  lemma HeightOfExact(q: nat, w: nat, h: nat)
    requires 0 < w && q * w <= h * w < (q + 1) * w
    ensures q == h
  {
  }

  /** A `u32` read as an `i32`: itself up to `i32::MAX`, and 2^32 less above. */
  lemma AsI32OfU32(n: nat)
    requires IsU32(n)
    ensures n <= I32_MAX ==> AsI32(n) == n
    ensures n > I32_MAX ==> AsI32(n) == n - 0x1_0000_0000
  {
  }
}

=== FILE: machine.dfy ===
/**
 * The fixed-width integers of the source (`usize`, `isize`, `i32`, `u32`)
 * on a 64-bit target, with the wrapping operations it uses.
 */
module MachineInts {

  const USIZE_MAX: nat := 0xFFFF_FFFF_FFFF_FFFF
  const ISIZE_MIN: int := -0x8000_0000_0000_0000
  const ISIZE_MAX: int := 0x7FFF_FFFF_FFFF_FFFF
  const I32_MIN: int := -0x8000_0000
  const I32_MAX: int := 0x7FFF_FFFF
  const U32_MAX: nat := 0xFFFF_FFFF

  predicate IsUsize(n: int) {
    0 <= n <= USIZE_MAX
  }

  predicate IsIsize(n: int) {
    ISIZE_MIN <= n <= ISIZE_MAX
  }

  predicate IsU32(n: int) {
    0 <= n <= U32_MAX
  }

  predicate IsI32(n: int) {
    I32_MIN <= n <= I32_MAX
  }

  function Min(a: int, b: int): (m: int)
    ensures m <= a && m <= b && (m == a || m == b)
  {
    if a <= b then a else b
  }

  function Max(a: int, b: int): (m: int)
    ensures a <= m && b <= m && (m == a || m == b)
  {
    if a <= b then b else a
  }

  /** `usize::wrapping_add_signed(x, d)`: the sum taken modulo 2^64. */
  function WrappingAddSigned(x: nat, d: int): (r: nat)
    requires IsUsize(x) && IsIsize(d)
    ensures IsUsize(r)
    ensures IsUsize(x + d) ==> r == x + d
    ensures x + d < 0 ==> r == x + d + USIZE_MAX + 1
    ensures x + d > USIZE_MAX ==> r == x + d - (USIZE_MAX + 1)
  {
    (x + d) % (USIZE_MAX + 1)
  }

  /** `n as i32` for an unsigned `n`: the low 32 bits, read in two's complement. */
  function AsI32(n: nat): (r: int)
    ensures IsI32(r)
    ensures n <= I32_MAX ==> r == n
    ensures (r - n) % 0x1_0000_0000 == 0
  {
    var low := n % 0x1_0000_0000;
    if low <= I32_MAX then low else low - 0x1_0000_0000
  }

  /** `n as u32` for an unsigned `n`: the low 32 bits. */
  function AsU32(n: nat): (r: nat)
    ensures IsU32(r) && r <= n
    ensures n <= U32_MAX ==> r == n
    ensures (n - r) % 0x1_0000_0000 == 0
  {
    n % 0x1_0000_0000
  }

  /** Signed division rounding toward zero, as Rust's `/` on `i32` does
      (Dafny's own `/` rounds toward negative infinity for a positive divisor). */
  function TruncDiv(a: int, b: int): (q: int)
    requires b > 0
    ensures a >= 0 ==> q == a / b
    ensures a < 0 ==> q == -((-a) / b)
  {
    if a >= 0 then a / b else -((-a) / b)
  }

  /** `n as isize` for a `usize` `n`: the same 64 bits read in two's complement. */
  function AsIsize(n: nat): (r: int)
    ensures IsIsize(r)
    ensures n <= ISIZE_MAX ==> r == n
    ensures (r - n) % (USIZE_MAX + 1) == 0
  {
    var low := n % (USIZE_MAX + 1);
    if low <= ISIZE_MAX then low else low - (USIZE_MAX + 1)
  }

  /** `v as isize` for a float `v` (taken exactly): truncated toward zero and
      saturated at the bounds of `isize`. */
  function RealToIsize(v: real): (r: int)
    ensures IsIsize(r)
    ensures 0.0 <= v && v < ISIZE_MAX as real ==> r == v.Floor
    ensures v < 0.0 && ISIZE_MIN as real < v ==> r == -((-v).Floor)
  {
    var t := if v >= 0.0 then v.Floor else -((-v).Floor);
    Max(ISIZE_MIN, Min(t, ISIZE_MAX))
  }

  /** Multiplication by a natural number is monotone. */
  lemma {:induction false} MulLe(a: nat, b: nat, c: nat)
    requires a <= b
    ensures a * c <= b * c
  {
    assert b * c == a * c + (b - a) * c;
  }
}

=== FILE: pixel.dfy ===
/**
 * RGBA pixels generic over a channel type (src/bitmap/pixel.rs).
 *
 * The source's `PixelChannel` trait is implemented for `u8` and `u16` only;
 * a channel type is modelled by the `Channel` tag and channel values are
 * natural numbers that the type's range bounds. The `f32` normalisation is
 * modelled in exact rational arithmetic.
 */
module Pixels {

  /** The channel types that implement `PixelChannel`. */
  datatype Channel = U8 | U16 {
    /** `T::max_value()` */
    function Max(): (m: nat)
      ensures m > 0
    {
      match this
      case U8 => 0xFF
      case U16 => 0xFFFF
    }

    /** `size_of::<T>()` in bytes */
    function Size(): nat {
      match this
      case U8 => 1
      case U16 => 2
    }
  }

  /** Four channels laid out as r, g, b, a. */
  datatype AlphaPixel = AlphaPixel(r: nat, g: nat, b: nat, a: nat)

  /** Every channel value is representable in the channel type. */
  predicate InRange(ch: Channel, p: AlphaPixel) {
    p.r <= ch.Max() && p.g <= ch.Max() && p.b <= ch.Max() && p.a <= ch.Max()
  }

  /** The `rgba!(r, g, b, a)` macro: fields taken in r, g, b, a order. */
  function Rgba(r: nat, g: nat, b: nat, a: nat): (p: AlphaPixel)
    ensures p.r == r && p.g == g && p.b == b && p.a == a
  {
    AlphaPixel(r, g, b, a)
  }

  function White(ch: Channel): (p: AlphaPixel)
    ensures InRange(ch, p) && p.a == ch.Max()
  {
    AlphaPixel(ch.Max(), ch.Max(), ch.Max(), ch.Max())
  }

  function Black(ch: Channel): (p: AlphaPixel)
    ensures InRange(ch, p) && p.a == ch.Max()
  {
    AlphaPixel(0, 0, 0, ch.Max())
  }

  function Red(ch: Channel): (p: AlphaPixel)
    ensures InRange(ch, p) && p.a == ch.Max()
  {
    AlphaPixel(ch.Max(), 0, 0, ch.Max())
  }

  function Green(ch: Channel): (p: AlphaPixel)
    ensures InRange(ch, p) && p.a == ch.Max()
  {
    AlphaPixel(0, ch.Max(), 0, ch.Max())
  }

  function Blue(ch: Channel): (p: AlphaPixel)
    ensures InRange(ch, p) && p.a == ch.Max()
  {
    AlphaPixel(0, 0, ch.Max(), ch.Max())
  }

  /** `AlphaPixel::default()`: transparent black. */
  function Default(): AlphaPixel {
    AlphaPixel(0, 0, 0, 0)
  }

  /** True when the pixel is one of the five colour presets of `ch`. */
  predicate IsPreset(ch: Channel, p: AlphaPixel) {
    p == White(ch) || p == Black(ch) || p == Red(ch) || p == Green(ch) || p == Blue(ch)
  }

  /** The presets are opaque, in range, and pairwise distinct; each colour preset
      saturates exactly one of r, g, b. */
  lemma PresetProperties(ch: Channel)
    ensures forall p :: IsPreset(ch, p) ==> InRange(ch, p) && p.a == ch.Max()
    ensures White(ch).r == White(ch).g == White(ch).b == ch.Max()
    ensures Black(ch).r == Black(ch).g == Black(ch).b == 0
    ensures Red(ch).r == ch.Max() && Red(ch).g == 0 && Red(ch).b == 0
    ensures Green(ch).g == ch.Max() && Green(ch).r == 0 && Green(ch).b == 0
    ensures Blue(ch).b == ch.Max() && Blue(ch).r == 0 && Blue(ch).g == 0
    ensures |{White(ch), Black(ch), Red(ch), Green(ch), Blue(ch)}| == 5
  {
    assert White(ch) != Black(ch);
    assert {White(ch), Black(ch), Red(ch), Green(ch), Blue(ch)}
        == {White(ch)} + {Black(ch)} + {Red(ch)} + {Green(ch)} + {Blue(ch)};
  }

  /** The default pixel is the only pixel with every channel zero, and it is
      not a preset: the presets are all opaque. */
  lemma DefaultIsTransparentBlack(ch: Channel, p: AlphaPixel)
    ensures p == Default() <==> p.r == 0 && p.g == 0 && p.b == 0 && p.a == 0
    ensures InRange(ch, Default()) && !IsPreset(ch, Default())
  {
  }

  /** The `image::ColorType` tags that `color_type` can produce. */
  datatype ColorType = Rgba8 | Rgba16 | Rgba32F

  /** `AlphaPixel::<T>::color_type()`, a branch on `size_of::<T>()`; any other
      size reaches `unreachable!()`, so a caller must not ask for one. */
  function ColorTypeOf(size: nat): (t: ColorType)
    requires size == 1 || size == 2 || size == 4
    ensures t == Rgba8 <==> size == 1
    ensures t == Rgba16 <==> size == 2
    ensures t == Rgba32F <==> size == 4
  {
    if size == 1 then Rgba8
    else if size == 2 then Rgba16
    else Rgba32F
  }

  /** The tag of each modelled channel type. */
  lemma ColorTypeOfChannels()
    ensures ColorTypeOf(U8.Size()) == Rgba8 && ColorTypeOf(U16.Size()) == Rgba16
  {
  }

  /** A pixel with `f32` channels, modelled exactly. */
  datatype FloatPixel = FloatPixel(r: real, g: real, b: real, a: real)

  function NormaliseChannel(ch: Channel, v: nat): (f: real)
    ensures v <= ch.Max() ==> 0.0 <= f <= 1.0
  {
    v as real / ch.Max() as real
  }

  /** `From<AlphaPixel<T>> for AlphaPixel<f32>`: every channel becomes `v / max`. */
  function Normalise(ch: Channel, p: AlphaPixel): (f: FloatPixel)
    ensures InRange(ch, p) ==> 0.0 <= f.r <= 1.0 && 0.0 <= f.g <= 1.0 && 0.0 <= f.b <= 1.0 && 0.0 <= f.a <= 1.0
  {
    FloatPixel(NormaliseChannel(ch, p.r), NormaliseChannel(ch, p.g),
               NormaliseChannel(ch, p.b), NormaliseChannel(ch, p.a))
  }

  /** `T::from_f32(v * max).unwrap()` for a value in [0, 1]: the product is
      truncated toward zero, which for a non-negative value is its floor. */
  function DenormaliseChannel(ch: Channel, f: real): (v: nat)
    requires 0.0 <= f <= 1.0
    ensures v <= ch.Max()
    ensures v as real <= f * ch.Max() as real < v as real + 1.0
  {
    var m := ch.Max() as real;
    assert 0.0 <= f * m <= m;
    (f * m).Floor
  }

  /** A max channel normalises to 1, a zero channel to 0 (the float conversion unit test). */
  lemma NormaliseExtremes(ch: Channel)
    ensures Normalise(ch, White(ch)) == FloatPixel(1.0, 1.0, 1.0, 1.0)
    ensures Normalise(ch, Default()) == FloatPixel(0.0, 0.0, 0.0, 0.0)
    ensures Normalise(ch, Black(ch)) == FloatPixel(0.0, 0.0, 0.0, 1.0)
  {
  }

  /** Normalising and then scaling back by the same channel type's maximum is
      the identity on in-range channels. */
  lemma {:induction false} ChannelRoundTrip(ch: Channel, v: nat)
    requires v <= ch.Max()
    ensures DenormaliseChannel(ch, NormaliseChannel(ch, v)) == v
  {
    var m := ch.Max() as real;
    calc {
      NormaliseChannel(ch, v) * m;
      (v as real / m) * m;
      v as real;
    }
  }

  /** Normalisation is injective on in-range pixels. */
  lemma NormaliseInjective(ch: Channel, p: AlphaPixel, q: AlphaPixel)
    requires InRange(ch, p) && InRange(ch, q)
    ensures Normalise(ch, p) == Normalise(ch, q) <==> p == q
  {
    if Normalise(ch, p) == Normalise(ch, q) {
      ChannelRoundTrip(ch, p.r); ChannelRoundTrip(ch, q.r);
      ChannelRoundTrip(ch, p.g); ChannelRoundTrip(ch, q.g);
      ChannelRoundTrip(ch, p.b); ChannelRoundTrip(ch, q.b);
      ChannelRoundTrip(ch, p.a); ChannelRoundTrip(ch, q.a);
    }
  }
}

=== FILE: pixel_buffer.dfy ===
/**
 * The older pixel buffer (src/pixel/base.rs): `ImagePixels`, a flat
 * row-major vector of colours with a `u32` width. Its height is not stored;
 * it is `len as u32 / width`. The colour type (`RGBAColor`, four `f64`s) is
 * left abstract as the type parameter `T`.
 */
module PixelBuffers {
  import opened MachineInts
  import opened Images

  /** The rows laid end to end, as `rows.into_iter().flatten()` does. */
  function Flatten<T>(rows: seq<seq<T>>): seq<T> {
    if rows == [] then [] else rows[0] + Flatten(rows[1..])
  }

  /** `s.chunks(w)`: consecutive pieces of length `w`, the last one shorter
      when `w` does not divide `|s|`. */
  function Chunks<T>(s: seq<T>, w: nat): seq<seq<T>>
    requires w > 0
    decreases |s|
  {
    if s == [] then [] else
      var k := Min(w, |s|);
      [s[..k]] + Chunks(s[k..], w)
  }

  /** Every bound that makes `x + y * width` a valid, non-overflowing index:
      it stays below `len as u32`, and so below both `len` and 2^32. */
  lemma {:induction false} IndexInBounds(x: nat, y: nat, width: nat, len: nat)
    requires x < width && y < AsU32(len) / width
    ensures x + y * width < AsU32(len) <= len
    ensures IsU32(x + y * width)
  {
    var n := AsU32(len);
    var h := n / width;
    assert n == h * width + n % width;
    MulLe(y + 1, h, width);
    assert (y + 1) * width == y * width + width;
  }

  class ImagePixels<T> {
    var width: nat
    var pixels: array<T>

    /** The width fits its `u32` field. */
    ghost predicate Valid()
      reads this
    {
      IsU32(width)
    }

    /** `from_pixel_rows`: the width is the length of the first row, cast to
        `u32`; the buffer is the rows concatenated. With no rows at all the
        source panics, hence the precondition. */
    constructor FromPixelRows(rows: seq<seq<T>>)
      requires |rows| > 0
      ensures Valid()
      ensures width == AsU32(|rows[0]|)
      ensures fresh(pixels) && pixels[..] == Flatten(rows)
    {
      width := AsU32(|rows[0]|);
      var flat := Flatten(rows);
      pixels := new T[|flat|](i requires 0 <= i < |flat| => flat[i]);
    }

    /** `from_pixels`: stores the width and the vector as given. */
    constructor FromPixels(w: nat, buffer: seq<T>)
      requires IsU32(w)
      ensures Valid()
      ensures width == w
      ensures fresh(pixels) && pixels[..] == buffer
    {
      width := w;
      pixels := new T[|buffer|](i requires 0 <= i < |buffer| => buffer[i]);
    }

    /** `as_raw`: the vector, unchanged. */
    method AsRaw() returns (s: seq<T>)
      ensures s == pixels[..]
    {
      s := pixels[..];
    }

    /** `width()`. */
    function Width(): (w: nat)
      reads this
      ensures Valid() ==> IsU32(w)
    {
      width
    }

    /** `height()`: the length cast to `u32`, divided by the width; the
        source panics on a zero width. */
    function Height(): (h: nat)
      requires width > 0
      reads this
      ensures IsU32(h)
      ensures h * width <= pixels.Length
      ensures pixels.Length <= U32_MAX ==> pixels.Length < (h + 1) * width
    {
      var n := AsU32(pixels.Length);
      assert n == (n / width) * width + n % width;
      n / width
    }

    /** `get_pixel_at(x, y)`: `None` outside `width` by `height`, else the
        pixel at `x + y * width`. The index is always inside the buffer, so
        the final `get` never falls outside it, and the `u32` arithmetic
        never overflows. */
    function GetPixelAt(x: nat, y: nat): (r: Option<T>)
      reads this, pixels
      ensures r.Some? <==> x < width && y < Height()
      ensures r.Some? ==> IsU32(x + y * width) && x + y * width < pixels.Length
      ensures r.Some? ==> r.value == pixels[x + y * width] == At(x, y)
    {
      if x >= width || y >= Height() then None
      else
        var idx := x + y * width;
        IndexInBounds(x, y, width, pixels.Length);
        Some(pixels[idx])
    }

    /** The pixel in column `x` of row `y`, for a point inside the image. */
    ghost function At(x: nat, y: nat): T
      requires x < width && y < Height()
      reads this, pixels
    {
      IndexInBounds(x, y, width, pixels.Length);
      pixels[x + y * width]
    }

    /** A write through `get_pixel_at_mut(x, y)`: the same bounds test and
        index as `get_pixel_at`; on success exactly that pixel changes. */
    method SetPixelAt(x: nat, y: nat, v: T) returns (ok: bool)
      modifies pixels
      ensures ok == old(GetPixelAt(x, y)).Some?
      ensures ok ==> pixels[..] == old(pixels[..])[x + y * width := v]
      ensures !ok ==> pixels[..] == old(pixels[..])
      ensures ok ==> GetPixelAt(x, y) == Some(v)
    {
      if x >= width || y >= Height() {
        return false;
      }
      IndexInBounds(x, y, width, pixels.Length);
      var idx := x + y * width;
      pixels[idx] := v;
      ok := true;
    }

    /** `as_pixel_rows`: the buffer cut into `width`-long chunks, in order.
        The source computes `height()` first, so a zero width panics. */
    method AsPixelRows() returns (rows: seq<seq<T>>)
      requires width > 0
      ensures rows == Chunks(pixels[..], width)
    {
      var s := pixels[..];
      rows := [];
      var i := 0;
      while i < |s|
        invariant i <= |s|
        invariant rows + Chunks(s[i..], width) == Chunks(s, width)
        decreases |s| - i
      {
        var k := Min(width, |s| - i);
        ChunksStep(rows, s, i, k, width);
        rows := rows + [s[i..i + k]];
        i := i + k;
      }
      assert s[i..] == [];
    }
  }

  /** Taking the next chunk off the unread part of the buffer. */
  lemma ChunksStep<T>(rows: seq<seq<T>>, s: seq<T>, i: nat, k: nat, w: nat)
    requires w > 0 && i < |s| && k == Min(w, |s| - i)
    ensures (rows + [s[i..i + k]]) + Chunks(s[i + k..], w) == rows + Chunks(s[i..], w)
  {
    assert s[i..][..k] == s[i..i + k] && s[i..][k..] == s[i + k..];
    assert Chunks(s[i..], w) == [s[i..i + k]] + Chunks(s[i + k..], w);
  }

  /** Laying the chunks end to end gives back the buffer. */
  lemma {:induction false} FlattenChunks<T>(s: seq<T>, w: nat)
    requires w > 0
    ensures Flatten(Chunks(s, w)) == s
    decreases |s|
  {
    if s != [] {
      var k := Min(w, |s|);
      FlattenChunks(s[k..], w);
      assert ([s[..k]] + Chunks(s[k..], w))[1..] == Chunks(s[k..], w);
      assert s[..k] + s[k..] == s;
    }
  }

  /** Every piece is non-empty and at most `w` long, and every piece but
      the last is exactly `w` long. */
  predicate RowsShaped<T>(c: seq<seq<T>>, w: nat) {
    forall i :: 0 <= i < |c| ==> 0 < |c[i]| <= w && (i < |c| - 1 ==> |c[i]| == w)
  }

  /** The chunks of any buffer have that shape. */
  lemma {:induction false} ChunksShape<T>(s: seq<T>, w: nat)
    requires w > 0
    ensures RowsShaped(Chunks(s, w), w)
    decreases |s|
  {
    if s != [] {
      var k := Min(w, |s|);
      var rest := Chunks(s[k..], w);
      ChunksShape(s[k..], w);
      var c := Chunks(s, w);
      assert c == [s[..k]] + rest;
      if rest != [] {
        assert s[k..] != [];
        assert k == w;
      }
      forall i | 0 <= i < |c|
        ensures 0 < |c[i]| <= w && (i < |c| - 1 ==> |c[i]| == w)
      {
        if i > 0 {
          assert c[i] == rest[i - 1];
        }
      }
    }
  }

  /** Rows of one common, non-zero length survive `from_pixel_rows`
      followed by `as_pixel_rows`. */
  lemma {:induction false} RowsRoundTrip<T>(rows: seq<seq<T>>, w: nat)
    requires w > 0
    requires forall i :: 0 <= i < |rows| ==> |rows[i]| == w
    ensures Chunks(Flatten(rows), w) == rows
    decreases |rows|
  {
    if rows != [] {
      var tail := Flatten(rows[1..]);
      RowsRoundTrip(rows[1..], w);
      assert Flatten(rows) == rows[0] + tail;
      assert (rows[0] + tail)[..w] == rows[0];
      assert (rows[0] + tail)[w..] == tail;
      assert rows == [rows[0]] + rows[1..];
    }
  }

  /** The round trip through the buffer: building it from rows of one common
      width `w`, with `w` a non-zero `u32`, and reading its rows back. */
  method RowsThroughBuffer<T>(rows: seq<seq<T>>, w: nat) returns (back: seq<seq<T>>)
    requires |rows| > 0 && 0 < w <= U32_MAX
    requires forall i :: 0 <= i < |rows| ==> |rows[i]| == w
    ensures back == rows
  {
    var buffer := new ImagePixels.FromPixelRows(rows);
    RowsRoundTrip(rows, w);
    back := buffer.AsPixelRows();
  }
}

=== FILE: rect.dfy ===
/**
 * Axis-aligned bounding rectangles (src/rect.rs).
 *
 * `Rect::contains` is modelled as written: both upper bounds are inclusive,
 * and the vertical extent is measured with `width`, not `height`.
 */
module Rects {
  import opened MachineInts

  /** A rectangle with `usize` corner and size. */
  datatype Rect = Rect(x: nat, y: nat, width: nat, height: nat) {

    predicate IsUsizeRect() {
      IsUsize(x) && IsUsize(y) && IsUsize(width) && IsUsize(height)
    }

    /** `contains(px, py)` evaluates without a `usize` overflow panic. The
        conjunction short-circuits, so `x + width` is computed only once
        `px >= x` holds, and `y + width` only once the first three tests pass. */
    predicate ContainsDefined(px: nat, py: nat) {
      (px >= x ==> IsUsize(x + width)) &&
      (px >= x && px <= x + width && py >= y ==> IsUsize(y + width))
    }

    /** `contains(px, py)`. */
    predicate Contains(px: nat, py: nat)
      requires ContainsDefined(px, py)
    {
      px >= x && px <= x + width && py >= y && py <= y + width
    }
  }

  /** The accepted points form the closed square [x, x + width] by
      [y, y + width]: its opposite corners are contained, and a rectangle of
      zero width contains exactly its top-left corner, whatever its height. */
  lemma ContainsCorners(r: Rect)
    requires IsUsize(r.x + r.width) && IsUsize(r.y + r.width)
    ensures r.ContainsDefined(r.x, r.y) && r.Contains(r.x, r.y)
    ensures r.ContainsDefined(r.x + r.width, r.y + r.width) && r.Contains(r.x + r.width, r.y + r.width)
    ensures r.width == 0 ==> forall px: nat, py: nat :: r.ContainsDefined(px, py) ==> (r.Contains(px, py) <==> px == r.x && py == r.y)
  {
  }

  /** The column and row just past `width` are excluded. */
  lemma ContainsExcludesPastEdge(r: Rect, py: nat)
    requires IsUsize(r.x + r.width) && IsUsize(r.y + r.width)
    ensures r.ContainsDefined(r.x + r.width + 1, py) && !r.Contains(r.x + r.width + 1, py)
    ensures r.ContainsDefined(r.x, r.y + r.width + 1) && !r.Contains(r.x, r.y + r.width + 1)
  {
  }

  /** Rows below `y + width` are rejected even when the rectangle is taller
      than it is wide, so the bottom rows of such a rectangle are never
      contained. */
  lemma ContainsIgnoresHeight(r: Rect, py: nat)
    requires IsUsize(r.x + r.width) && IsUsize(r.y + r.width)
    requires r.y + r.width < py < r.y + r.height
    ensures r.ContainsDefined(r.x, py) && !r.Contains(r.x, py)
  {
  }

  /** Two rectangles that differ only in height contain the same points. */
  lemma ContainsHeightIndependent(r: Rect, h: nat, px: nat, py: nat)
    requires r.ContainsDefined(px, py)
    ensures r.(height := h).ContainsDefined(px, py)
    ensures r.(height := h).Contains(px, py) == r.Contains(px, py)
  {
  }
}

=== FILE: text.dfy ===
/**
 * Text layers (src/layers/text/mod.rs).
 *
 * The layout's glyph placements are grouped by glyph and bounded by a
 * minimum and a maximum coordinate; the raster is sized to that bounding
 * box, and every glyph is drawn into it at its placement shifted by the
 * minimum. A `TextLayer` keeps its settings and their raster, and samples
 * like an image layer over that raster.
 */
module Text {
  import opened MachineInts
  import opened Pixels
  import opened Images
  import opened Rects
  import opened Filters
  import opened Layers
  import opened Layout

  /** The accumulators of `glyph_positions`: the coordinates of each glyph,
      and the minimum and maximum coordinates seen so far. */
  datatype Accum = Accum(positions: map<char, seq<(int, int)>>, minimum: (int, int), maximum: (int, int))

  function Metric(settings: TextSettings, g: char): Metrics {
    settings.font.metrics(g, settings.size)
  }

  /** One iteration of the loop of `glyph_positions` for a glyph placed at
      (p.x, p.y): its coordinate is appended to its list, the maximum grows to
      cover the glyph's far corner and the minimum to cover its origin. */
  function Add(settings: TextSettings, acc: Accum, p: Placement): (r: Accum)
    ensures r.positions.Keys == acc.positions.Keys + {p.glyph}
    ensures r.minimum.0 <= acc.minimum.0 && r.minimum.0 <= p.x
    ensures r.minimum.1 <= acc.minimum.1 && r.minimum.1 <= p.y
    ensures acc.maximum.0 <= r.maximum.0 && acc.maximum.1 <= r.maximum.1
  {
    var m := Metric(settings, p.glyph);
    var coords := if p.glyph in acc.positions then acc.positions[p.glyph] else [];
    Accum(acc.positions[p.glyph := coords + [(p.x, p.y)]],
          (Min(acc.minimum.0, p.x), Min(acc.minimum.1, p.y)),
          (Max(acc.maximum.0, p.x + AsIsize(m.width)), Max(acc.maximum.1, p.y + AsIsize(m.height))))
  }

  /** The loop of `glyph_positions` over the items yielded, in order, from
      empty accumulators at (0, 0); the first error ends it. */
  function Collect(settings: TextSettings, items: seq<Item>): Result<Accum, LayoutError> {
    if items == [] then Ok(Accum(map[], (0, 0), (0, 0)))
    else
      match Collect(settings, items[..|items| - 1])
      case Err(e) => Err(e)
      case Ok(acc) =>
        match items[|items| - 1]
        case Err(e) => Err(e)
        case Ok(p) => Ok(Add(settings, acc, p))
  }

  /** What `glyph_positions` returns for the settings. */
  ghost function GlyphPositionsOf(settings: TextSettings): Result<Accum, LayoutError> {
    Collect(settings, Items(settings, Start(settings)))
  }

  /** The coordinates at which glyph `g` is placed, in the order of `items`. */
  function Coords(items: seq<Item>, g: char): seq<(int, int)> {
    if items == [] then []
    else
      var last := items[|items| - 1];
      Coords(items[..|items| - 1], g) + (if last.Ok? && last.value.glyph == g then [(last.value.x, last.value.y)] else [])
  }

  /** `glyph_positions`: runs a `LayoutIter` over the settings to its end. */
  method GlyphPositions(settings: TextSettings) returns (r: Result<Accum, LayoutError>)
    ensures r == GlyphPositionsOf(settings)
  {
    var acc := Accum(map[], (0, 0), (0, 0));
    var iter := new LayoutIter(settings);
    ghost var done: seq<Item> := [];
    while true
      invariant iter.settings == settings
      invariant Items(settings, Start(settings)) == done + Items(settings, iter.State())
      invariant Collect(settings, done) == Ok(acc)
      decreases |iter.text|
    {
      ghost var st := iter.State();
      var item := iter.Next();
      CollectStep(settings, done, st, acc, item, iter.State());
      if item.None? {
        return Ok(acc);
      }
      match item.value {
        case Err(e) =>
          return Err(e);
        case Ok(p) =>
          acc := Add(settings, acc, p);
          done := done + [item.value];
      }
    }
  }

  /** What one call to `next` does to the loop of `glyph_positions`. */
  lemma CollectStep(settings: TextSettings, done: seq<Item>, st: IterState, acc: Accum,
                    item: Option<Item>, next: IterState)
    requires Items(settings, Start(settings)) == done + Items(settings, st)
    requires Collect(settings, done) == Ok(acc)
    requires (item, next) == Step(settings, st)
    ensures item.None? ==> GlyphPositionsOf(settings) == Ok(acc)
    ensures item.Some? && item.value.Err? ==> GlyphPositionsOf(settings) == Err(item.value.error)
    ensures item.Some? && item.value.Ok? ==>
              && Items(settings, Start(settings)) == (done + [item.value]) + Items(settings, next)
              && Collect(settings, done + [item.value]) == Ok(Add(settings, acc, item.value.value))
  {
    ItemsUnfold(settings, st);
    if item.None? {
      assert done + [] == done;
    } else {
      CollectMore(settings, done, item.value, Items(settings, next), acc);
    }
  }

  /** The loop of `glyph_positions` after one more item `it`, with `rest`
      still to come. */
  lemma CollectMore(settings: TextSettings, done: seq<Item>, it: Item, rest: seq<Item>, acc: Accum)
    requires Items(settings, Start(settings)) == done + ([it] + rest)
    requires Collect(settings, done) == Ok(acc)
    ensures Items(settings, Start(settings)) == (done + [it]) + rest
    ensures it.Err? ==> GlyphPositionsOf(settings) == Err(it.error)
    ensures it.Ok? ==> Collect(settings, done + [it]) == Ok(Add(settings, acc, it.value))
  {
    assert done + ([it] + rest) == (done + [it]) + rest;
    CollectSnoc(settings, done, it);
    if it.Err? {
      CollectErrSticky(settings, done + [it], rest);
    }
  }

  /** One more iteration of the loop. */
  lemma CollectSnoc(settings: TextSettings, done: seq<Item>, item: Item)
    ensures Collect(settings, done).Err? ==> Collect(settings, done + [item]) == Collect(settings, done)
    ensures Collect(settings, done).Ok? && item.Err? ==> Collect(settings, done + [item]) == Err(item.error)
    ensures Collect(settings, done).Ok? && item.Ok? ==>
              Collect(settings, done + [item]) == Ok(Add(settings, Collect(settings, done).value, item.value))
  {
    assert (done + [item])[..|done|] == done;
  }

  /** Once the loop has failed, it stays failed with the same error. */
  lemma {:induction false} CollectErrSticky(settings: TextSettings, a: seq<Item>, b: seq<Item>)
    requires Collect(settings, a).Err?
    ensures Collect(settings, a + b) == Collect(settings, a)
    decreases |b|
  {
    if b == [] {
      assert a + b == a;
    } else {
      assert (a + b)[..|a + b| - 1] == a + b[..|b| - 1];
      CollectErrSticky(settings, a, b[..|b| - 1]);
    }
  }

  /** `glyph_positions` fails exactly when the layout yields an error, and
      then with the first error yielded. */
  lemma {:induction false} CollectFirstError(settings: TextSettings, items: seq<Item>)
    ensures Collect(settings, items).Err? <==> exists i :: 0 <= i < |items| && items[i].Err?
    ensures Collect(settings, items).Err? ==>
              exists i :: 0 <= i < |items| && items[i].Err? && items[i].error == Collect(settings, items).error &&
                          forall j :: 0 <= j < i ==> items[j].Ok?
  {
    if items != [] {
      var init := items[..|items| - 1];
      CollectFirstError(settings, init);
      assert forall i :: 0 <= i < |init| ==> init[i] == items[i];
    }
  }

  /** On success the minimum is at most (0, 0) and at most every origin, the
      maximum at least (0, 0) and at least every glyph's far corner, and each
      is reached by (0, 0) or by some glyph. */
  lemma {:induction false} CollectBounds(settings: TextSettings, items: seq<Item>)
    requires Collect(settings, items).Ok?
    ensures var acc := Collect(settings, items).value;
            acc.minimum.0 <= 0 && acc.minimum.1 <= 0 && acc.maximum.0 >= 0 && acc.maximum.1 >= 0
    ensures var acc := Collect(settings, items).value;
            forall i :: 0 <= i < |items| ==>
              items[i].Ok? &&
              acc.minimum.0 <= items[i].value.x && acc.minimum.1 <= items[i].value.y &&
              items[i].value.x + AsIsize(Metric(settings, items[i].value.glyph).width) <= acc.maximum.0 &&
              items[i].value.y + AsIsize(Metric(settings, items[i].value.glyph).height) <= acc.maximum.1
    ensures var acc := Collect(settings, items).value;
            (acc.minimum.0 == 0 || exists i :: 0 <= i < |items| && items[i].value.x == acc.minimum.0) &&
            (acc.minimum.1 == 0 || exists i :: 0 <= i < |items| && items[i].value.y == acc.minimum.1)
  {
    if items != [] {
      var init := items[..|items| - 1];
      CollectBounds(settings, init);
      assert forall i :: 0 <= i < |init| ==> init[i] == items[i];
    }
  }

  /** On success the list of each glyph holds exactly its coordinates, in the
      order they were laid out, and only placed glyphs have a list. */
  lemma {:induction false} CollectGroups(settings: TextSettings, items: seq<Item>)
    requires Collect(settings, items).Ok?
    ensures var acc := Collect(settings, items).value;
            forall g :: (g in acc.positions <==> Coords(items, g) != []) &&
                        (g in acc.positions ==> acc.positions[g] == Coords(items, g))
  {
    if items != [] {
      var init := items[..|items| - 1];
      CollectGroups(settings, init);
    }
  }

  /** The size of the raster: the bounding box of all glyphs, origin included. */
  function RasterSize(acc: Accum): (size: (nat, nat))
    requires acc.minimum.0 <= acc.maximum.0 && acc.minimum.1 <= acc.maximum.1
    ensures acc.minimum.0 + size.0 == acc.maximum.0 && acc.minimum.1 + size.1 == acc.maximum.1
  {
    (acc.maximum.0 - acc.minimum.0, acc.maximum.1 - acc.minimum.1)
  }

  /** Where a glyph placed at `coord` is drawn in the raster. */
  function RasterOffset(acc: Accum, coord: (int, int)): (offset: (nat, nat))
    requires acc.minimum.0 <= coord.0 && acc.minimum.1 <= coord.1
    ensures acc.minimum.0 + offset.0 == coord.0 && acc.minimum.1 + offset.1 == coord.1
  {
    (coord.0 - acc.minimum.0, coord.1 - acc.minimum.1)
  }

  /** Every glyph drawn into a raster of the intended size lies inside it:
      its offset is non-negative and its far corner within the raster. */
  lemma PlacementsFitRaster(settings: TextSettings, items: seq<Item>, i: nat)
    requires Collect(settings, items).Ok? && i < |items|
    ensures items[i].Ok?
    ensures var acc := Collect(settings, items).value;
            var p := items[i].value;
            var m := Metric(settings, p.glyph);
            acc.minimum.0 <= p.x && acc.minimum.1 <= p.y &&
            acc.minimum.0 <= acc.maximum.0 && acc.minimum.1 <= acc.maximum.1 &&
            RasterOffset(acc, (p.x, p.y)).0 + AsIsize(m.width) <= RasterSize(acc).0 &&
            RasterOffset(acc, (p.x, p.y)).1 + AsIsize(m.height) <= RasterSize(acc).1
  {
    CollectBounds(settings, items);
  }

  /** The dimensions of `Image::from_pixels(vec![default; w * h], w).unwrap()`,
      which `raster_from_settings` uses to make its raster: an empty buffer
      with width 0 makes a 0 by 0 image, whatever `h` is. */
  function FromPixelsDims(w: nat, h: nat): (dims: (nat, nat))
    ensures w > 0 ==> dims == (w, h)
    ensures w == 0 ==> dims == (0, 0)
  {
    assert w * h == h * w;
    CheckDimensionsMultiple(w, h);
    (w, CheckDimensions(w * h, w).value)
  }

  lemma CheckDimensionsMultiple(w: nat, h: nat)
    ensures CheckDimensions(w * h, w).Ok?
    ensures w > 0 ==> CheckDimensions(w * h, w).value == h
    ensures w == 0 ==> CheckDimensions(w * h, w).value == 0
  {
  }

  /** A font whose space is an empty glyph (no width, no height, no `ymin`)
      and whose lines are 30 high. */
  function SpaceFont(): Font {
    Font((c: char, size: real) => Metrics(0, 0, 0, 8.0, 0.0),
         (a: char, b: char, size: real) => None,
         (size: real) => Some(30.0),
         (size: real) => Some(30.0))
  }

  function SpaceSettings(): TextSettings {
    TextSettings(30.0, Default(), DefaultLayout(), " ", SpaceFont())
  }

  /** The text " " places its one empty glyph at (0, 30), so the raster
      should be 0 wide and 30 high. */
  lemma SpacePlacement()
    ensures Items(SpaceSettings(), Start(SpaceSettings())) == [Ok(Placement(' ', 0, 30))]
    ensures GlyphPositionsOf(SpaceSettings()) == Ok(Accum(map[' ' := [(0, 30)]], (0, 0), (0, 30)))
  {
    var settings := SpaceSettings();
    SpaceItems();
    var items: seq<Item> := [Ok(Placement(' ', 0, 30))];
    assert items[..0] == [];
    var empty := Accum(map[], (0, 0), (0, 0));
    assert Collect(settings, items[..0]) == Ok(empty);
    assert Metric(settings, ' ') == Metrics(0, 0, 0, 8.0, 0.0);
    assert AsIsize(0) == 0;
    var none: seq<(int, int)> := [];
    assert none + [(0, 30)] == [(0, 30)];
    assert Add(settings, empty, Placement(' ', 0, 30)).positions == empty.positions[' ' := [(0, 30)]];
    assert empty.positions[' ' := [(0, 30)]] == map[' ' := [(0, 30)]];
  }

  /** The layout of " " takes its first step: the space is placed at
      (0, 30) and the next origin is 8 along the line. */
  lemma SpaceFirstStep()
    ensures Step(SpaceSettings(), Start(SpaceSettings())) ==
            (Some(Ok(Placement(' ', 0, 30))), IterState([], Some((' ', 8)), 0))
  {
    var settings := SpaceSettings();
    var st := Start(settings);
    assert SkipNewlines(st) == st;
    var m := settings.font.metrics(' ', settings.size);
    assert CalculateOriginX(settings, None, 0, ' ') == Ok(0);
    assert RealToIsize(30.0 * (0 + 1) as real * 1.0) == 30;
    assert CalculateBaseline(settings, None, 0, m) == Ok(30);
    assert RealToIsize(1.0 * 8.0) == 8;
    assert NextOrigin(settings, 0, 30, m) == 8;
  }

  /** The layout of " ": one step places the space at (0, 30), the next ends. */
  lemma SpaceItems()
    ensures Items(SpaceSettings(), Start(SpaceSettings())) == [Ok(Placement(' ', 0, 30))]
  {
    var settings := SpaceSettings();
    var next := IterState([], Some((' ', 8)), 0);
    SpaceFirstStep();
    ItemsUnfold(settings, Start(settings));
    assert SkipNewlines(next) == next;
    ItemsUnfold(settings, next);
  }

  /** As written, the raster of " " is 0 by 0, so the glyph is drawn at row
      30 of an image with no rows: `draw_subimage` is called with `y` past
      the image's height and its `usize` subtraction underflows. The
      intended 0 by 30 raster holds the glyph. */
  lemma SpaceRasterTooShort()
    ensures GlyphPositionsOf(SpaceSettings()).Ok?
    ensures var acc := GlyphPositionsOf(SpaceSettings()).value;
            acc.minimum == (0, 0) && acc.maximum == (0, 30) &&
            RasterSize(acc) == (0, 30) && RasterOffset(acc, (0, 30)) == (0, 30)
    ensures FromPixelsDims(0, 30) == (0, 0)
  {
    SpacePlacement();
    SpaceBox(Accum(map[' ' := [(0, 30)]], (0, 0), (0, 30)));
  }

  lemma SpaceBox(acc: Accum)
    requires acc.minimum == (0, 0) && acc.maximum == (0, 30)
    ensures RasterSize(acc) == (0, 30) && RasterOffset(acc, (0, 30)) == (0, 30)
  {
  }

  /** The pixel count `w * h` of the raster of a layout's bounding box
      fits `usize`; the multiplication panics otherwise. */
  predicate PixelCountFits(acc: Accum) {
    acc.minimum.0 <= acc.maximum.0 && acc.minimum.1 <= acc.maximum.1 ==>
      IsUsize(RasterSize(acc).0 * RasterSize(acc).1)
  }

  /** The raster of a successful layout has a pixel count that fits `usize`. */
  ghost predicate RasterFits(settings: TextSettings) {
    GlyphPositionsOf(settings).Ok? ==> PixelCountFits(GlyphPositionsOf(settings).value)
  }

  /** `raster_from_settings`, up to the glyph blit: lays the text out and
      makes the blank raster of the bounding box's size, `w` by `h` even when
      `w` is 0 (`from_pixels` would make that 0 by 0). */
  method RasterFromSettings(ch: Channel, settings: TextSettings) returns (r: Result<Image, LayoutError>)
    requires RasterFits(settings)
    ensures r.Err? <==> GlyphPositionsOf(settings).Err?
    ensures r.Err? ==> r.error == GlyphPositionsOf(settings).error
    ensures r.Ok? ==> GlyphPositionsOf(settings).Ok?
    ensures r.Ok? ==> fresh(r.value) && r.value.Valid() && r.value.ch == ch
    ensures r.Ok? ==> CollectBoundsOrdered(settings) &&
                      (r.value.width, r.value.height) == RasterSize(GlyphPositionsOf(settings).value)
  {
    var positions := GlyphPositions(settings);
    if positions.Err? {
      return Err(positions.error);
    }
    CollectBounds(settings, Items(settings, Start(settings)));
    var size := RasterSize(positions.value);
    var im := new Image.WithFill(ch, Default(), size.0, size.1);
    return Ok(im);
  }

  /** The bounding box of a successful layout is well ordered. */
  ghost predicate CollectBoundsOrdered(settings: TextSettings) {
    GlyphPositionsOf(settings).Ok? &&
    GlyphPositionsOf(settings).value.minimum.0 <= GlyphPositionsOf(settings).value.maximum.0 &&
    GlyphPositionsOf(settings).value.minimum.1 <= GlyphPositionsOf(settings).value.maximum.1
  }

  /** `TextLayer<T>` */
  class TextLayer {
    const ch: Channel
    var settings: TextSettings
    var rasterized: Image
    var x: nat
    var y: nat
    var filters: seq<Filter>

    ghost predicate Valid()
      reads this, rasterized
    {
      rasterized.Valid() && rasterized.ch == ch
    }

    constructor (ch: Channel, settings: TextSettings, rasterized: Image, x: nat, y: nat)
      requires rasterized.Valid() && rasterized.ch == ch
      ensures Valid()
      ensures this.ch == ch && this.settings == settings && this.rasterized == rasterized
      ensures this.x == x && this.y == y && filters == []
    {
      this.ch := ch;
      this.settings := settings;
      this.rasterized := rasterized;
      this.x := x;
      this.y := y;
      filters := [];
    }

    /** `try_new`: rasterises the settings, failing as the layout fails; the
        layer starts with no filters. */
    static method TryNew(ch: Channel, settings: TextSettings, x: nat, y: nat) returns (r: Result<TextLayer, LayoutError>)
      requires RasterFits(settings)
      ensures r.Err? <==> GlyphPositionsOf(settings).Err?
      ensures r.Err? ==> r.error == GlyphPositionsOf(settings).error
      ensures r.Ok? ==> fresh(r.value) && fresh(r.value.rasterized) && r.value.Valid() && r.value.ch == ch
      ensures r.Ok? ==> r.value.settings == settings && r.value.x == x && r.value.y == y && r.value.filters == []
      ensures r.Ok? ==> CollectBoundsOrdered(settings) &&
                        (r.value.rasterized.width, r.value.rasterized.height) == RasterSize(GlyphPositionsOf(settings).value)
    {
      var raster := RasterFromSettings(ch, settings);
      if raster.Err? {
        return Err(raster.error);
      }
      var layer := new TextLayer(ch, settings, raster.value, x, y);
      return Ok(layer);
    }

    /** `set_settings`: the new settings are kept even when rasterising them
        fails, in which case the old raster stays. */
    method SetSettings(settings: TextSettings) returns (r: Result<(), LayoutError>)
      requires Valid() && RasterFits(settings)
      modifies this
      ensures this.settings == settings && Valid()
      ensures x == old(x) && y == old(y) && filters == old(filters)
      ensures r.Err? <==> GlyphPositionsOf(settings).Err?
      ensures r.Err? ==> r.error == GlyphPositionsOf(settings).error && rasterized == old(rasterized)
      ensures r.Ok? ==> fresh(rasterized) && CollectBoundsOrdered(settings) &&
                        (rasterized.width, rasterized.height) == RasterSize(GlyphPositionsOf(settings).value)
    {
      var raster := RasterFromSettings(ch, settings);
      this.settings := settings;
      if raster.Err? {
        return Err(raster.error);
      }
      rasterized := raster.value;
      return Ok(());
    }

    /** `get_rect`: the raster's extent placed at the layer's position. */
    function GetRect(): (r: Rect)
      reads this, rasterized
      ensures r.x == x && r.y == y && r.width == rasterized.width && r.height == rasterized.height
    {
      Rect(x, y, rasterized.width, rasterized.height)
    }

    /** The layer as the sampling pipeline sees it: `get_filters`,
        `get_rect` and `unfiltered_pixel_at_unchecked` are those of an image
        layer over the raster at (x, y). */
    function AsLayer(): (l: Layer)
      reads this
      ensures l.ImageLayer? && l.filters == filters && l.im == rasterized && l.x == x && l.y == y
    {
      ImageLayer(filters, rasterized, x, y)
    }
  }

  /** A text layer's rectangle is the one the pipeline samples it through. */
  lemma TextLayerRect(t: TextLayer)
    ensures t.AsLayer().GetRect() == t.GetRect()
  {
  }
}
